=== FILE: README.md ===
# kesai-transcoder core, modelled in Dafny

This project models the server side of kesai-transcoder. Its pieces are:

- **Upload handler.** It probes the video and records which quality presets fit the source width.
- **Transcode handler.** It narrows the requested qualities to that list, marks the record `queued` and enqueues a job.
- **Two single-job queues.** The live `jobQueue.ts` and the worker `jobProcessor.ts` share the same `processQueue` loop, and each has a restart path (`resumePendingJobs`).
- **Per-job pipeline.**
  - One HLS rendition per quality, with ffmpeg progress parsed from `out_time_ms=` lines.
  - The master playlist.
  - The cover thumbnail at a tenth of the duration.
  - The blurhash.
  - The storyboard image with its WebVTT cue file.
- **Store.** The SQLite `videos` table.

Modules, one per file:

| file | module | what it holds |
|---|---|---|
| `wrappers.dfy` | `Wrappers` | `Option`, `Result` |
| `text.dfy` | `Text` | JavaScript `split`/`join`, `parseInt`, decimal rendering, zero padding |
| `types.dfy` | `Types` | video record (nullable columns as `Option`), job, status, socket events, `Num` (an IEEE double that may be `NaN` or an infinity) |
| `presets.dfy` | `Presets` | the quality-preset table of `config.ts` and its copy in `videoService.ts` |
| `playlist.dfy` | `Playlist` | the master playlist text and a reader for it |
| `storyboard.dfy` | `Storyboard` | cue count, `HH:MM:SS.mmm` clock, cue-file text and a reader for it |
| `probe.dfy` | `Probe` | the probe result taken from ffprobe's JSON |
| `store.dfy` | `Store` | insert / update / select on the table as a map from id to row |
| `encoder.dfy` | `Encoder` | one ffmpeg run: progress percentages, final event, exit outcome |
| `pipeline.dfy` | `Pipeline` | one job from renditions to cue file, as an ordered trace of side effects |
| `controllers.dfy` | `Controllers` | `uploadVideo` and both `transcodeVideo` handlers |
| `scheduler.dfy` | `Scheduler` | the shared `processQueue` loop as atomic enqueue / settle transitions |
| `livequeue.dfy` | `JobQueue` | `jobQueue.ts`: the live queue and its restart path |
| `workerqueue.dfy` | `JobProcessor` | `jobProcessor.ts`: the worker queue with record updates, events and restart |

The subprocesses and the blurhash library are not run; they become an environment value:

- per rendition: the chunks ffmpeg writes and its exit code;
- the errors of the thumbnail and storyboard commands;
- the blurhash string.

Paths are joined with `/`.

Behaviour of the code that the model keeps as it is:

- **Restart stops at the first record that throws.** In both `resumePendingJobs` the loop ends at a null `qualities` column, or in the live queue at a null `storedFile`. Jobs already enqueued stay queued and later rows are skipped.
- **The worker's restart does not throw on a stored file.** When `storedFile` is null or empty, it enqueues the job with an empty input path.
- **Progress is only capped above.** The code applies `Math.min(100, …)` and nothing else, so a negative time gives a negative value. A zero duration gives 100 for a positive time, −∞ for a negative time and `NaN` for a time of 0.
- **Restart order.** `getPendingJobs` has no `ORDER BY`. The model returns the rows in ascending id order, which is SQLite's rowid order for this table.
- **No allowed quality.** When no preset fits, the upload stores an empty `qualities` column. Splitting it gives `[""]`, not an empty list.
- **Clock wraps at 24 h.** Cue times come from `toISOString().substr(11, 12)`, so they wrap at 24 hours.
- **Re-transcoding a running video.** The worker's transcode handler writes `status='queued'` just before `addJob`, so a request for the video whose job is running leaves that running row `queued`; `addJob` itself never touches it. The live queue never writes `processing`, so there the overwrite changes nothing.
- **Progress chunks are split on their own.** Each job's encoder reports come from the stdout handler as written, which splits every chunk by itself (see "## Findings"); the line-buffered handler is modelled beside it as the corrected form.

## Model

| member | source | states |
|---|---|---|
| Presets.Lookup | backend/src/config.ts:6-15 | a label resolves to a preset exactly when it is one of the table's labels |
| Presets.LookupEntry | backend/src/config.ts:6-15 | a resolved preset is the preset of an entry carrying that label |
| Presets.WellFormedPreset | backend/src/config.ts:7-14 | a preset written as `W:-2` / `Kk` / `WxH` parses back to width W from both the scale and the resolution, height `-2` and bitrate K |
| Presets.ConfigPresetsShape | backend/src/config.ts:6-15 | the labels are 144p … 2160p in order; each preset's bandwidth is its kbps × 1000 and its resolution width equals its scale width; widths and bandwidths strictly increase down the table |
| Presets.TablesAgree | backend/src/services/videoService.ts:18-26 | the service's table is the config table, so every label resolves the same in both |
| Presets.NamesArePlain | backend/src/config.ts:7-14 | labels are non-empty, distinct and contain neither a comma nor a newline |
| Text.SplitJoin | backend/src/controllers/videoController.ts:67 | splitting a comma-joined list of comma-free labels gives back the list |
| Text.JoinSplit | backend/src/controllers/videoController.ts:74 | joining the pieces of a split with the separator gives back the string |
| Text.SplitConcat | backend/src/utils/ffmpeg.ts:26 | the split of a concatenation is the two splits with the boundary pieces fused |
| Text.ParseIntOfNatToString | backend/src/utils/ffmpeg.ts:28 | `parseInt` reads a decimal rendering back, whatever non-digit text follows it |
| Text.SplitTerminated | backend/src/services/videoService.ts:41-46 | newline-terminated lines split into the lines followed by one empty piece |
| Playlist.MasterPlaylistDefined | backend/src/services/videoService.ts:42-46 | the playlist text exists exactly when every requested label has a preset; otherwise reading `preset.bandwidth` throws |
| Playlist.MasterPlaylistLines | backend/src/services/videoService.ts:41-45 | the text's lines are the two header lines, then per quality its stream-info line and its URI line, then a final empty piece: 2 + 2n + 1 pieces |
| Playlist.EntryLinesAt | backend/src/services/videoService.ts:44-45 | line 2i is quality i's `BANDWIDTH=…,RESOLUTION=…` tag and line 2i+1 is `<quality>.m3u8` |
| Playlist.MasterPlaylistRoundTrip | backend/src/services/videoService.ts:39-49 | reading the written playlist recovers exactly the requested qualities, in order, duplicates kept |
| Playlist.MasterPlaylistHeader | backend/src/services/videoService.ts:41 | every playlist starts with the `#EXTM3U` / `#EXT-X-VERSION:3` header |
| Storyboard.ParseFormatTime | backend/src/services/videoService.ts:85 | the 12-character `HH:MM:SS.mmm` rendering of a time reads back as that time modulo one day |
| Storyboard.FormatTimeWraps | backend/src/services/videoService.ts:85 | a time and the same time one day later render identically |
| Storyboard.CuesContiguous | backend/src/services/videoService.ts:86-87 | each cue lasts two seconds and ends where the next one starts |
| Storyboard.CueInGrid | backend/src/services/videoService.ts:78-91 | every tile lies inside the 8-column grid of `ceil(n / 8)` rows passed to the tiling filter |
| Storyboard.CuesDisjoint | backend/src/services/videoService.ts:88-91 | two different cues point at non-overlapping tiles |
| Storyboard.CueCountIsFloor | backend/src/services/videoService.ts:76-84 | the loop writes `floor(duration / 2)` cues, three lines each, after the two header lines |
| Storyboard.ShortVideoCueFile | backend/src/services/videoService.ts:83-97 | a video shorter than two seconds gets a cue file holding only `WEBVTT` and a newline |
| Storyboard.VttRoundTrip | backend/src/services/videoService.ts:72-98 | reading the cue file back gives `floor(duration / 2)` cues; cue i is the range from 2i to 2i+2 seconds on the 24-hour clock, and its 180×101 tile sits at column i mod 8, row i div 8 |
| Storyboard.BlocksInterleave | backend/src/services/videoService.ts:92-94 | timing/fragment/blank triples read back pointwise as the cues each pair denotes |
| Probe.FirstVideo | backend/src/utils/probe.ts:17-20 | the index found is a video stream with no video stream before it, and none is found only when no stream is video |
| Probe.ProbeVideo | backend/src/utils/probe.ts:10-29 | every failure surfaces as the one `Failed to probe video file` message; a success takes its duration from the format section |
| Probe.ProbeSucceedsIff | backend/src/utils/probe.ts:14-24 | probing succeeds exactly when there is output, a stream list with some video stream, and a format duration |
| Probe.ProbeUsesFirstVideo | backend/src/utils/probe.ts:17-24 | width and height come from the first video stream |
| Probe.NoStreamsFails | backend/src/utils/probe.ts:14-16 | a missing or empty stream list fails |
| Store.Insert | backend/src/services/database.ts:33-40 | the new row gets the next id, carries the given columns with null output columns, and leaves every other row alone |
| Store.InsertValid | backend/src/services/database.ts:9-24 | inserting keeps ids unique, keyed by themselves and below the counter |
| Store.Apply | backend/src/services/database.ts:47-54 | a patch sets exactly the fields it names and leaves every other column unchanged |
| Store.Update | backend/src/services/database.ts:47-54 | an empty patch or a missing id changes nothing; otherwise only that row changes, by the patch |
| Store.GetById | backend/src/services/database.ts:61-64 | a lookup finds a row exactly when the id is in the table, and returns that row |
| Store.GetAfterUpdate | backend/src/services/database.ts:47-64 | reading after an update sees the patched row for that id and the old row for every other id |
| Store.PendingExactly | backend/src/services/database.ts:79-82 | the pending list holds exactly the table's `queued` and `processing` rows, in ascending id order |
| Store.SortByDate | backend/src/services/database.ts:70-73 | the result is newest-first and a permutation of its input |
| Store.AllVideosSorted | backend/src/services/database.ts:70-73 | the full listing is newest-first and holds every row exactly once |
| Encoder.SpawnArgs | backend/src/utils/ffmpeg.ts:23 | the spawned vector is the caller's arguments unchanged, followed by `-progress pipe:1` |
| Encoder.Percent | backend/src/utils/ffmpeg.ts:29 | the percentage is never +∞ and a finite value is at most 100; a time that does not parse gives `NaN`; a parsed time over a non-zero duration gives a finite value |
| Encoder.PercentMonotone | backend/src/utils/ffmpeg.ts:29 | for a positive duration a later time never gives a smaller percentage |
| Encoder.PercentFull | backend/src/utils/ffmpeg.ts:29 | once the time reaches the duration the percentage is exactly 100 |
| Encoder.PercentNotClampedBelow | backend/src/utils/ffmpeg.ts:29 | a negative time gives a negative percentage |
| Encoder.LineEvent | backend/src/utils/ffmpeg.ts:27-30 | a line yields one progress event exactly when it starts with `out_time_ms=` |
| Encoder.LineEventsAppend | backend/src/utils/ffmpeg.ts:26-32 | the events of two runs of lines are the events of each, in order |
| Encoder.OtherLinesIgnored | backend/src/utils/ffmpeg.ts:27 | lines without the key produce no events |
| Encoder.Run | backend/src/utils/ffmpeg.ts:37-44 | corrected half of the Findings row (stdout read by lines): the run resolves exactly on exit code 0, and then its last event is the final `'100'`; any other exit rejects with `ffmpeg exited with code <code>` and has no final event |
| Encoder.RunAsWritten | backend/src/utils/ffmpeg.ts:25-44 | with per-chunk splitting as written, the run resolves exactly on exit code 0, and then its last event is the final `'100'`; any other exit rejects with `ffmpeg exited with code <code>` and has no final event; no event is +∞ |
| Encoder.StderrIgnored | backend/src/utils/ffmpeg.ts:34-36 | stderr output never changes what the caller observes |
| Encoder.ExitMessageNamesCode | backend/src/services/ffmpegService.ts:31-36 | a non-zero exit rejects with the code written in decimal and emits nothing |
| Encoder.LineBufferedEvents | backend/src/services/ffmpegService.ts:18-26 | corrected half of the Findings row, since this handler too splits each chunk by itself: a handler that keeps the unterminated tail between chunks emits exactly the events of the whole stream's lines |
| Encoder.WholeLineChunksAgree | backend/src/utils/ffmpeg.ts:25-33 | when every chunk ends in a newline, the handler as written and the stream's lines agree |
| Encoder.AsWrittenSplitLine | backend/src/utils/ffmpeg.ts:25-31 | as written, a line `out_time_ms=<n>` whose digits continue in the next chunk is reported once, with the value n of its first half only |
| Encoder.StreamSplitLine | backend/src/services/ffmpegService.ts:18-24 | corrected half of the Findings row, not what this handler does: the stream carrying that split line holds one progress line, reported with the whole value |
| Encoder.SplitLineMisread | backend/src/utils/ffmpeg.ts:26-30 | a progress line split across two chunks is reported differently by the handler as written: for `out_time_ms=5` then `0000000\n` at 100 s it reports 0.000005 (`0.00` after `toFixed(2)`) where the stream's line means 50 (`50.00`) |
| Pipeline.EncoderArgs | backend/src/services/transcodingService.ts:23-36 | the 22 arguments carry the input, the preset's bitrate, its scale filter and the rendition output at fixed positions |
| Pipeline.EncoderArgsTemplate | backend/src/services/jobProcessor.ts:33-46 | two argument lists differ only in input, bitrate, scale and output; all ask for reset timestamps, 10-second segments and a VOD playlist |
| Pipeline.CommandLine | backend/src/utils/ffmpeg.ts:23 | an encode step's command line is 24 arguments ending in the progress flags |
| Pipeline.RenditionsSucceedIff | backend/src/services/transcodingService.ts:20-45 | the renditions loop finishes exactly when every quality has a preset and its encoder exits 0 |
| Pipeline.RenditionsInOrder | backend/src/services/transcodingService.ts:20-45 | on success the k-th step encodes the k-th quality, with its own preset, into `<outputDir>/<quality>.m3u8` |
| Pipeline.FailureStopsRenditions | backend/src/services/transcodingService.ts:37-44 | the first failing encoder ends the loop after its own encode, with its error rethrown |
| Pipeline.FinishSucceeds | backend/src/services/transcodingService.ts:47-89 | once every label is known, the steps after the renditions succeed exactly when the thumbnail and storyboard commands do, and then they are the five fixed final steps |
| Pipeline.RunJobSucceeds | backend/src/services/transcodingService.ts:18-90 | a job resolves exactly when every rendition and both image commands succeed; then it issues n encodes in order, then the playlist write, thumbnail at duration × 0.1, blurhash, storyboard tiling and cue-file write, and resolves with the blurhash |
| Pipeline.EncoderFailureStopsJob | backend/src/services/jobProcessor.ts:47-54 | an encoder failure at rendition j throws its exit message after exactly j+1 encodes; no playlist, thumbnail or storyboard step runs |
| Pipeline.ThumbnailFailureStopsJob | backend/src/services/transcodingService.ts:58-60 | a failing thumbnail command ends the job right after it: no blurhash, storyboard or cue file |
| Pipeline.PipelinesAgree | backend/src/services/jobProcessor.ts:28-85 | both copies of the pipeline produce the same trace for the same job and environment; the agreement rests on one shared `RunJob` for both copies, on `Presets.TablesAgree` for their preset tables and on `Pipeline.InlineMasterPlaylist` for the worker's inline playlist loop |
| Pipeline.InlineMasterPlaylist | backend/src/services/transcodingService.ts:48-54 | the inline loop builds the same text as the generator, and none when a label has no preset |
| Controllers.AllowedIff | backend/src/controllers/videoController.ts:27-31 | a label is allowed exactly when some table entry with that label has a parsed resolution width no larger than the source's |
| Controllers.AllowedIsPrefix | backend/src/controllers/videoController.ts:27-31 | for the real table the allowed labels are a prefix of the table's labels |
| Controllers.AllowedAt640 | backend/src/controllers/videoController.ts:27-31 | a 640-pixel-wide source allows exactly 144p, 240p and 360p |
| Controllers.Upload | backend/src/controllers/videoController.ts:17-48 | an upload is accepted exactly when a file is present and probes; a rejected upload stores and announces nothing, and is a 400 or a 500 carrying the probe's message |
| Controllers.UploadStoresAllowed | backend/src/controllers/videoController.ts:32-43 | an upload with a file that probes is accepted and adds one `pending` row under the next id, whose qualities column splits back to the allowed list (`[""]` when empty), and announces exactly that row |
| Controllers.Select | backend/src/controllers/videoController.ts:68 | the selection keeps exactly the requested labels that are available, and is no longer than the request |
| Controllers.SelectCounts | backend/src/controllers/transcodeController.ts:27 | each available label is selected as often as it was requested; others never |
| Controllers.SelectAppend | backend/src/controllers/transcodeController.ts:25-27 | the selection keeps request order: selecting from a concatenation is the concatenation of the two selections |
| Controllers.SelectIdempotent | backend/src/controllers/transcodeController.ts:27 | selecting again from the same list changes nothing |
| Controllers.Transcode | backend/src/controllers/videoController.ts:55-92 | a job exists exactly when the request is accepted; a 400 or 404 leaves the table unchanged; acceptance needs a well-formed body and answers with its id |
| Controllers.TranscodeAcceptedIff | backend/src/controllers/transcodeController.ts:16-31 | a request is accepted exactly when it is well formed, names a record with both columns set, and selects at least one allowed label |
| Controllers.TranscodeAccepted | backend/src/controllers/transcodeController.ts:32-45 | acceptance leaves the record `queued` with a column that splits back to the selection, a subset of what it allowed; nothing else changes; the job has the selection, duration and paths |
| Controllers.TranscodeRejectedUnchanged | backend/src/controllers/videoController.ts:58-74 | a rejection starts no job, and only the null-stored-file error, thrown after the update, changes the table |
| Controllers.MalformedRejected | backend/src/controllers/transcodeController.ts:16-19 | a malformed body gets the 400 before the table is consulted |
| Scheduler.Enqueue | backend/src/jobs/jobQueue.ts:17-30 | after an enqueue the loop is running, and a job starts exactly when it was idle |
| Scheduler.EnqueueValid | backend/src/jobs/jobQueue.ts:17-28 | enqueueing keeps the loop's invariant and appends the job to the outstanding ones; a job started now is that job |
| Scheduler.CompleteValid | backend/src/jobs/jobQueue.ts:29-38 | a settling job keeps the invariant, leaves the front of the line, and the next one starts |
| Scheduler.Fifo | backend/src/services/jobProcessor.ts:91-119 | over any history, the jobs settled followed by those outstanding are the ones outstanding at the start followed by those added: none lost, duplicated or overtaken |
| Scheduler.SettleInOrder | backend/src/jobs/jobQueue.ts:17-39 | from an idle loop, jobs settle in the order they were added |
| JobQueue.Finished | backend/src/jobs/jobQueue.ts:29-37 | a job's trace resolves exactly when all its steps succeed, and either way the loop moves on the same way |
| JobQueue.OutcomeIgnored | backend/src/jobs/jobQueue.ts:33-36 | the loop's next state never depends on how the job ended |
| JobQueue.ResumedJob | backend/src/jobs/jobQueue.ts:50-57 | a row rebuilds into a job exactly when both columns are set; otherwise the `TypeError` of the first null column, in field order; the job's input path is the upload directory joined with the stored file and its output directory is the output root joined with the id |
| JobQueue.ResumeFromStopsAtFirstBad | backend/src/jobs/jobQueue.ts:46-62 | the loop enqueues the jobs before the first row that throws, in order, and reports an error exactly when such a row exists, with that row's message |
| JobQueue.ResumeStopsAtFirstBad | backend/src/jobs/jobQueue.ts:45-63 | the same over the table's pending rows |
| JobQueue.ResumeFromEnqueues | backend/src/jobs/jobQueue.ts:49-59 | after resuming, the loop holds its old jobs followed by exactly the jobs reported |
| JobQueue.ResumeRebuildsAcceptedJob | backend/src/jobs/jobQueue.ts:50-57 | the job rebuilt from an accepted request's row is the job the request enqueued |
| JobProcessor.Broadcast | backend/src/services/socketService.ts:18-25 | the list is broadcast exactly when a socket server is registered; for a well-formed table it holds every row once and is ordered newest first |
| JobProcessor.Begin | backend/src/services/jobProcessor.ts:95-97 | a starting job's row becomes `processing` and is announced; no other row and no key changes |
| JobProcessor.Conclude | backend/src/services/jobProcessor.ts:70-82 | success writes the output columns and `completed`, then `job-complete`; failure writes only `failed`, then `job-failed` with the message; then the list broadcast |
| JobProcessor.ConcludeRecord | backend/src/services/jobProcessor.ts:69-78 | a job's row ends `completed` exactly when every step succeeds and `failed` otherwise, with exactly the listed columns changed and no other row touched |
| JobProcessor.SettledEvents | backend/src/services/jobProcessor.ts:97-106 | one completion emits the job's progress, then `job-complete` or `job-failed`, then the broadcast when registered, then `video-updated` for the next job when there is one |
| JobProcessor.FinishedEvents | backend/src/services/jobProcessor.ts:79-103 | right after the progress comes `job-complete` exactly when every step succeeds, and `job-failed` otherwise |
| JobProcessor.AddJobMarksRunning | backend/src/services/jobProcessor.ts:116-119 | adding a job keeps the running job's row marked `processing` |
| JobProcessor.RetranscodeUnmarksRunning | backend/src/controllers/transcodeController.ts:32-45 | the `processing` mark is kept by `addJob` alone, not by the server: an accepted transcode request for the running video writes `queued` over its row, and the following `addJob` leaves it so |
| JobProcessor.FinishedMarksRunning | backend/src/services/jobProcessor.ts:94-97 | moving on marks the next job's row `processing` |
| JobProcessor.ResumedJob | backend/src/services/jobProcessor.ts:128-135 | a row rebuilds exactly when its qualities are set; the input path is empty exactly when the stored file is null or empty, and otherwise is the upload directory joined with the stored file; the output directory is the output root joined with the id |
| JobProcessor.ResumeFromStopsAtFirstBad | backend/src/services/jobProcessor.ts:125-142 | restart adds the jobs before the first row with null qualities, in order, and then throws that row's error |
| JobProcessor.ResumeStopsAtNullQualities | backend/src/services/jobProcessor.ts:125-142 | restarting the worker adds the table's queued and processing rows as jobs, in id order, up to the first row whose qualities column is null, and then throws that row's `TypeError` |
| JobProcessor.ResumeFromEnqueues | backend/src/services/jobProcessor.ts:127-141 | restart keeps the loop invariant and the running mark, and the added jobs are outstanding after the old ones |
| JobProcessor.ResumeStartsFirst | backend/src/services/jobProcessor.ts:116-119 | on an idle worker the first resumed job starts at once, and its row is announced first |
| JobProcessor.ResumedJobsAgree | backend/src/services/jobProcessor.ts:128-135 | both restarts rebuild a complete row into the same job |

## Left out

- Subprocesses (ffprobe, ffmpeg through `spawn` and `zx`): each run is a parameter holding its output chunks and exit code. Command execution, the thumbnail and storyboard images, and the timing of output are not modelled.
- The blurhash computation (`computeBlurHash`): a string in the environment. The library's own behaviour, including its empty result on failure, is not modelled.
- File system writes and `mkdir`: the write of each file is a step in the trace, with its path and exact text. Disk errors are not modelled.
- The SHA-256 content-hash rename at upload: the stored file name is given to `Controllers.Upload`.
- Socket.IO transport: events are a returned list in emission order. Delivery is not modelled.
- SQL: the table is a map from id to row with a counter for the next id. Queries are the functions that read it, and `SELECT` column subsets are not distinguished.
- `getVideos` of the video controller, the routes, the Express and Multer plumbing, the logger, and the frontend: not part of the transcoding core.
- Async interleaving: each `await` resumes as one atomic transition (enqueue, or job settled). Interleavings inside a single job are not modelled.
- Floating point: durations and percentages are reals. `toFixed(2)` rendering is not modelled, and `Num` only tracks `NaN` and the infinities that a zero duration produces.
- Encoder.Percent: a non-zero duration is treated as real division, so the overflow to infinity of an enormous time over a tiny duration is not modelled.
- Storyboard.FormatTime: takes whole milliseconds. Fractional or negative times and years past 9999, where `toISOString` changes format, are not modelled.
- `parseInt` of ffprobe's width and height fields: the probe output carries them already parsed as integers.
- Node error texts other than the `TypeError`s of null columns and missing presets, and the fixed messages of the handlers.
- `fileId` of a JSON body as anything other than an integer.
- Path normalisation by `path.join`: `Types.PathJoin` joins with `/`.

## Findings

| source | as written | input that shows it | evidently intended | confidence | as-written member | corrected member |
|---|---|---|---|---|---|---|
| backend/src/utils/ffmpeg.ts:25-29 (also backend/src/services/ffmpegService.ts:18-22) | each stdout chunk is split on newlines by itself, so a progress line that arrives in two chunks is read as two lines | duration 100 s, chunks `out_time_ms=5` and `0000000\n`: progress 0.000005 % (sent as `0.00`) is reported instead of 50 % (`50.00`) | progress read from the stream's lines, with the unterminated tail kept until the next chunk | not executed | Encoder.ChunkEvents, Encoder.RunAsWritten, Encoder.AsWrittenSplitLine, Encoder.SplitLineMisread | Encoder.StreamEvents, Encoder.StreamSplitLine, Encoder.LineBufferedEvents, Encoder.Run |

=== FILE: controllers.dfy ===
/**
 * The HTTP handlers that create and start jobs: `uploadVideo` and
 * `transcodeVideo` of backend/src/controllers/videoController.ts (live path)
 * and `transcodeVideo` of backend/src/controllers/transcodeController.ts
 * (worker path). Both transcode handlers apply the same rules; they differ
 * only in which queue receives the job, so one function models both.
 */
module Controllers {
  import opened Wrappers
  import opened Text
  import opened Types
  import opened Presets
  import opened Probe
  import opened Store

  /** What the handler sends back: an error status with its message, or a success body. */
  datatype Reply =
    | Rejected(code: int, error: string)
    | Uploaded(fileId: int, width: int, height: int, duration: real, allowed: seq<string>)
    | Accepted(jobId: int)

  const NoFile: string := "No video file uploaded"
  const InvalidRequest: string := "Invalid request, missing fileId or qualities"
  const FileNotFound: string := "File not found"
  const NoValidQuality: string := "No valid quality options selected"
  /** The `TypeError` of `record.qualities.split(',')` on a null column. */
  const NullQualities: string := "Cannot read properties of null (reading 'split')"
  /** The `TypeError` of `path.join(dir, record.storedFile)` on a null column. */
  const NullStoredFile: string := "The \"path\" argument must be of type string. Received null"

  // ---- Upload ----

  /** The parsed resolution width of every entry, in table order. */
  function TableWidths(table: seq<Entry>): (r: seq<Option<int>>)
    ensures |r| == |table|
    ensures forall i :: 0 <= i < |table| ==> r[i] == ResolutionWidth(table[i].preset)
  {
    seq(|table|, i requires 0 <= i < |table| => ResolutionWidth(table[i].preset))
  }

  /** A preset fits a source `width` wide: its width parsed and is no larger. */
  predicate Fits(w: Option<int>, width: int) {
    w.Some? && w.value <= width
  }

  /** The labels of entries `i ..` whose width fits, in table order. */
  function AllowedFrom(table: seq<Entry>, widths: seq<Option<int>>, width: int, i: nat): (r: seq<string>)
    requires i <= |table| == |widths|
    ensures |r| <= |table| - i
    decreases |table| - i
  {
    if i == |table| then []
    else if Fits(widths[i], width) then [table[i].name] + AllowedFrom(table, widths, width, i + 1)
    else AllowedFrom(table, widths, width, i + 1)
  }

  /** `Object.keys(QUALITY_PRESETS).filter(...)`: the labels whose width does not exceed the source's. */
  function Allowed(table: seq<Entry>, width: int): seq<string> {
    AllowedFrom(table, TableWidths(table), width, 0)
  }

  /** A label is allowed exactly when some entry at or after `i` carries it and fits. */
  lemma {:induction false} AllowedFromIff(table: seq<Entry>, widths: seq<Option<int>>, width: int, i: nat, q: string)
    requires i <= |table| == |widths|
    ensures q in AllowedFrom(table, widths, width, i) <==>
      exists j :: i <= j < |table| && table[j].name == q && Fits(widths[j], width)
    decreases |table| - i
  {
    if i < |table| {
      AllowedFromIff(table, widths, width, i + 1, q);
      if Fits(widths[i], width) && table[i].name == q {
        assert q in [table[i].name];
      }
    }
  }

  /**
   * The allowed list holds exactly the labels of the presets whose
   * resolution width parses and does not exceed the source's width.
   */
  lemma AllowedIff(table: seq<Entry>, width: int, q: string)
    ensures q in Allowed(table, width) <==>
      exists j :: 0 <= j < |table| && table[j].name == q
        && ResolutionWidth(table[j].preset).Some? && ResolutionWidth(table[j].preset).value <= width
  {
    var widths := TableWidths(table);
    AllowedFromIff(table, widths, width, 0, q);
    if q in Allowed(table, width) {
      var j :| 0 <= j < |table| && table[j].name == q && Fits(widths[j], width);
      assert widths[j] == ResolutionWidth(table[j].preset);
    }
  }

  /** Every width parsed, and widths strictly increase down the table. */
  predicate Ascending(widths: seq<Option<int>>) {
    && (forall i :: 0 <= i < |widths| ==> widths[i].Some?)
    && (forall i, j :: 0 <= i < j < |widths| ==> widths[i].GetOr(0) < widths[j].GetOr(0))
  }

  /** The real table's widths are 256, 426, 640, 854, 1280, 1920, 2560 and 3840, ascending. */
  lemma ConfigWidths()
    ensures |TableWidths(ConfigPresets)| == |Widths|
    ensures forall i :: 0 <= i < |Widths| ==> TableWidths(ConfigPresets)[i] == Some(Widths[i] as int)
    ensures Ascending(TableWidths(ConfigPresets))
  {
    var w := TableWidths(ConfigPresets);
    forall i | 0 <= i < |ConfigPresets| ensures w[i] == Some(Widths[i] as int) {
      EntryFacts(i);
    }
    AscendingWidths(w);
  }

  /** A width list that is the display widths in order is ascending. */
  lemma AscendingWidths(w: seq<Option<int>>)
    requires |w| == |Widths| && forall i :: 0 <= i < |Widths| ==> w[i] == Some(Widths[i] as int)
    ensures Ascending(w)
  {
    WidthsIncrease();
  }

  /** In an ascending table, once an entry is too wide, so are all later ones. */
  lemma {:induction false} NoneFitAfter(table: seq<Entry>, widths: seq<Option<int>>, width: int, i: nat)
    requires Ascending(widths) && i <= |table| == |widths|
    requires i < |table| ==> !Fits(widths[i], width)
    ensures AllowedFrom(table, widths, width, i) == []
    decreases |table| - i
  {
    if i + 1 < |table| {
      assert widths[i].GetOr(0) < widths[i + 1].GetOr(0);
      NoneFitAfter(table, widths, width, i + 1);
    }
  }

  /**
   * In an ascending table the labels allowed from `i` on are a run of
   * consecutive labels starting at `i`: nothing is skipped.
   */
  lemma {:induction false} AllowedFromIsRun(table: seq<Entry>, widths: seq<Option<int>>, width: int, i: nat)
    requires Ascending(widths) && i <= |table| == |widths|
    ensures var r := AllowedFrom(table, widths, width, i);
      i + |r| <= |table| && forall m :: 0 <= m < |r| ==> r[m] == table[i + m].name
    decreases |table| - i
  {
    if i < |table| {
      if Fits(widths[i], width) {
        AllowedFromIsRun(table, widths, width, i + 1);
      } else {
        NoneFitAfter(table, widths, width, i);
      }
    }
  }

  /** For the real table the allowed list is always a prefix of the labels, smallest first. */
  lemma AllowedIsPrefix(width: int)
    ensures |Allowed(ConfigPresets, width)| <= |ConfigPresets|
    ensures forall m :: 0 <= m < |Allowed(ConfigPresets, width)| ==>
      Allowed(ConfigPresets, width)[m] == ConfigPresets[m].name
  {
    ConfigWidths();
    AllowedFromIsRun(ConfigPresets, TableWidths(ConfigPresets), width, 0);
  }

  /** When entries `i .. k - 1` fit and entry `k` does not, exactly their labels are allowed. */
  lemma {:induction false} AllowedFromUpTo(table: seq<Entry>, widths: seq<Option<int>>, width: int, i: nat, k: nat)
    requires Ascending(widths) && i <= k <= |table| == |widths|
    requires forall j :: i <= j < k ==> Fits(widths[j], width)
    requires k < |table| ==> !Fits(widths[k], width)
    ensures |AllowedFrom(table, widths, width, i)| == k - i
    ensures forall m :: 0 <= m < k - i ==> AllowedFrom(table, widths, width, i)[m] == table[i + m].name
    decreases k - i
  {
    if i < k {
      AllowedFromUpTo(table, widths, width, i + 1, k);
    } else {
      NoneFitAfter(table, widths, width, k);
    }
  }

  /** When exactly the first `k` entries fit, the allowed list is the first `k` labels. */
  lemma AllowedFirst(table: seq<Entry>, widths: seq<Option<int>>, width: int, k: nat)
    requires Ascending(widths) && k <= |table| == |widths|
    requires forall j :: 0 <= j < k ==> Fits(widths[j], width)
    requires k < |table| ==> !Fits(widths[k], width)
    ensures AllowedFrom(table, widths, width, 0) == Names(table)[..k]
  {
    AllowedFromUpTo(table, widths, width, 0, k);
  }

  /** A 640-pixel-wide source allows 144p, 240p and 360p. */
  lemma AllowedAt640()
    ensures Allowed(ConfigPresets, 640) == ["144p", "240p", "360p"]
  {
    ConfigWidths();
    assert TableWidths(ConfigPresets)[2] == Some(Widths[2] as int);
    assert TableWidths(ConfigPresets)[3] == Some(Widths[3] as int);
    AllowedFirstThree(ConfigPresets, TableWidths(ConfigPresets));
    FirstThreeNames();
  }

  /** When ascending widths put 640 third and 854 fourth, a 640-pixel-wide source allows the first three labels. */
  lemma AllowedFirstThree(table: seq<Entry>, widths: seq<Option<int>>)
    requires |table| == |widths| > 3 && Ascending(widths)
    requires widths[2] == Some(640) && widths[3] == Some(854)
    ensures AllowedFrom(table, widths, 640, 0) == Names(table)[..3]
  {
    assert widths[0].GetOr(0) < 640 && widths[1].GetOr(0) < 640;
    AllowedFirst(table, widths, 640, 3);
  }

  /** The first three labels of the real table. */
  lemma FirstThreeNames()
    ensures Names(ConfigPresets)[..3] == ["144p", "240p", "360p"]
  {
    var n := Names(ConfigPresets);
    assert n[0] == "144p" && n[1] == "240p" && n[2] == "360p";
  }

  /** The uploaded file after the content-hash rename: its stored name and the client's name. */
  datatype UploadedFile = UploadedFile(storedName: string, originalName: string)

  datatype UploadOutcome = UploadOutcome(db: Db, events: seq<Event>, reply: Reply)

  /**
   * `uploadVideo`: reject a request without a file; probe it (any probe
   * failure is a 500 with the probe's message); store a `pending` row whose
   * qualities column lists the allowed labels joined by commas; announce it.
   */
  function Upload(db: Db, file: Option<UploadedFile>, probe: Option<ProbeOutput>, now: int): (r: UploadOutcome)
    ensures r.reply.Uploaded? <==> file.Some? && ProbeVideo(probe).Ok?
    ensures r.reply.Rejected? <==> !r.reply.Uploaded?
    ensures r.reply.Rejected? ==> r.db == db && r.events == []
    ensures r.reply.Rejected? ==> r.reply.code == 400 || r.reply == Rejected(500, ProbeFailure)
  {
    if file.None? then UploadOutcome(db, [], Rejected(400, NoFile))
    else
      match ProbeVideo(probe)
      case Err(m) => UploadOutcome(db, [], Rejected(500, m))
      case Ok(p) =>
        var allowed := Allowed(ConfigPresets, p.width);
        var row := NewVideo(file.value.storedName, file.value.originalName, Join(allowed, ","), Pending,
          p.width, p.height, p.duration);
        var (db', id) := Insert(db, row, now);
        UploadOutcome(db', [VideoAdded(GetById(db', id))], Uploaded(id, p.width, p.height, p.duration, allowed))
  }

  /** The labels of the real table contain no comma. */
  lemma AllowedPlain(width: int)
    ensures forall k :: 0 <= k < |Allowed(ConfigPresets, width)| ==> ',' !in Allowed(ConfigPresets, width)[k]
  {
    AllowedIsPrefix(width);
    NamesArePlain();
  }

  /**
   * An upload with a file that probes adds exactly one `pending` row under the next id,
   * whose qualities column splits back into the allowed list (a lone empty
   * label when nothing fits), and announces that row.
   */
  lemma UploadStoresAllowed(db: Db, file: Option<UploadedFile>, probe: Option<ProbeOutput>, now: int)
    requires file.Some? && ProbeVideo(probe).Ok?
    ensures var r := Upload(db, file, probe, now);
      && r.reply.Uploaded?
      && var id := r.reply.fileId;
      && id == db.nextId && id in r.db.rows
      && r.db.rows.Keys == db.rows.Keys + {id}
      && r.reply.allowed == Allowed(ConfigPresets, ProbeVideo(probe).value.width)
      && r.db.rows[id].status == Pending
      && r.db.rows[id].qualities.Some?
      && Split(r.db.rows[id].qualities.value, ',') == (if r.reply.allowed == [] then [""] else r.reply.allowed)
      && r.events == [VideoAdded(Some(r.db.rows[id]))]
  {
    var p := ProbeVideo(probe).value;
    var allowed := Allowed(ConfigPresets, p.width);
    AllowedPlain(p.width);
    if allowed != [] {
      SplitJoin(allowed, ',');
    }
  }

  // ---- Transcode request ----

  /**
   * The request body: `fileId` (`None` when missing) and `qualities`
   * (`None` when missing or not an array).
   */
  datatype Request = Request(fileId: Option<int>, qualities: Option<seq<string>>)

  /** `qualities.filter(q => available.includes(q))`: request order, duplicates kept. */
  function Select(requested: seq<string>, available: seq<string>): (r: seq<string>)
    ensures |r| <= |requested|
    ensures forall q :: q in r <==> q in requested && q in available
  {
    if |requested| == 0 then []
    else
      var rest := Select(requested[1..], available);
      if requested[0] in available then [requested[0]] + rest else rest
  }

  /** Each available label is selected as many times as it was requested; others never. */
  lemma {:induction false} SelectCounts(requested: seq<string>, available: seq<string>, q: string)
    ensures multiset(Select(requested, available))[q] == if q in available then multiset(requested)[q] else 0
  {
    if |requested| > 0 {
      SelectCounts(requested[1..], available, q);
      assert requested == [requested[0]] + requested[1..];
    }
  }

  /**
   * Selection keeps request order: selecting from a concatenation selects
   * from each part and concatenates, so one list's picks all precede the next's.
   */
  lemma {:induction false} SelectAppend(a: seq<string>, b: seq<string>, available: seq<string>)
    ensures Select(a + b, available) == Select(a, available) + Select(b, available)
  {
    if |a| > 0 {
      assert (a + b)[0] == a[0];
      assert (a + b)[1..] == a[1..] + b;
      SelectAppend(a[1..], b, available);
      if a[0] in available {
        assert Select(a + b, available) == [a[0]] + (Select(a[1..], available) + Select(b, available));
      }
    } else {
      assert a + b == b;
    }
  }

  /** Selecting again from the same list changes nothing. */
  lemma {:induction false} SelectIdempotent(requested: seq<string>, available: seq<string>)
    ensures Select(Select(requested, available), available) == Select(requested, available)
  {
    if |requested| > 0 {
      SelectIdempotent(requested[1..], available);
      var rest := Select(requested[1..], available);
      if requested[0] in available {
        assert ([requested[0]] + rest)[1..] == rest;
      }
    }
  }

  /** The request's shape is acceptable: a truthy id and a non-empty list. */
  predicate WellFormed(req: Request) {
    req.fileId.Some? && req.fileId.value != 0 && req.qualities.Some? && |req.qualities.value| > 0
  }

  datatype TranscodeOutcome = TranscodeOutcome(db: Db, reply: Reply, job: Option<Job>)

  /** The record change of an accepted request: the selection and `queued`. */
  function QueuePatch(selected: seq<string>): Patch {
    Patch(None, Some(Join(selected, ",")), None, None, None, Some(Queued))
  }

  /**
   * `transcodeVideo`: validate the body (400), find the record (404), keep
   * the requested labels the record allows, reject an empty selection
   * (400), then store the selection with status `queued` and build the job
   * for `<uploadDir>/<storedFile>` into `<outputDir>/<id>`. A null column
   * makes the handler throw: 500 with the `TypeError`'s message, after the
   * update when it is the stored file name.
   */
  function Transcode(db: Db, req: Request, uploadDir: string, outputDir: string): (r: TranscodeOutcome)
    ensures r.job.Some? <==> r.reply.Accepted?
    ensures r.reply.Rejected? && r.reply.code != 500 ==> r.db == db
    ensures r.reply.Accepted? ==> WellFormed(req) && r.reply.jobId == req.fileId.value
  {
    if !WellFormed(req) then TranscodeOutcome(db, Rejected(400, InvalidRequest), None)
    else
      var id := req.fileId.value;
      match GetById(db, id)
      case None => TranscodeOutcome(db, Rejected(404, FileNotFound), None)
      case Some(rec) =>
        if rec.qualities.None? then TranscodeOutcome(db, Rejected(500, NullQualities), None)
        else
          var selected := Select(req.qualities.value, Split(rec.qualities.value, ','));
          if |selected| == 0 then TranscodeOutcome(db, Rejected(400, NoValidQuality), None)
          else
            var db' := Update(db, id, QueuePatch(selected));
            if rec.storedFile.None? then TranscodeOutcome(db', Rejected(500, NullStoredFile), None)
            else
              var job := Job(id, rec.storedFile, selected, PathJoin(uploadDir, rec.storedFile.value),
                PathJoin(outputDir, IntToString(id)), rec.duration);
              TranscodeOutcome(db', Accepted(id), Some(job))
  }

  /** The labels an accepted request selects from the record it names. */
  function Selection(db: Db, req: Request): seq<string>
    requires WellFormed(req) && req.fileId.value in db.rows && db.rows[req.fileId.value].qualities.Some?
  {
    Select(req.qualities.value, Split(db.rows[req.fileId.value].qualities.value, ','))
  }

  /**
   * A request is accepted exactly when it is well formed, names an existing
   * record whose columns are set, and selects at least one label the record
   * allows.
   */
  lemma TranscodeAcceptedIff(db: Db, req: Request, uploadDir: string, outputDir: string)
    ensures Transcode(db, req, uploadDir, outputDir).reply.Accepted? <==>
      && WellFormed(req)
      && req.fileId.value in db.rows
      && db.rows[req.fileId.value].qualities.Some?
      && db.rows[req.fileId.value].storedFile.Some?
      && |Selection(db, req)| > 0
  {
  }

  /**
   * An accepted request leaves the record `queued` with a qualities column
   * that splits back into exactly the selection, a subset of what the
   * record allowed before; nothing else in the table changes; and the job
   * carries exactly the selection, the record's duration and its paths.
   */
  lemma TranscodeAccepted(db: Db, req: Request, uploadDir: string, outputDir: string)
    requires Transcode(db, req, uploadDir, outputDir).reply.Accepted?
    ensures var r := Transcode(db, req, uploadDir, outputDir);
      var id := req.fileId.value;
      && id in db.rows && db.rows[id].qualities.Some? && db.rows[id].storedFile.Some?
      && var selected := Selection(db, req);
      && r.db == Update(db, id, QueuePatch(selected))
      && id in r.db.rows && r.db.rows[id].status == Queued
      && Split(r.db.rows[id].qualities.value, ',') == selected
      && (forall k :: 0 <= k < |selected| ==> selected[k] in Split(db.rows[id].qualities.value, ','))
      && r.job == Some(Job(id, db.rows[id].storedFile, selected, PathJoin(uploadDir, db.rows[id].storedFile.value),
           PathJoin(outputDir, IntToString(id)), db.rows[id].duration))
  {
    var id := req.fileId.value;
    var available := Split(db.rows[id].qualities.value, ',');
    var selected := Selection(db, req);
    SplitPartsFree(db.rows[id].qualities.value, ',');
    forall k | 0 <= k < |selected| ensures ',' !in selected[k] {
      assert selected[k] in available;
    }
    SplitJoin(selected, ',');
  }

  /**
   * Only a rejection that throws after the update changes the table; every
   * 400 and 404 leaves it as it was and starts no job.
   */
  lemma TranscodeRejectedUnchanged(db: Db, req: Request, uploadDir: string, outputDir: string)
    requires Transcode(db, req, uploadDir, outputDir).reply.Rejected?
    ensures Transcode(db, req, uploadDir, outputDir).job.None?
    ensures Transcode(db, req, uploadDir, outputDir).reply.error != NullStoredFile ==>
      Transcode(db, req, uploadDir, outputDir).db == db
  {
  }

  /** A malformed body is refused with 400 before the table is consulted. */
  lemma MalformedRejected(db: Db, req: Request, uploadDir: string, outputDir: string)
    requires !WellFormed(req)
    ensures Transcode(db, req, uploadDir, outputDir) == TranscodeOutcome(db, Rejected(400, InvalidRequest), None)
  {
  }
}

=== FILE: encoder.dfy ===
/**
 * `runFfmpegWithProgress` (backend/src/utils/ffmpeg.ts, and its copy in
 * backend/src/services/ffmpegService.ts): the encoder is an abstract run
 * that produced some stdout chunks, some stderr chunks and an exit code; the
 * model computes the progress values emitted and the promise's outcome.
 */
module Encoder {
  import opened Wrappers
  import opened Text
  import opened Types

  /** Arguments appended so that ffmpeg reports progress on stdout. */
  const ProgressArgs: seq<string> := ["-progress", "pipe:1"]

  /** The key of the progress line that carries the encoded time. */
  const OutTimeKey: string := "out_time_ms="

  const ExitPrefix: string := "ffmpeg exited with code "

  /** One finished encoder process: what it wrote and how it ended (`None`: killed by a signal). */
  datatype EncoderRun = EncoderRun(stdout: seq<string>, stderr: seq<string>, exitCode: Option<int>)

  /** What the caller observes: progress values emitted, then resolution or rejection. */
  datatype Report = Report(progress: seq<Progress>, outcome: Result<()>)

  /** The argument vector handed to the spawned process. */
  function SpawnArgs(args: seq<string>): (r: seq<string>)
    ensures |r| == |args| + 2
    ensures r[..|args|] == args && r[|args|..] == ProgressArgs
  {
    args + ProgressArgs
  }

  /** `parseInt(line.split('=')[1], 10)`; `None` stands for `NaN`. */
  function OutTimeValue(line: string): Option<int> {
    var pieces := Split(line, '=');
    if |pieces| < 2 then None else ParseInt(pieces[1])
  }

  /**
   * `Math.min(100, (outTimeMs / (totalDuration * 1e6)) * 100)` in IEEE
   * arithmetic: a zero duration divides into an infinity or `NaN`.
   */
  function Percent(outTimeMs: Option<int>, duration: real): (r: Num)
    ensures r != PosInf
    ensures r.Finite? ==> r.r <= 100.0
    ensures outTimeMs.Some? && duration != 0.0 ==> r.Finite?
    ensures outTimeMs.None? ==> r == NaN
  {
    if outTimeMs.None? then NaN
    else
      var v := outTimeMs.value;
      var d := duration * 1000000.0;
      if d == 0.0 then
        (if v > 0 then Finite(100.0) else if v < 0 then NegInf else NaN)
      else
        var q := v as real / d * 100.0;
        Finite(if q < 100.0 then q else 100.0)
  }

  /** For a positive duration the percentage grows with the encoded time. */
  lemma PercentMonotone(a: int, b: int, duration: real)
    requires duration > 0.0 && a <= b
    ensures Percent(Some(a), duration).r <= Percent(Some(b), duration).r
  {
    var d := duration * 1000000.0;
    assert a as real / d <= b as real / d;
  }

  /** Once the encoded time reaches the duration the percentage is exactly 100. */
  lemma PercentFull(v: int, duration: real)
    requires duration > 0.0 && v as real >= duration * 1000000.0
    ensures Percent(Some(v), duration) == Finite(100.0)
  {
    var d := duration * 1000000.0;
    assert v as real / d >= 1.0;
  }

  /** There is no lower clamp: a negative encoded time gives a negative percentage. */
  lemma PercentNotClampedBelow(v: int, duration: real)
    requires duration > 0.0 && v < 0
    ensures Percent(Some(v), duration).Finite? && Percent(Some(v), duration).r < 0.0
  {
    var d := duration * 1000000.0;
    assert v as real / d < 0.0;
  }

  /** The progress events of complete stdout lines: one per `out_time_ms=` line. */
  function LineEvents(lines: seq<string>, duration: real): (r: seq<Progress>)
    ensures |r| <= |lines|
    ensures forall k :: 0 <= k < |r| ==> r[k].Reported? && r[k].percent != PosInf
  {
    if |lines| == 0 then [] else LineEvent(lines[0], duration) + LineEvents(lines[1..], duration)
  }

  /** The event one stdout line produces, if any. */
  function LineEvent(line: string, duration: real): (r: seq<Progress>)
    ensures |r| <= 1
    ensures |r| == 1 <==> StartsWith(line, OutTimeKey)
    ensures |r| == 1 ==> r[0].Reported? && r[0].percent != PosInf
  {
    if StartsWith(line, OutTimeKey) then [Reported(Percent(OutTimeValue(line), duration))] else []
  }

  /** The events of two runs of lines are the events of each, in order. */
  lemma {:induction false} LineEventsAppend(xs: seq<string>, ys: seq<string>, duration: real)
    ensures LineEvents(xs + ys, duration) == LineEvents(xs, duration) + LineEvents(ys, duration)
  {
    if |xs| == 0 {
      assert xs + ys == ys;
    } else {
      var h := LineEvent(xs[0], duration);
      var a, b := LineEvents(xs[1..], duration), LineEvents(ys, duration);
      LineEventsAppend(xs[1..], ys, duration);
      assert (xs + ys)[1..] == xs[1..] + ys;
      assert (xs + ys)[0] == xs[0];
      assert LineEvents(xs + ys, duration) == h + (a + b);
      assert h + (a + b) == (h + a) + b;
    }
  }

  /** Lines without the key produce nothing. */
  lemma {:induction false} OtherLinesIgnored(lines: seq<string>, duration: real)
    requires forall k :: 0 <= k < |lines| ==> !StartsWith(lines[k], OutTimeKey)
    ensures LineEvents(lines, duration) == []
  {
    if |lines| > 0 {
      OtherLinesIgnored(lines[1..], duration);
    }
  }

  /** Everything the process wrote to a stream, in order. */
  function Concat(chunks: seq<string>): string {
    if |chunks| == 0 then "" else Concat(chunks[..|chunks| - 1]) + chunks[|chunks| - 1]
  }

  /**
   * The handler as written: every chunk is split on its own, so a line that
   * arrives in two chunks is read as two lines.
   */
  function ChunkEvents(chunks: seq<string>, duration: real): (r: seq<Progress>)
    ensures forall k :: 0 <= k < |r| ==> r[k].Reported? && r[k].percent != PosInf
  {
    if |chunks| == 0 then []
    else ChunkEvents(chunks[..|chunks| - 1], duration) + LineEvents(Split(chunks[|chunks| - 1], '\n'), duration)
  }

  /** The progress the stream carries: its lines, however the stream was chunked. */
  function StreamEvents(chunks: seq<string>, duration: real): seq<Progress> {
    LineEvents(Split(Concat(chunks), '\n'), duration)
  }

  /**
   * One encoder run as the code is written, the run the job pipeline uses:
   * the progress of each chunk's own lines, then the final event and
   * settlement as in the corrected run.
   */
  function RunAsWritten(run: EncoderRun, duration: real): (r: Report)
    ensures r.outcome.Ok? <==> run.exitCode == Some(0)
    ensures r.outcome.Ok? ==> |r.progress| >= 1 && r.progress[|r.progress| - 1] == Done
    ensures r.outcome.Err? ==> Done !in r.progress && r.outcome.message == ExitMessage(run.exitCode)
    ensures forall k :: 0 <= k < |r.progress| ==> r.progress[k] != Reported(PosInf)
  {
    Report(ChunkEvents(run.stdout, duration) + Finale(run.exitCode), ExitOutcome(run.exitCode))
  }

  /** The final `'100'` event that a clean exit adds. */
  function Finale(code: Option<int>): seq<Progress> {
    if code == Some(0) then [Done] else []
  }

  /** `ffmpeg exited with code ${code}`, where a signal-killed process has code `null`. */
  function ExitMessage(code: Option<int>): string {
    ExitPrefix + (if code.Some? then IntToString(code.value) else "null")
  }

  function ExitOutcome(code: Option<int>): (r: Result<()>)
    ensures r.Ok? <==> code == Some(0)
    ensures r.Err? ==> r.message == ExitMessage(code)
  {
    if code == Some(0) then Ok(()) else Err(ExitMessage(code))
  }

  /**
   * One encoder run with the corrected handler: the progress of every
   * `out_time_ms=` line of the stdout stream,
   * then, on exit code 0, the final `'100'` and resolution; any other exit
   * rejects with the exit code in the message and adds no final event.
   */
  function Run(run: EncoderRun, duration: real): (r: Report)
    ensures r.outcome.Ok? <==> run.exitCode == Some(0)
    ensures r.outcome.Ok? ==> |r.progress| >= 1 && r.progress[|r.progress| - 1] == Done
    ensures r.outcome.Err? ==> Done !in r.progress && r.outcome.message == ExitMessage(run.exitCode)
    ensures forall k :: 0 <= k < |r.progress| ==> r.progress[k] != Reported(PosInf)
  {
    var events := StreamEvents(run.stdout, duration);
    Report(events + Finale(run.exitCode), ExitOutcome(run.exitCode))
  }

  /** The stderr stream is only logged: it never changes what the caller sees. */
  lemma StderrIgnored(run: EncoderRun, other: seq<string>, duration: real)
    ensures Run(run.(stderr := other), duration) == Run(run, duration)
    ensures RunAsWritten(run.(stderr := other), duration) == RunAsWritten(run, duration)
  {
  }

  /** The rejection message names the exit code, or `null` for a signal. */
  lemma ExitMessageNamesCode(code: int)
    requires code != 0
    ensures Run(EncoderRun([], [], Some(code)), 1.0) == Report([], Err(ExitPrefix + IntToString(code)))
    ensures Run(EncoderRun([], [], None), 1.0) == Report([], Err(ExitPrefix + "null"))
  {
    assert StreamEvents([], 1.0) == [] by {
      assert Split("", '\n') == [""];
      assert !StartsWith("", OutTimeKey);
    }
  }

  // ---- Chunking ----

  /** Extending text whose split ends in `buf` (free of the separator) only re-splits `buf + chunk`. */
  lemma SplitExtend(s: string, done: seq<string>, buf: string, chunk: string)
    requires Split(s, '\n') == done + [buf] && '\n' !in buf
    ensures Split(s + chunk, '\n') == done + Split(buf + chunk, '\n')
  {
    SplitConcat(s, chunk, '\n');
    SplitConcat(buf, chunk, '\n');
    SplitFree(buf, '\n');
    FuseAfter(done, buf, Split(chunk, '\n'));
  }

  /** Fusing onto a split that ends in `buf` leaves the pieces before `buf` alone. */
  lemma FuseAfter(done: seq<string>, buf: string, sb: seq<string>)
    requires |sb| >= 1
    ensures Fuse(done + [buf], sb) == done + Fuse([buf], sb)
  {
    var sa := done + [buf];
    assert sa[..|sa| - 1] == done;
    assert [buf][..0] == [];
  }

  /** One chunk through the line buffer: the completed lines move to `done` and the rest stays buffered. */
  lemma BufferStep(chunks: seq<string>, k: nat, done: seq<string>, buf: string)
    requires k < |chunks|
    requires Split(Concat(chunks[..k]), '\n') == done + [buf] && '\n' !in buf
    ensures var pieces := Split(buf + chunks[k], '\n');
      var complete := pieces[..|pieces| - 1];
      && Split(Concat(chunks[..k + 1]), '\n') == (done + complete) + [pieces[|pieces| - 1]]
      && '\n' !in pieces[|pieces| - 1]
  {
    var pieces := Split(buf + chunks[k], '\n');
    var complete := pieces[..|pieces| - 1];
    SplitExtend(Concat(chunks[..k]), done, buf, chunks[k]);
    assert chunks[..k + 1][..k] == chunks[..k];
    assert Concat(chunks[..k + 1]) == Concat(chunks[..k]) + chunks[k];
    SplitPartsFree(buf + chunks[k], '\n');
    assert pieces == complete + [pieces[|pieces| - 1]];
  }

  /**
   * The corrected handler: a line buffer carried across chunks, with each
   * complete line reported as soon as its newline arrives and the unfinished
   * tail reported when the stream closes.
   */
  method LineBufferedEvents(chunks: seq<string>, duration: real) returns (events: seq<Progress>)
    ensures events == StreamEvents(chunks, duration)
  {
    events := [];
    var buf := "";
    ghost var done: seq<string> := [];
    var k := 0;
    while k < |chunks|
      invariant 0 <= k <= |chunks|
      invariant Split(Concat(chunks[..k]), '\n') == done + [buf]
      invariant '\n' !in buf
      invariant events == LineEvents(done, duration)
    {
      var pieces := Split(buf + chunks[k], '\n');
      var complete := pieces[..|pieces| - 1];
      BufferStep(chunks, k, done, buf);
      LineEventsAppend(done, complete, duration);
      events := events + LineEvents(complete, duration);
      done := done + complete;
      buf := pieces[|pieces| - 1];
      k := k + 1;
    }
    assert chunks[..k] == chunks;
    LineEventsAppend(done, [buf], duration);
    events := events + LineEvents([buf], duration);
  }

  /**
   * When every chunk but the last ends with a newline, the code as written
   * and the corrected handler emit the same progress.
   */
  lemma {:induction false} WholeLineChunksAgree(chunks: seq<string>, duration: real)
    requires forall k :: 0 <= k < |chunks| - 1 ==> |chunks[k]| > 0 && chunks[k][|chunks[k]| - 1] == '\n'
    ensures ChunkEvents(chunks, duration) == StreamEvents(chunks, duration)
  {
    if |chunks| > 1 {
      var init := chunks[..|chunks| - 1];
      WholeLineChunksAgree(init, duration);
      ConcatEndsWith(init);
      assert init + [chunks[|chunks| - 1]] == chunks;
      AgreeAfterNewline(init, chunks[|chunks| - 1], duration);
    } else if |chunks| == 1 {
      AgreeOnOneChunk(chunks[0], duration);
    }
  }

  /** A single chunk is split the same way by both handlers. */
  lemma AgreeOnOneChunk(c: string, duration: real)
    ensures ChunkEvents([c], duration) == StreamEvents([c], duration)
  {
    assert [c][..0] == [];
    assert Concat([c]) == "" + c;
    assert "" + c == c;
    var e := LineEvents(Split(c, '\n'), duration);
    assert ChunkEvents([c], duration) == [] + e;
    assert [] + e == e;
  }

  /** A chunk that follows a newline adds the same events to both handlers. */
  lemma AgreeAfterNewline(init: seq<string>, last: string, duration: real)
    requires ChunkEvents(init, duration) == StreamEvents(init, duration)
    requires |Concat(init)| > 0 && Concat(init)[|Concat(init)| - 1] == '\n'
    ensures ChunkEvents(init + [last], duration) == StreamEvents(init + [last], duration)
  {
    var chunks := init + [last];
    assert chunks[..|chunks| - 1] == init;
    assert Concat(chunks) == Concat(init) + last;
    EventsAfterNewline(Concat(init), last, duration);
  }

  /** Text after a newline adds its own events to those of the text before. */
  lemma EventsAfterNewline(s: string, t: string, duration: real)
    requires |s| > 0 && s[|s| - 1] == '\n'
    ensures LineEvents(Split(s + t, '\n'), duration) == LineEvents(Split(s, '\n'), duration) + LineEvents(Split(t, '\n'), duration)
  {
    SplitAfterNewline(s, t);
    var ss := Split(s, '\n');
    DropTrailingEmpty(ss, duration);
    LineEventsAppend(ss[..|ss| - 1], Split(t, '\n'), duration);
  }

  /** A trailing empty line adds no event. */
  lemma DropTrailingEmpty(lines: seq<string>, duration: real)
    requires |lines| >= 1 && lines[|lines| - 1] == ""
    ensures LineEvents(lines, duration) == LineEvents(lines[..|lines| - 1], duration)
  {
    var init := lines[..|lines| - 1];
    assert lines == init + [""];
    LineEventsAppend(init, [""], duration);
    NoEventFromEmpty(duration);
  }

  /** An empty line reports nothing. */
  lemma NoEventFromEmpty(duration: real)
    ensures LineEvents([""], duration) == []
  {
    assert !StartsWith("", OutTimeKey);
  }

  /** After text that ends with a newline, further text starts a fresh line. */
  lemma SplitAfterNewline(s: string, t: string)
    requires |s| > 0 && s[|s| - 1] == '\n'
    ensures var ss := Split(s, '\n');
      ss[|ss| - 1] == "" && Split(s + t, '\n') == ss[..|ss| - 1] + Split(t, '\n')
  {
    var ss := Split(s, '\n');
    SplitEndsEmpty(s);
    SplitConcat(s, t, '\n');
    FuseEmpty(ss, Split(t, '\n'));
  }

  /** Text that ends with a newline splits into pieces the last of which is empty. */
  lemma SplitEndsEmpty(s: string)
    requires |s| > 0 && s[|s| - 1] == '\n'
    ensures var ss := Split(s, '\n'); ss[|ss| - 1] == ""
  {
    var body := s[..|s| - 1];
    assert s == body + ['\n'];
    SplitConcat(body, ['\n'], '\n');
    assert Split(['\n'], '\n') == ["", ""] by {
      assert ['\n'][1..] == "";
    }
  }

  /** Fusing after an empty last piece just appends. */
  lemma FuseEmpty(sa: seq<string>, sb: seq<string>)
    requires |sa| >= 1 && |sb| >= 1 && sa[|sa| - 1] == ""
    ensures Fuse(sa, sb) == sa[..|sa| - 1] + sb
  {
    assert "" + sb[0] == sb[0];
    assert [sb[0]] + sb[1..] == sb;
  }

  /** Text assembled from chunks that each end with a newline ends with a newline. */
  lemma ConcatEndsWith(chunks: seq<string>)
    requires |chunks| > 0 && |chunks[|chunks| - 1]| > 0 && chunks[|chunks| - 1][|chunks[|chunks| - 1]| - 1] == '\n'
    ensures var s := Concat(chunks); |s| > 0 && s[|s| - 1] == '\n'
  {
  }

  /** A progress line `out_time_ms=<n>` carries the value `n`. */
  lemma OutTimeLine(n: nat)
    ensures StartsWith(OutTimeKey + NatToString(n), OutTimeKey)
    ensures OutTimeValue(OutTimeKey + NatToString(n)) == Some(n)
  {
    var d := NatToString(n);
    assert OutTimeKey + d == "out_time_ms" + ['='] + d;
    SplitFirst("out_time_ms", '=', d);
    assert !IsDigit('=');
    SplitFree(d, '=');
    assert d + "" == d;
    ParseIntOfNatToString(n, "");
  }

  /** A chunk holding one unterminated progress line reports that line's value. */
  lemma SingleLineChunk(n: nat, duration: real)
    ensures ChunkEvents([OutTimeKey + NatToString(n)], duration) == [Reported(Percent(Some(n), duration))]
  {
    var line := OutTimeKey + NatToString(n);
    OutTimeLine(n);
    assert !IsDigit('\n');
    SplitFree(line, '\n');
    assert [line][..0] == [];
    assert LineEvents([line], duration) == LineEvent(line, duration) + LineEvents([], duration);
  }

  /** A stream holding one terminated progress line reports that line's value. */
  lemma TerminatedLineStream(line: string, duration: real)
    requires '\n' !in line
    ensures LineEvents(Split(line + "\n", '\n'), duration) == LineEvent(line, duration)
  {
    assert line + "\n" == line + ['\n'] + "";
    SplitFirst(line, '\n', "");
    assert Split("", '\n') == [""];
    assert LineEvents([""], duration) == [];
    assert LineEvents([line, ""], duration) == LineEvent(line, duration) + LineEvents([""], duration);
  }

  /** The code as written reports only the first half of a progress line split across two chunks. */
  lemma AsWrittenSplitLine(n: nat, tail: string, duration: real)
    requires AllDigits(tail)
    ensures ChunkEvents([OutTimeKey + NatToString(n), tail + "\n"], duration) == [Reported(Percent(Some(n), duration))]
  {
    var first, second := OutTimeKey + NatToString(n), tail + "\n";
    var chunks := [first, second];
    SingleLineChunk(n, duration);
    assert chunks[..1] == [first];
    assert second == tail + ['\n'] + "";
    assert !IsDigit('\n');
    SplitFirst(tail, '\n', "");
    assert Split("", '\n') == [""];
    assert !StartsWith(tail, OutTimeKey) by {
      assert !IsDigit(OutTimeKey[0]);
    }
    OtherLinesIgnored([tail, ""], duration);
    var e := ChunkEvents([first], duration);
    assert ChunkEvents(chunks, duration) == e + LineEvents([tail, ""], duration);
    assert e + [] == e;
  }

  /** The stream itself holds one progress line with the whole value. */
  lemma StreamSplitLine(head: string, tail: string, v: nat, duration: real)
    requires head + tail == NatToString(v)
    ensures StreamEvents([OutTimeKey + head, tail + "\n"], duration) == [Reported(Percent(Some(v), duration))]
  {
    var first, second := OutTimeKey + head, tail + "\n";
    var chunks := [first, second];
    var whole := OutTimeKey + NatToString(v);
    assert chunks[..1] == [first];
    assert [first][..0] == [];
    assert Concat([first]) == "" + first;
    assert Concat(chunks) == whole + "\n";
    OutTimeLine(v);
    assert '\n' !in whole by {
      assert !IsDigit('\n');
    }
    TerminatedLineStream(whole, duration);
  }

  /**
   * The sample chunks as written: one event, for the value 5, which is
   * 0.000005 % of a 100 s video and renders as `0.00` under `toFixed(2)`.
   */
  lemma AsWrittenSample()
    ensures ChunkEvents(["out_time_ms=5", "0000000\n"], 100.0) == [Reported(Finite(0.000005))]
  {
    assert "out_time_ms=5" == OutTimeKey + NatToString(5);
    assert "0000000\n" == "0000000" + "\n";
    AsWrittenSplitLine(5, "0000000", 100.0);
  }

  /** The decimal rendering of the sample's whole value, digit by digit. */
  lemma FiftyMillionDigits()
    ensures "5" + "0000000" == NatToString(50000000)
  {
    assert NatToString(5) == "5";
    TimesTenDigits(5);
    TimesTenDigits(50);
    TimesTenDigits(500);
    TimesTenDigits(5000);
    TimesTenDigits(50000);
    TimesTenDigits(500000);
    TimesTenDigits(5000000);
  }

  /** The sample stream: one event, for the value 50000000, half of the video (`50.00`). */
  lemma StreamSample()
    ensures StreamEvents(["out_time_ms=5", "0000000\n"], 100.0) == [Reported(Finite(50.0))]
  {
    assert "out_time_ms=5" == OutTimeKey + "5";
    assert "0000000\n" == "0000000" + "\n";
    FiftyMillionDigits();
    StreamSplitLine("5", "0000000", 50000000, 100.0);
  }

  /**
   * A progress line that arrives in two chunks is misread by the code as
   * written: the first half is reported as a value of its own, while the
   * stream carries one line with the whole value.
   */
  lemma SplitLineMisread()
    ensures ChunkEvents(["out_time_ms=5", "0000000\n"], 100.0) != StreamEvents(["out_time_ms=5", "0000000\n"], 100.0)
  {
    AsWrittenSample();
    StreamSample();
    assert [Reported(Finite(0.000005))][0] != [Reported(Finite(50.0))][0];
  }
}

=== FILE: livequeue.dfy ===
/**
 * The in-process queue of the live path (backend/src/jobs/jobQueue.ts):
 * `enqueueJob`, the `processQueue` loop running `processTranscodingJob`
 * with the table of backend/src/config.ts, and `resumePendingJobs`. This
 * loop never writes to the table: a job's failure is only logged.
 */
module JobQueue {
  import opened Wrappers
  import opened Text
  import opened Types
  import opened Presets
  import opened Store
  import opened Scheduler
  import opened Pipeline
  import Controllers

  /**
   * The awaited job runs to its end in environment `env` and the loop moves
   * on: its trace, and the job the loop starts next, if any. Success and
   * failure leave the loop in the same state.
   */
  function Finished(s: Sched, env: Env): (r: (Trace, Sched, Option<Job>))
    requires s.running.Some?
    ensures r.0.outcome.Ok? <==> AllSucceed(s.running.value, ConfigPresets, env)
    ensures (r.1, r.2) == Complete(s)
  {
    RunJobSucceeds(s.running.value, ConfigPresets, env);
    var (s', next) := Complete(s);
    (RunJob(s.running.value, ConfigPresets, env), s', next)
  }

  /** The loop's next state never depends on how the awaited job ended. */
  lemma OutcomeIgnored(s: Sched, env1: Env, env2: Env)
    requires s.running.Some?
    ensures Finished(s, env1).1 == Finished(s, env2).1 && Finished(s, env1).2 == Finished(s, env2).2
  {
  }

  /**
   * The job rebuilt from a `queued` or `processing` row, in the order the
   * object literal evaluates its fields: a null qualities column throws at
   * `split`, then a null stored file throws at `path.join`.
   */
  function ResumedJob(rec: VideoRecord, uploadDir: string, outputDir: string): (r: Result<Job>)
    ensures r.Ok? <==> rec.qualities.Some? && rec.storedFile.Some?
    ensures r.Err? ==> r.message == (if rec.qualities.None? then Controllers.NullQualities else Controllers.NullStoredFile)
    ensures r.Ok? ==>
      && r.value.id == rec.id && r.value.duration == rec.duration
      && r.value.storedFile == rec.storedFile
      && r.value.qualities == Split(rec.qualities.value, ',')
      && r.value.inputFilePath == PathJoin(uploadDir, rec.storedFile.value)
      && r.value.outputDir == PathJoin(outputDir, IntToString(rec.id))
  {
    if rec.qualities.None? then Err(Controllers.NullQualities)
    else if rec.storedFile.None? then Err(Controllers.NullStoredFile)
    else Ok(Job(rec.id, rec.storedFile, Split(rec.qualities.value, ','),
      PathJoin(uploadDir, rec.storedFile.value), PathJoin(outputDir, IntToString(rec.id)), rec.duration))
  }

  /** The result of `resumePendingJobs`: the loop, the jobs it handed over in order, and the error that stopped it. */
  datatype Resumed = Resumed(sched: Sched, enqueued: seq<Job>, error: Option<string>)

  /** Each row rebuilt into its job or the error its rebuilding throws, in row order. */
  function ResumedJobs(rows: seq<VideoRecord>, uploadDir: string, outputDir: string): (r: seq<Result<Job>>)
    ensures |r| == |rows|
    ensures forall k :: 0 <= k < |rows| ==> r[k] == ResumedJob(rows[k], uploadDir, outputDir)
  {
    seq(|rows|, k requires 0 <= k < |rows| => ResumedJob(rows[k], uploadDir, outputDir))
  }

  /**
   * The loop of `resumePendingJobs` from row `i` on, given what each row
   * rebuilds into: each job is enqueued at once; the first row that throws
   * ends the loop (the error is caught and logged), and the jobs already
   * enqueued stay queued.
   */
  function ResumeFrom(s: Sched, jobs: seq<Result<Job>>, i: nat): (r: Resumed)
    requires i <= |jobs|
    ensures |r.enqueued| <= |jobs| - i
    ensures r.error.None? ==> |r.enqueued| == |jobs| - i
    decreases |jobs| - i
  {
    if i == |jobs| then Resumed(s, [], None)
    else
      match jobs[i]
      case Err(m) => Resumed(s, [], Some(m))
      case Ok(job) =>
        var rest := ResumeFrom(Enqueue(s, job).0, jobs, i + 1);
        Resumed(rest.sched, [job] + rest.enqueued, rest.error)
  }

  /** `resumePendingJobs` over the queued and processing rows, in table order. */
  function Resume(s: Sched, db: Db, uploadDir: string, outputDir: string): Resumed {
    ResumeFrom(s, ResumedJobs(Store.Pending(db), uploadDir, outputDir), 0)
  }

  /** A row that rebuilds into a job. */
  predicate Resumable(rec: VideoRecord) {
    rec.qualities.Some? && rec.storedFile.Some?
  }

  /**
   * Resuming from row `i` enqueues the jobs of the rows before the first one
   * that throws, in order; it reports an error exactly when such a row
   * exists, and then it is that row's error.
   */
  lemma {:induction false} ResumeFromStopsAtFirstBad(s: Sched, jobs: seq<Result<Job>>, i: nat, j: nat)
    requires i <= j <= |jobs|
    requires forall k :: i <= k < j ==> jobs[k].Ok?
    requires j < |jobs| ==> jobs[j].Err?
    ensures var r := ResumeFrom(s, jobs, i);
      && |r.enqueued| == j - i
      && (forall k :: i <= k < j ==> jobs[k] == Ok(r.enqueued[k - i]))
      && (r.error.Some? <==> j < |jobs|)
      && (j < |jobs| ==> jobs[j] == Err(r.error.value))
    decreases j - i
  {
    if i < j {
      ResumeFromStopsAtFirstBad(Enqueue(s, jobs[i].value).0, jobs, i + 1, j);
    }
  }

  /**
   * Resuming rows enqueues them in order up to the first one with a null
   * qualities or stored-file column, each as the job rebuilt from it, and
   * stops there with that row's error.
   */
  lemma ResumeRowsStopAtFirstBad(s: Sched, rows: seq<VideoRecord>, uploadDir: string, outputDir: string, j: nat)
    requires j <= |rows|
    requires forall k :: 0 <= k < j ==> Resumable(rows[k])
    requires j < |rows| ==> !Resumable(rows[j])
    ensures var r := ResumeFrom(s, ResumedJobs(rows, uploadDir, outputDir), 0);
      && |r.enqueued| == j
      && (forall k :: 0 <= k < j ==> ResumedJob(rows[k], uploadDir, outputDir) == Ok(r.enqueued[k]))
      && (r.error.Some? <==> j < |rows|)
    ensures j < |rows| ==>
      ResumedJob(rows[j], uploadDir, outputDir) == Err(ResumeFrom(s, ResumedJobs(rows, uploadDir, outputDir), 0).error.value)
  {
    var jobs := ResumedJobs(rows, uploadDir, outputDir);
    JobsStopAtFirstBad(rows, uploadDir, outputDir, j);
    ResumeFromStopsAtFirstBad(s, jobs, 0, j);
    var r := ResumeFrom(s, jobs, 0);
    forall k | 0 <= k < j ensures ResumedJob(rows[k], uploadDir, outputDir) == Ok(r.enqueued[k]) {
      assert jobs[k] == Ok(r.enqueued[k - 0]);
    }
  }

  /** The rebuilt jobs of the rows before the first bad row exist, and the bad row's is an error. */
  lemma JobsStopAtFirstBad(rows: seq<VideoRecord>, uploadDir: string, outputDir: string, j: nat)
    requires j <= |rows|
    requires forall k :: 0 <= k < j ==> Resumable(rows[k])
    requires j < |rows| ==> !Resumable(rows[j])
    ensures forall k :: 0 <= k < j ==> ResumedJobs(rows, uploadDir, outputDir)[k].Ok?
    ensures j < |rows| ==> ResumedJobs(rows, uploadDir, outputDir)[j].Err?
  {
  }

  /** Resuming the table does the same to its queued and processing rows in id order. */
  lemma ResumeStopsAtFirstBad(s: Sched, db: Db, uploadDir: string, outputDir: string, j: nat)
    requires j <= |Store.Pending(db)|
    requires forall k :: 0 <= k < j ==> Resumable(Store.Pending(db)[k])
    requires j < |Store.Pending(db)| ==> !Resumable(Store.Pending(db)[j])
    ensures var r := Resume(s, db, uploadDir, outputDir);
      var rows := Store.Pending(db);
      && |r.enqueued| == j
      && (forall k :: 0 <= k < j ==> ResumedJob(rows[k], uploadDir, outputDir) == Ok(r.enqueued[k]))
      && (r.error.Some? <==> j < |rows|)
  {
    ResumeRowsStopAtFirstBad(s, Store.Pending(db), uploadDir, outputDir, j);
  }

  /** The loop state after resuming is the loop after enqueueing exactly the jobs reported, in order. */
  lemma {:induction false} ResumeFromEnqueues(s: Sched, jobs: seq<Result<Job>>, i: nat)
    requires Scheduler.Valid(s) && i <= |jobs|
    ensures var r := ResumeFrom(s, jobs, i);
      Scheduler.Valid(r.sched) && Outstanding(r.sched) == Outstanding(s) + r.enqueued
    decreases |jobs| - i
  {
    if i < |jobs| && jobs[i].Ok? {
      var job := jobs[i].value;
      var s' := Enqueue(s, job).0;
      EnqueueValid(s, job);
      ResumeFromEnqueues(s', jobs, i + 1);
      var rest := ResumeFrom(s', jobs, i + 1);
      assert Outstanding(s') + rest.enqueued == Outstanding(s) + ([job] + rest.enqueued);
    }
  }

  /**
   * An accepted transcode request and a restart agree: the job rebuilt from
   * the row the request left behind is the job the request enqueued.
   */
  lemma ResumeRebuildsAcceptedJob(db: Db, req: Controllers.Request, uploadDir: string, outputDir: string)
    requires Store.Valid(db)
    requires Controllers.Transcode(db, req, uploadDir, outputDir).reply.Accepted?
    ensures var t := Controllers.Transcode(db, req, uploadDir, outputDir);
      var id := req.fileId.value;
      && id in t.db.rows && Resumable(t.db.rows[id]) && IsPending(t.db.rows[id])
      && ResumedJob(t.db.rows[id], uploadDir, outputDir) == Ok(t.job.value)
  {
    Controllers.TranscodeAccepted(db, req, uploadDir, outputDir);
  }
}

=== FILE: pipeline.dfy ===
/**
 * One transcoding job from renditions to cue file: `processTranscodingJob`
 * (backend/src/services/transcodingService.ts) and the identical pipeline of
 * `processJob` (backend/src/services/jobProcessor.ts). The subprocesses and
 * the blurhash library are an environment; the model lists the side effects
 * in order, the progress events, and whether the job resolves or throws.
 */
module Pipeline {
  import opened Wrappers
  import opened Text
  import opened Types
  import opened Presets
  import opened Playlist
  import opened Storyboard
  import opened Encoder

  /**
   * What the outside world does during one job: the encoder run of the i-th
   * rendition, the error of the thumbnail extraction and of the storyboard
   * tiling (`None` when they succeed), and the blurhash of the thumbnail
   * (`''` when it cannot be computed).
   */
  datatype Env = Env(
    encode: nat -> EncoderRun,
    thumbnailError: Option<string>,
    blurhash: string,
    storyboardError: Option<string>)

  /** A side effect of the job, in the order it is issued. */
  datatype Step =
    | Encode(quality: string, input: string, preset: Preset, output: string)
    | WriteFile(path: string, text: string)
    | ExtractThumbnail(time: real, path: string)
    | ComputeBlurhash(path: string)
    | TileStoryboard(rows: int, path: string)

  /** The renditions loop so far: what ran, what was emitted, and the error that stopped it. */
  datatype Partial = Partial(steps: seq<Step>, events: seq<Event>, error: Option<string>)

  /** A whole job: what ran, what was emitted, and the blurhash or the error thrown. */
  datatype Trace = Trace(steps: seq<Step>, events: seq<Event>, outcome: Result<string>)

  /** The `TypeError` raised when a label has no preset and `preset.bitrate` is read. */
  const MissingPreset: string := "Cannot read properties of undefined (reading 'bitrate')"
  /** The same error raised by the playlist step when it reads `preset.bandwidth`. */
  const MissingBandwidth: string := "Cannot read properties of undefined (reading 'bandwidth')"

  const MasterFile: string := "master.m3u8"
  const ThumbnailFile: string := "thumbnail.jpg"
  const StoryboardFile: string := "storyboard.jpg"
  const CueFile: string := "thumbnails.vtt"

  /** The encoder arguments for one rendition. */
  function EncoderArgs(input: string, p: Preset, output: string): (r: seq<string>)
    ensures |r| == 22 && r[2] == input && r[10] == p.bitrate && r[12] == "scale=" + p.scale && r[21] == output
  {
    ["-y", "-i", input, "-reset_timestamps", "1", "-c:v", "libx264", "-preset", "fast",
     "-b:v", p.bitrate, "-vf", "scale=" + p.scale, "-c:a", "aac", "-f", "hls",
     "-hls_time", "10", "-hls_playlist_type", "vod", output]
  }

  /**
   * The encoder arguments are a fixed template: any two argument lists agree
   * everywhere except the input path, the bitrate, the scale filter and the
   * output path, and every list asks for reset timestamps, ten-second
   * segments and a VOD playlist.
   */
  lemma EncoderArgsTemplate(i1: string, p1: Preset, o1: string, i2: string, p2: Preset, o2: string)
    ensures var a, b := EncoderArgs(i1, p1, o1), EncoderArgs(i2, p2, o2);
      forall k :: 0 <= k < 22 && k != 2 && k != 10 && k != 12 && k != 21 ==> a[k] == b[k]
    ensures var a := EncoderArgs(i1, p1, o1);
      a[3..5] == ["-reset_timestamps", "1"] && a[17..19] == ["-hls_time", "10"]
      && a[19..21] == ["-hls_playlist_type", "vod"]
  {
  }

  /** The step that encodes rendition `q` with preset `p`, writing `<outputDir>/<q>.m3u8`. */
  function RenditionStep(job: Job, p: Preset, q: string): Step {
    Encode(q, job.inputFilePath, p, PathJoin(job.outputDir, RenditionUri(q)))
  }

  /** The full command line of an encode step, progress flags included. */
  function CommandLine(step: Step): (r: seq<string>)
    requires step.Encode?
    ensures |r| == 24 && r[22..] == ProgressArgs
    ensures r[2] == step.input && r[10] == step.preset.bitrate && r[21] == step.output
  {
    SpawnArgs(EncoderArgs(step.input, step.preset, step.output))
  }

  /** `job-progress` events for the values one rendition reports. */
  function ProgressEvents(id: int, q: string, progress: seq<Progress>): (r: seq<Event>)
    ensures |r| == |progress|
    ensures forall k :: 0 <= k < |r| ==> r[k] == JobProgress(id, q, progress[k])
  {
    seq(|progress|, k requires 0 <= k < |progress| => JobProgress(id, q, progress[k]))
  }

  /**
   * What the encoder reports for each rendition of the job, in order, with
   * stdout split chunk by chunk as the handler in backend/src/utils/ffmpeg.ts does.
   */
  function EncoderReports(job: Job, env: Env): (r: seq<Report>)
    ensures |r| == |job.qualities|
    ensures forall k :: 0 <= k < |r| ==> r[k] == RunAsWritten(env.encode(k), job.duration)
  {
    seq(|job.qualities|, k requires 0 <= k < |job.qualities| => RunAsWritten(env.encode(k), job.duration))
  }

  /** The preset each requested label resolves to, `None` for an unknown label. */
  function PresetsFor(table: seq<Entry>, qualities: seq<string>): (r: seq<Option<Preset>>)
    ensures |r| == |qualities|
    ensures forall k :: 0 <= k < |r| ==> r[k] == Lookup(table, qualities[k])
  {
    seq(|qualities|, k requires 0 <= k < |qualities| => Lookup(table, qualities[k]))
  }

  /** Rendition `i` can run: its label has a preset and its encoder resolves. */
  predicate RenditionSucceeds(job: Job, presets: seq<Option<Preset>>, reports: seq<Report>, i: nat)
    requires i < |job.qualities| == |presets| == |reports|
  {
    presets[i].Some? && reports[i].outcome.Ok?
  }

  /**
   * The `for (const quality of job.qualities)` loop from position `i` on:
   * renditions run one at a time, in order, and the first failure is
   * rethrown, so nothing after it runs.
   */
  function Renditions(job: Job, presets: seq<Option<Preset>>, reports: seq<Report>, i: nat): (r: Partial)
    requires i <= |job.qualities| == |presets| == |reports|
    ensures i + |r.steps| <= |job.qualities|
    ensures forall k :: 0 <= k < |r.steps| ==> r.steps[k].Encode?
    ensures forall k :: 0 <= k < |r.events| ==> r.events[k].JobProgress? && r.events[k].jobId == job.id
    ensures r.error.None? ==> |r.steps| == |job.qualities| - i
    decreases |job.qualities| - i
  {
    if i == |job.qualities| then Partial([], [], None)
    else
      var q := job.qualities[i];
      match presets[i]
      case None => Partial([], [], Some(MissingPreset))
      case Some(p) =>
        var here := ProgressEvents(job.id, q, reports[i].progress);
        if reports[i].outcome.Err? then Partial([RenditionStep(job, p, q)], here, Some(reports[i].outcome.message))
        else
          var rest := Renditions(job, presets, reports, i + 1);
          Partial([RenditionStep(job, p, q)] + rest.steps, here + rest.events, rest.error)
  }

  /** A successful rendition hands over to the next one. */
  lemma RenditionContinues(job: Job, presets: seq<Option<Preset>>, reports: seq<Report>, i: nat)
    requires i < |job.qualities| == |presets| == |reports| && RenditionSucceeds(job, presets, reports, i)
    ensures var here, rest := Renditions(job, presets, reports, i), Renditions(job, presets, reports, i + 1);
      && here.error == rest.error
      && here.steps == [RenditionStep(job, presets[i].value, job.qualities[i])] + rest.steps
  {
  }

  /** A rendition that cannot run ends the loop with an error. */
  lemma RenditionStops(job: Job, presets: seq<Option<Preset>>, reports: seq<Report>, i: nat)
    requires i < |job.qualities| == |presets| == |reports| && !RenditionSucceeds(job, presets, reports, i)
    ensures Renditions(job, presets, reports, i).error.Some?
  {
  }

  /** The loop completes exactly when every remaining rendition succeeds. */
  lemma {:induction false} RenditionsSucceedIff(job: Job, presets: seq<Option<Preset>>, reports: seq<Report>, i: nat)
    requires i <= |job.qualities| == |presets| == |reports|
    ensures Renditions(job, presets, reports, i).error.None?
      <==> forall k :: i <= k < |job.qualities| ==> RenditionSucceeds(job, presets, reports, k)
    decreases |job.qualities| - i
  {
    if i < |job.qualities| {
      RenditionsSucceedIff(job, presets, reports, i + 1);
      if RenditionSucceeds(job, presets, reports, i) {
        RenditionContinues(job, presets, reports, i);
      } else {
        RenditionStops(job, presets, reports, i);
      }
    }
  }

  /** On success the k-th step encodes the k-th quality with its own preset. */
  lemma {:induction false} RenditionsInOrder(job: Job, presets: seq<Option<Preset>>, reports: seq<Report>, i: nat, k: nat)
    requires i <= |job.qualities| == |presets| == |reports| && Renditions(job, presets, reports, i).error.None?
    requires i <= k < |job.qualities|
    ensures presets[k].Some?
    ensures Renditions(job, presets, reports, i).steps[k - i]
      == RenditionStep(job, presets[k].value, job.qualities[k])
    decreases k - i
  {
    if !RenditionSucceeds(job, presets, reports, i) {
      RenditionStops(job, presets, reports, i);
    }
    RenditionContinues(job, presets, reports, i);
    if k > i {
      RenditionsInOrder(job, presets, reports, i + 1, k);
    }
  }

  /**
   * A failing rendition ends the loop: when every earlier rendition succeeds
   * and rendition `j`'s encoder fails, exactly the encodes up to `j` ran and
   * the loop throws that encoder's error.
   */
  lemma {:induction false} FailureStopsRenditions(job: Job, presets: seq<Option<Preset>>, reports: seq<Report>, i: nat, j: nat)
    requires i <= j < |job.qualities| == |presets| == |reports|
    requires forall k :: i <= k < j ==> RenditionSucceeds(job, presets, reports, k)
    requires presets[j].Some? && reports[j].outcome.Err?
    ensures Renditions(job, presets, reports, i).error == Some(reports[j].outcome.message)
    ensures |Renditions(job, presets, reports, i).steps| == j - i + 1
    decreases j - i
  {
    if i < j {
      assert RenditionSucceeds(job, presets, reports, i);
      RenditionContinues(job, presets, reports, i);
      FailureStopsRenditions(job, presets, reports, i + 1, j);
    }
  }

  /** The per-job directory's file `name`. */
  function OutputPath(job: Job, name: string): string {
    PathJoin(job.outputDir, name)
  }

  /** When the cover thumbnail is taken: a tenth of the way in. */
  function ThumbnailTime(job: Job): real {
    job.duration * 0.1
  }

  /** The steps after the renditions and how they end. */
  datatype Outro = Outro(steps: seq<Step>, outcome: Result<string>)

  /**
   * After the renditions: `master.m3u8`, then the cover thumbnail at a tenth
   * of the duration, then its blurhash, then the storyboard image and
   * `thumbnails.vtt`. The first step that throws ends the job.
   */
  function Finish(job: Job, table: seq<Entry>, env: Env): (r: Outro)
    ensures r.outcome.Ok? ==> r.outcome.value == env.blurhash
  {
    match MasterPlaylist(table, job.qualities)
    case None => Outro([], Err(MissingBandwidth))
    case Some(text) =>
      var thumb := OutputPath(job, ThumbnailFile);
      var upToThumb := [WriteFile(OutputPath(job, MasterFile), text), ExtractThumbnail(ThumbnailTime(job), thumb)];
      if env.thumbnailError.Some? then Outro(upToThumb, Err(env.thumbnailError.value))
      else
        var upToTiles := upToThumb + [ComputeBlurhash(thumb), TileStoryboard(Rows(NumThumbs(job.duration)), OutputPath(job, StoryboardFile))];
        if env.storyboardError.Some? then Outro(upToTiles, Err(env.storyboardError.value))
        else Outro(upToTiles + [WriteFile(OutputPath(job, CueFile), VttText(job.duration))], Ok(env.blurhash))
  }

  /**
   * One job: the renditions, then the steps of `Finish`. A rendition that
   * throws ends the job before any of them.
   */
  function RunJob(job: Job, table: seq<Entry>, env: Env): (r: Trace)
    ensures forall k :: 0 <= k < |r.events| ==> r.events[k].JobProgress? && r.events[k].jobId == job.id
    ensures r.outcome.Ok? ==> r.outcome.value == env.blurhash
  {
    var enc := Renditions(job, PresetsFor(table, job.qualities), EncoderReports(job, env), 0);
    if enc.error.Some? then Trace(enc.steps, enc.events, Err(enc.error.value))
    else
      var fin := Finish(job, table, env);
      Trace(enc.steps + fin.steps, enc.events, fin.outcome)
  }

  /** Rendition `i` has a preset and its encoder exits with code 0. */
  predicate EncodeSucceeds(job: Job, table: seq<Entry>, env: Env, i: nat)
    requires i < |job.qualities|
  {
    Lookup(table, job.qualities[i]).Some? && env.encode(i).exitCode == Some(0)
  }

  /** In terms of the encoder runs: a rendition succeeds exactly when its encoder exits with 0. */
  lemma EncodeSucceedsIff(job: Job, table: seq<Entry>, env: Env, i: nat)
    requires i < |job.qualities|
    ensures RenditionSucceeds(job, PresetsFor(table, job.qualities), EncoderReports(job, env), i)
      <==> EncodeSucceeds(job, table, env, i)
  {
  }

  /** Everything the job depends on succeeds. */
  predicate AllSucceed(job: Job, table: seq<Entry>, env: Env) {
    && (forall k :: 0 <= k < |job.qualities| ==> EncodeSucceeds(job, table, env, k))
    && env.thumbnailError.None? && env.storyboardError.None?
  }

  /** The five steps after the renditions, in their fixed order. */
  function FinalSteps(job: Job, table: seq<Entry>): seq<Step>
    requires MasterPlaylist(table, job.qualities).Some?
  {
    var thumb := OutputPath(job, ThumbnailFile);
    [WriteFile(OutputPath(job, MasterFile), MasterPlaylist(table, job.qualities).value),
     ExtractThumbnail(ThumbnailTime(job), thumb),
     ComputeBlurhash(thumb),
     TileStoryboard(Rows(NumThumbs(job.duration)), OutputPath(job, StoryboardFile)),
     WriteFile(OutputPath(job, CueFile), VttText(job.duration))]
  }

  /**
   * Once every label is known, the steps after the renditions succeed
   * exactly when the thumbnail and the storyboard do, and then they are the
   * five final steps in their fixed order.
   */
  lemma FinishSucceeds(job: Job, table: seq<Entry>, env: Env)
    requires MasterPlaylist(table, job.qualities).Some?
    ensures Finish(job, table, env).outcome.Ok? <==> env.thumbnailError.None? && env.storyboardError.None?
    ensures Finish(job, table, env).outcome.Ok? ==> Finish(job, table, env).steps == FinalSteps(job, table)
  {
  }

  /**
   * A job succeeds exactly when every rendition and both image steps
   * succeed. Then it issues one encode per quality, in order, followed by the
   * master playlist (the generator's text), the thumbnail at a tenth of the
   * duration, the blurhash, the storyboard tiling and the cue file (the
   * generator's text), and it resolves with the blurhash.
   */
  lemma RunJobSucceeds(job: Job, table: seq<Entry>, env: Env)
    ensures RunJob(job, table, env).outcome.Ok? <==> AllSucceed(job, table, env)
    ensures AllSucceed(job, table, env) ==>
      var r := RunJob(job, table, env);
      && MasterPlaylist(table, job.qualities).Some?
      && |r.steps| == |job.qualities| + 5
      && r.steps[|job.qualities|..] == FinalSteps(job, table)
      && r.outcome == Ok(env.blurhash)
  {
    var presets, reports := PresetsFor(table, job.qualities), EncoderReports(job, env);
    var enc := Renditions(job, presets, reports, 0);
    RenditionsSucceedIff(job, presets, reports, 0);
    forall k | 0 <= k < |job.qualities|
      ensures RenditionSucceeds(job, presets, reports, k) <==> EncodeSucceeds(job, table, env, k)
    {
      EncodeSucceedsIff(job, table, env, k);
    }
    if enc.error.None? {
      forall k | 0 <= k < |job.qualities| ensures job.qualities[k] in Names(table) {
        assert RenditionSucceeds(job, presets, reports, k);
      }
      MasterPlaylistDefined(table, job.qualities);
      FinishSucceeds(job, table, env);
      var r := RunJob(job, table, env);
      assert r.steps == enc.steps + Finish(job, table, env).steps;
    }
  }

  /**
   * A job whose encoder fails for rendition `j`, after all earlier renditions
   * succeed, throws the encoder's exit message having run only the first
   * `j + 1` encodes: no playlist, thumbnail, blurhash or storyboard step runs.
   */
  lemma EncoderFailureStopsJob(job: Job, table: seq<Entry>, env: Env, j: nat)
    requires j < |job.qualities|
    requires forall k :: 0 <= k < j ==> EncodeSucceeds(job, table, env, k)
    requires Lookup(table, job.qualities[j]).Some? && env.encode(j).exitCode != Some(0)
    ensures RunJob(job, table, env).outcome == Err(ExitMessage(env.encode(j).exitCode))
    ensures |RunJob(job, table, env).steps| == j + 1
    ensures forall k :: 0 <= k < |RunJob(job, table, env).steps| ==> RunJob(job, table, env).steps[k].Encode?
  {
    var presets, reports := PresetsFor(table, job.qualities), EncoderReports(job, env);
    forall k | 0 <= k < j ensures RenditionSucceeds(job, presets, reports, k) {
      EncodeSucceedsIff(job, table, env, k);
    }
    assert reports[j] == RunAsWritten(env.encode(j), job.duration);
    FailureStopsRenditions(job, presets, reports, 0, j);
  }

  /**
   * A thumbnail extraction that throws ends the job right after it: the
   * blurhash, storyboard and cue-file steps never run.
   */
  lemma ThumbnailFailureStopsJob(job: Job, table: seq<Entry>, env: Env)
    requires forall k :: 0 <= k < |job.qualities| ==> EncodeSucceeds(job, table, env, k)
    requires env.thumbnailError.Some?
    ensures RunJob(job, table, env).outcome == Err(env.thumbnailError.value)
    ensures |RunJob(job, table, env).steps| == |job.qualities| + 2
    ensures RunJob(job, table, env).steps[|job.qualities| + 1].ExtractThumbnail?
  {
    var presets, reports := PresetsFor(table, job.qualities), EncoderReports(job, env);
    forall k | 0 <= k < |job.qualities| ensures RenditionSucceeds(job, presets, reports, k) {
      EncodeSucceedsIff(job, table, env, k);
    }
    RenditionsSucceedIff(job, presets, reports, 0);
    forall k | 0 <= k < |job.qualities| ensures job.qualities[k] in Names(table) {
      assert EncodeSucceeds(job, table, env, k);
    }
    MasterPlaylistDefined(table, job.qualities);
    var enc := Renditions(job, presets, reports, 0);
    var fin := Finish(job, table, env);
    assert |fin.steps| == 2 && fin.steps[1].ExtractThumbnail?;
    assert RunJob(job, table, env).steps == enc.steps + fin.steps;
  }

  /** Both copies of the pipeline run the same job identically. */
  lemma PipelinesAgree(job: Job, env: Env)
    ensures RunJob(job, ConfigPresets, env) == RunJob(job, ServicePresets, env)
  {
    TablesAgree();
  }

  // ---- The inline generators of processTranscodingJob ----

  /** String concatenation regroups freely. */
  lemma AppendAssoc(a: string, b: string, c: string)
    ensures (a + b) + c == a + (b + c)
  {
  }

  /** The two lines the inline loop appends for quality `q`. */
  function EntryText(table: seq<Entry>, q: string): string
    requires Lookup(table, q).Some?
  {
    StreamInf(Lookup(table, q).value) + "\n" + RenditionUri(q) + "\n"
  }

  /** The body of a list is the first quality's lines followed by the body of the rest. */
  lemma EntriesCons(table: seq<Entry>, qs: seq<string>)
    requires |qs| > 0 && Lookup(table, qs[0]).Some? && Entries(table, qs[1..]).Some?
    ensures Entries(table, qs) == Some(EntryText(table, qs[0]) + Entries(table, qs[1..]).value)
  {
  }

  /** Appending a quality to the list appends its lines to the body. */
  lemma {:induction false} EntriesSnoc(table: seq<Entry>, qs: seq<string>, q: string)
    requires Entries(table, qs).Some? && Lookup(table, q).Some?
    ensures Entries(table, qs + [q]) == Some(Entries(table, qs).value + EntryText(table, q))
  {
    var longer := qs + [q];
    if |qs| == 0 {
      assert longer == [q];
      assert longer[1..] == [];
      assert Entries(table, longer[1..]) == Some("");
      EntriesCons(table, longer);
      assert Entries(table, qs) == Some("");
      assert EntryText(table, q) + "" == EntryText(table, q);
      assert "" + EntryText(table, q) == EntryText(table, q);
    } else {
      var rest := qs[1..];
      assert Lookup(table, qs[0]).Some? && Entries(table, rest).Some?;
      EntriesSnoc(table, rest, q);
      assert longer[1..] == rest + [q];
      assert longer[0] == qs[0];
      EntriesCons(table, longer);
      EntriesCons(table, qs);
      AppendAssoc(EntryText(table, qs[0]), Entries(table, rest).value, EntryText(table, q));
    }
  }

  /** A label without a preset anywhere in the list leaves the playlist undefined. */
  lemma MissingLabel(table: seq<Entry>, qualities: seq<string>, i: nat)
    requires i < |qualities| && Lookup(table, qualities[i]).None?
    ensures MasterPlaylist(table, qualities).None?
  {
    MasterPlaylistDefined(table, qualities);
  }

  /** One more pass of the inline loop appends one quality's lines to the body. */
  lemma EntriesStep(table: seq<Entry>, qualities: seq<string>, i: nat, body: string)
    requires i < |qualities| && Entries(table, qualities[..i]) == Some(body)
    requires Lookup(table, qualities[i]).Some?
    ensures Entries(table, qualities[..i + 1]) == Some(body + EntryText(table, qualities[i]))
  {
    var prefix, q := qualities[..i], qualities[i];
    assert qualities[..i + 1] == prefix + [q];
    EntriesSnoc(table, prefix, q);
  }

  /**
   * The master playlist as `processTranscodingJob` builds it inline, by
   * appending to a string in a loop: the same text as the generator, and no
   * text at all when a label has no preset.
   */
  method InlineMasterPlaylist(table: seq<Entry>, qualities: seq<string>) returns (text: Option<string>)
    ensures text == MasterPlaylist(table, qualities)
  {
    var acc := Header;
    ghost var body := "";
    var i := 0;
    assert qualities[..0] == [];
    assert acc == Header + body;
    while i < |qualities|
      invariant 0 <= i <= |qualities|
      invariant Entries(table, qualities[..i]) == Some(body)
      invariant acc == Header + body
    {
      var q := qualities[i];
      var preset := Lookup(table, q);
      if preset.None? {
        MissingLabel(table, qualities, i);
        return None;
      }
      EntriesStep(table, qualities, i, body);
      var line := StreamInf(preset.value) + "\n" + RenditionUri(q) + "\n";
      assert line == EntryText(table, q);
      AppendAssoc(Header, body, line);
      acc := acc + line;
      body := body + line;
      i := i + 1;
    }
    assert qualities[..i] == qualities;
    assert MasterPlaylist(table, qualities) == Some(Header + body);
    text := Some(acc);
  }
}

=== FILE: playlist.dfy ===
/**
 * The HLS master playlist (section 4.3.4.2 of RFC 8216): the `#EXTM3U` and
 * `#EXT-X-VERSION:3` header tags followed by one `#EXT-X-STREAM-INF` tag and
 * one rendition URI per requested quality, in request order.
 */
module Playlist {
  import opened Wrappers
  import opened Text
  import opened Presets

  const Header: string := "#EXTM3U\n#EXT-X-VERSION:3\n"
  const HeaderLines: seq<string> := ["#EXTM3U", "#EXT-X-VERSION:3"]
  const StreamInfPrefix: string := "#EXT-X-STREAM-INF:"
  const UriSuffix: string := ".m3u8"

  /** The `EXT-X-STREAM-INF` tag line of a preset. */
  function StreamInf(p: Preset): string {
    StreamInfPrefix + "BANDWIDTH=" + NatToString(p.bandwidth) + ",RESOLUTION=" + p.resolution
  }

  /** The relative URI of a rendition's own playlist. */
  function RenditionUri(quality: string): string {
    quality + UriSuffix
  }

  /** The body text, one tag line and one URI line per quality; `None` when a label has no preset. */
  function Entries(table: seq<Entry>, qualities: seq<string>): Option<string> {
    if |qualities| == 0 then Some("")
    else
      var preset := Lookup(table, qualities[0]);
      var rest := Entries(table, qualities[1..]);
      if preset.None? || rest.None? then None
      else Some(StreamInf(preset.value) + "\n" + RenditionUri(qualities[0]) + "\n" + rest.value)
  }

  /**
   * `generateMasterPlaylist`: the text written to `master.m3u8`. `None`
   * stands for the `TypeError` thrown when a label has no preset.
   */
  function MasterPlaylist(table: seq<Entry>, qualities: seq<string>): Option<string> {
    var body := Entries(table, qualities);
    if body.None? then None else Some(Header + body.value)
  }

  /** The tag line of each requested quality's preset, in request order. */
  function Tags(table: seq<Entry>, qualities: seq<string>): (r: seq<string>)
    requires forall k :: 0 <= k < |qualities| ==> qualities[k] in Names(table)
    ensures |r| == |qualities|
    ensures forall k :: 0 <= k < |qualities| ==> r[k] == StreamInf(Lookup(table, qualities[k]).value)
  {
    seq(|qualities|, k requires 0 <= k < |qualities| => StreamInf(Lookup(table, qualities[k]).value))
  }

  /** The rendition URI of each requested quality, in request order. */
  function Uris(qualities: seq<string>): (r: seq<string>)
    ensures |r| == |qualities|
    ensures forall k :: 0 <= k < |qualities| ==> r[k] == RenditionUri(qualities[k])
  {
    seq(|qualities|, k requires 0 <= k < |qualities| => RenditionUri(qualities[k]))
  }

  /** Tag lines and URI lines alternating: each tag followed by its URI. */
  function Pairs(tags: seq<string>, uris: seq<string>): (r: seq<string>)
    requires |tags| == |uris|
    ensures |r| == 2 * |tags|
  {
    if |tags| == 0 then [] else [tags[0], uris[0]] + Pairs(tags[1..], uris[1..])
  }

  /** The i-th pair sits at lines 2i and 2i + 1. */
  lemma {:induction false} PairsAt(tags: seq<string>, uris: seq<string>, i: nat)
    requires |tags| == |uris| && i < |tags|
    ensures Pairs(tags, uris)[2 * i] == tags[i] && Pairs(tags, uris)[2 * i + 1] == uris[i]
  {
    if i > 0 {
      PairsAt(tags[1..], uris[1..], i - 1);
    }
  }

  /** The lines of the body: for each quality its tag line, then its URI line. */
  function EntryLines(table: seq<Entry>, qualities: seq<string>): (r: seq<string>)
    requires forall k :: 0 <= k < |qualities| ==> qualities[k] in Names(table)
    ensures |r| == 2 * |qualities|
  {
    Pairs(Tags(table, qualities), Uris(qualities))
  }

  /** The body's lines start with the first quality's pair, then continue with the rest's. */
  lemma EntryLinesCons(table: seq<Entry>, qualities: seq<string>)
    requires forall k :: 0 <= k < |qualities| ==> qualities[k] in Names(table)
    requires |qualities| > 0
    ensures EntryLines(table, qualities)
      == [StreamInf(Lookup(table, qualities[0]).value), RenditionUri(qualities[0])] + EntryLines(table, qualities[1..])
  {
    assert Tags(table, qualities)[1..] == Tags(table, qualities[1..]);
    assert Uris(qualities)[1..] == Uris(qualities[1..]);
  }

  /** The i-th quality owns lines 2i and 2i + 1 of the body. */
  lemma EntryLinesAt(table: seq<Entry>, qualities: seq<string>, i: nat)
    requires forall k :: 0 <= k < |qualities| ==> qualities[k] in Names(table)
    requires i < |qualities|
    ensures EntryLines(table, qualities)[2 * i] == StreamInf(Lookup(table, qualities[i]).value)
    ensures EntryLines(table, qualities)[2 * i + 1] == RenditionUri(qualities[i])
  {
    PairsAt(Tags(table, qualities), Uris(qualities), i);
  }

  /** A table whose labels and resolutions can sit on a playlist line. */
  predicate PlainTable(table: seq<Entry>) {
    forall i :: 0 <= i < |table| ==> '\n' !in table[i].name && '\n' !in table[i].preset.resolution
  }

  /** The playlist exists exactly when every requested label has a preset. */
  lemma {:induction false} MasterPlaylistDefined(table: seq<Entry>, qualities: seq<string>)
    ensures MasterPlaylist(table, qualities).Some? <==> forall k :: 0 <= k < |qualities| ==> qualities[k] in Names(table)
  {
    EntriesDefined(table, qualities);
  }

  /** The body exists exactly when every requested label has a preset. */
  lemma {:induction false} EntriesDefined(table: seq<Entry>, qualities: seq<string>)
    ensures Entries(table, qualities).Some? <==> forall k :: 0 <= k < |qualities| ==> qualities[k] in Names(table)
  {
    if |qualities| > 0 {
      EntriesDefined(table, qualities[1..]);
      assert forall k :: 1 <= k < |qualities| ==> qualities[k] == qualities[1..][k - 1];
    }
  }

  /** The body text is its lines, each followed by a newline. */
  lemma {:induction false} EntriesAreTerminatedLines(table: seq<Entry>, qualities: seq<string>)
    requires forall k :: 0 <= k < |qualities| ==> qualities[k] in Names(table)
    ensures Entries(table, qualities) == Some(Terminated(EntryLines(table, qualities), '\n'))
  {
    if |qualities| > 0 {
      EntriesAreTerminatedLines(table, qualities[1..]);
      var a := StreamInf(Lookup(table, qualities[0]).value);
      var b := RenditionUri(qualities[0]);
      EntryLinesCons(table, qualities);
      TerminatedPair(a, b, EntryLines(table, qualities[1..]), '\n');
    }
  }

  /** Two lines, then more lines, each terminated. */
  lemma TerminatedPair(a: string, b: string, rest: seq<string>, c: char)
    ensures Terminated([a, b] + rest, c) == a + [c] + b + [c] + Terminated(rest, c)
  {
    var ls := [a, b] + rest;
    assert ls[1..] == [b] + rest;
    assert ls[1..][1..] == rest;
  }

  /** The header lines hold no line break. */
  lemma HeaderPlain()
    ensures forall k :: 0 <= k < |HeaderLines| ==> '\n' !in HeaderLines[k]
  {
    assert '\n' !in HeaderLines[0] && '\n' !in HeaderLines[1];
  }

  /** The header text is its two lines, each followed by a newline. */
  lemma HeaderIsTerminated()
    ensures Header == Terminated(HeaderLines, '\n')
  {
    assert HeaderLines[1..] == ["#EXT-X-VERSION:3"];
    assert HeaderLines[1..][1..] == [];
  }

  /** A tag line holds no line break when the resolution holds none. */
  lemma StreamInfPlain(p: Preset)
    requires '\n' !in p.resolution
    ensures '\n' !in StreamInf(p)
  {
    var d := NatToString(p.bandwidth);
    assert forall k :: 0 <= k < |d| ==> d[k] != '\n';
  }

  /** No body line holds a line break. */
  lemma {:induction false} EntryLinesPlain(table: seq<Entry>, qualities: seq<string>)
    requires PlainTable(table)
    requires forall k :: 0 <= k < |qualities| ==> qualities[k] in Names(table)
    ensures forall k :: 0 <= k < |EntryLines(table, qualities)| ==> '\n' !in EntryLines(table, qualities)[k]
  {
    if |qualities| > 0 {
      EntryLinesPlain(table, qualities[1..]);
      EntryLinesCons(table, qualities);
      var q := qualities[0];
      var p := Lookup(table, q).value;
      LookupEntry(table, q);
      var i :| 0 <= i < |table| && table[i] == Entry(q, p);
      StreamInfPlain(p);
      assert '\n' !in table[i].name;
      assert '\n' !in RenditionUri(q);
    }
  }

  /**
   * Line structure of the master playlist: the two header lines, then for
   * each requested quality its preset's `EXT-X-STREAM-INF` line and its URI
   * line (see `EntryLinesAt`), and a final newline; 2 + 2n lines.
   */
  lemma MasterPlaylistLines(table: seq<Entry>, qualities: seq<string>)
    requires PlainTable(table)
    requires MasterPlaylist(table, qualities).Some?
    ensures forall k :: 0 <= k < |qualities| ==> qualities[k] in Names(table)
    ensures Split(MasterPlaylist(table, qualities).value, '\n') == HeaderLines + EntryLines(table, qualities) + [""]
    ensures |Split(MasterPlaylist(table, qualities).value, '\n')| == 2 + 2 * |qualities| + 1
  {
    MasterPlaylistDefined(table, qualities);
    EntriesAreTerminatedLines(table, qualities);
    HeaderIsTerminated();
    var body := EntryLines(table, qualities);
    TerminatedAppend(HeaderLines, body, '\n');
    EntryLinesPlain(table, qualities);
    var all := HeaderLines + body;
    HeaderPlain();
    LinesFree(HeaderLines, body, '\n');
    SplitTerminated(all, '\n');
  }

  /** Reads the rendition URIs back out of master playlist lines. */
  function ParseEntries(lines: seq<string>): Option<seq<string>>
    decreases |lines|
  {
    if |lines| == 0 then Some([])
    else if |lines| < 2 || !StartsWith(lines[0], StreamInfPrefix) then None
    else
      var uri := lines[1];
      var rest := ParseEntries(lines[2..]);
      if |uri| < |UriSuffix| || uri[|uri| - |UriSuffix|..] != UriSuffix || rest.None? then None
      else Some([uri[..|uri| - |UriSuffix|]] + rest.value)
  }

  /** Reads the list of qualities back out of a master playlist's text. */
  function ParseMaster(text: string): Option<seq<string>> {
    var lines := Split(text, '\n');
    if |lines| < 3 || lines[..2] != HeaderLines || lines[|lines| - 1] != "" then None
    else ParseEntries(lines[2..|lines| - 1])
  }

  /** Reading the body lines back gives the requested qualities. */
  lemma {:induction false} ParseEntryLines(table: seq<Entry>, qualities: seq<string>)
    requires forall k :: 0 <= k < |qualities| ==> qualities[k] in Names(table)
    ensures ParseEntries(EntryLines(table, qualities)) == Some(qualities)
  {
    if |qualities| > 0 {
      var ls := EntryLines(table, qualities);
      ParseEntryLines(table, qualities[1..]);
      EntryLinesCons(table, qualities);
      assert ls[2..] == EntryLines(table, qualities[1..]);
      var uri := RenditionUri(qualities[0]);
      assert ls[1] == uri;
      assert uri[..|uri| - |UriSuffix|] == qualities[0];
      assert uri[|uri| - |UriSuffix|..] == UriSuffix;
      assert StartsWith(ls[0], StreamInfPrefix) by {
        assert ls[0][..|StreamInfPrefix|] == StreamInfPrefix;
      }
      assert qualities == [qualities[0]] + qualities[1..];
    }
  }

  /** The master playlist lists exactly the requested qualities, in request order. */
  lemma MasterPlaylistRoundTrip(table: seq<Entry>, qualities: seq<string>)
    requires PlainTable(table)
    requires MasterPlaylist(table, qualities).Some?
    ensures ParseMaster(MasterPlaylist(table, qualities).value) == Some(qualities)
  {
    MasterPlaylistLines(table, qualities);
    var lines := HeaderLines + EntryLines(table, qualities) + [""];
    assert lines[..2] == HeaderLines;
    assert lines[2..|lines| - 1] == EntryLines(table, qualities);
    ParseEntryLines(table, qualities);
  }

  /** The master playlist text always starts with the two header tags. */
  lemma MasterPlaylistHeader(table: seq<Entry>, qualities: seq<string>)
    requires MasterPlaylist(table, qualities).Some?
    ensures StartsWith(MasterPlaylist(table, qualities).value, "#EXTM3U\n#EXT-X-VERSION:3\n")
  {
    var t := MasterPlaylist(table, qualities).value;
    assert t[..|Header|] == Header;
  }

  /** Both preset tables can sit on playlist lines. */
  lemma PresetTablesPlain()
    ensures PlainTable(ConfigPresets) && PlainTable(ServicePresets)
  {
    NamesArePlain();
    TablesAgree();
    forall i | 0 <= i < |ConfigPresets| ensures '\n' !in ConfigPresets[i].preset.resolution {
      EntryShape(i);
      var w := NatToString(Widths[i]);
      var h := NatToString(Heights[i]);
      assert ConfigPresets[i].preset.resolution == w + "x" + h;
      assert forall k :: 0 <= k < |w| ==> w[k] != '\n';
      assert forall k :: 0 <= k < |h| ==> h[k] != '\n';
    }
  }
}

=== FILE: presets.dfy ===
/**
 * The quality preset table: label -> encoder scale filter, target bitrate,
 * playlist bandwidth and display resolution. The repository carries two
 * copies, `QUALITY_PRESETS` (backend/src/config.ts) and `qualityPresets`
 * (backend/src/services/videoService.ts); both are modelled verbatim and
 * proved equal.
 */
module Presets {
  import opened Wrappers
  import opened Text

  datatype Preset = Preset(scale: string, bitrate: string, bandwidth: nat, resolution: string)

  /** One key/value pair of the table object; key order is insertion order. */
  datatype Entry = Entry(name: string, preset: Preset)

  /** `QUALITY_PRESETS` of backend/src/config.ts. */
  const ConfigPresets: seq<Entry> := [
    Entry("144p", Preset("256:-2", "200k", 200000, "256x144")),
    Entry("240p", Preset("426:-2", "400k", 400000, "426x240")),
    Entry("360p", Preset("640:-2", "800k", 800000, "640x360")),
    Entry("480p", Preset("854:-2", "1500k", 1500000, "854x480")),
    Entry("720p", Preset("1280:-2", "3000k", 3000000, "1280x720")),
    Entry("1080p", Preset("1920:-2", "6000k", 6000000, "1920x1080")),
    Entry("1440p", Preset("2560:-2", "12000k", 12000000, "2560x1440")),
    Entry("2160p", Preset("3840:-2", "24000k", 24000000, "3840x2160"))
  ]

  /** `qualityPresets` of backend/src/services/videoService.ts. */
  const ServicePresets: seq<Entry> := [
    Entry("144p", Preset("256:-2", "200k", 200000, "256x144")),
    Entry("240p", Preset("426:-2", "400k", 400000, "426x240")),
    Entry("360p", Preset("640:-2", "800k", 800000, "640x360")),
    Entry("480p", Preset("854:-2", "1500k", 1500000, "854x480")),
    Entry("720p", Preset("1280:-2", "3000k", 3000000, "1280x720")),
    Entry("1080p", Preset("1920:-2", "6000k", 6000000, "1920x1080")),
    Entry("1440p", Preset("2560:-2", "12000k", 12000000, "2560x1440")),
    Entry("2160p", Preset("3840:-2", "24000k", 24000000, "3840x2160"))
  ]

  /** `Object.keys(table)`. */
  function Names(table: seq<Entry>): (r: seq<string>)
    ensures |r| == |table|
    ensures forall i :: 0 <= i < |table| ==> r[i] == table[i].name
  {
    if |table| == 0 then [] else [table[0].name] + Names(table[1..])
  }

  /** `table[name]`: `None` stands for `undefined`. */
  function Lookup(table: seq<Entry>, name: string): (r: Option<Preset>)
    ensures r.Some? <==> name in Names(table)
  {
    if |table| == 0 then None
    else if table[0].name == name then Some(table[0].preset)
    else
      assert Names(table) == [table[0].name] + Names(table[1..]);
      Lookup(table[1..], name)
  }

  /** A preset found by `Lookup` is the value of an entry with that key. */
  lemma {:induction false} LookupEntry(table: seq<Entry>, name: string)
    requires Lookup(table, name).Some?
    ensures exists i :: 0 <= i < |table| && table[i] == Entry(name, Lookup(table, name).value)
  {
    if table[0].name != name {
      LookupEntry(table[1..], name);
      var i :| 0 <= i < |table[1..]| && table[1..][i] == Entry(name, Lookup(table, name).value);
      assert table[i + 1] == table[1..][i];
    }
  }

  /** Width part of `resolution`, read as the upload filter reads it: `parseInt(res.split('x')[0], 10)`. */
  function ResolutionWidth(p: Preset): Option<int> {
    ParseInt(Split(p.resolution, 'x')[0])
  }

  /** Width part of the `scale` filter argument `W:H`. */
  function ScaleWidth(p: Preset): Option<int> {
    ParseInt(Split(p.scale, ':')[0])
  }

  /** Height part of the `scale` filter argument `W:H`, as text. */
  function ScaleHeight(p: Preset): string {
    var parts := Split(p.scale, ':');
    if |parts| >= 2 then parts[1] else ""
  }

  /** The kilobit figure of `bitrate` (`"200k"` -> 200). */
  function BitrateKbps(p: Preset): Option<int> {
    ParseInt(p.bitrate)
  }

  /** Facts read off a preset whose strings have the shape `W:-2`, `Kk` and `WxH`. */
  lemma WellFormedPreset(p: Preset, w: nat, h: nat, k: nat)
    requires p.scale == NatToString(w) + ":-2"
    requires p.bitrate == NatToString(k) + "k"
    requires p.resolution == NatToString(w) + "x" + NatToString(h)
    ensures ResolutionWidth(p) == Some(w)
    ensures ScaleWidth(p) == Some(w)
    ensures ScaleHeight(p) == "-2"
    ensures BitrateKbps(p) == Some(k)
  {
    NoSeparatorInDigits(NatToString(w), 'x');
    NoSeparatorInDigits(NatToString(w), ':');
    SplitFirst(NatToString(w), 'x', NatToString(h));
    assert p.scale == NatToString(w) + [':'] + "-2";
    SplitFirst(NatToString(w), ':', "-2");
    SplitFree("-2", ':');
    ParseIntOfNatToString(w, "");
    assert NatToString(w) + "" == NatToString(w);
    ParseIntOfNatToString(k, "k");
  }

  /** A decimal rendering holds no separator character. */
  lemma NoSeparatorInDigits(d: string, c: char)
    requires AllDigits(d) && !IsDigit(c)
    ensures c !in d
  {
  }

  /** The preset width used by the upload filter; 0 when it does not parse. */
  function WidthOf(e: Entry): int {
    ResolutionWidth(e.preset).GetOr(0)
  }

  /** Display widths and kilobit bitrates of the table, top to bottom. */
  const Widths: seq<nat> := [256, 426, 640, 854, 1280, 1920, 2560, 3840]
  const Heights: seq<nat> := [144, 240, 360, 480, 720, 1080, 1440, 2160]
  const Kbps: seq<nat> := [200, 400, 800, 1500, 3000, 6000, 12000, 24000]

  /** Row `i` is written out from its width, height and kilobit bitrate. */
  predicate ShapedAt(i: nat)
    requires i < |ConfigPresets|
  {
    var p := ConfigPresets[i].preset;
    && p.scale == NatToString(Widths[i]) + ":-2"
    && p.bitrate == NatToString(Kbps[i]) + "k"
    && p.resolution == NatToString(Widths[i]) + "x" + NatToString(Heights[i])
    && p.bandwidth == Kbps[i] * 1000
  }

  /** The 144p row has the shape its width 256, height 144 and 200 kbit/s give it. */
  lemma Shaped144p()
    ensures ShapedAt(0)
  {
    Decimal256();
    Decimal144();
    Decimal200();
  }

  /** The 240p row has the shape its width 426, height 240 and 400 kbit/s give it. */
  lemma Shaped240p()
    ensures ShapedAt(1)
  {
    Decimal426();
    Decimal240();
    Decimal400();
  }

  /** The 360p row has the shape its width 640, height 360 and 800 kbit/s give it. */
  lemma Shaped360p()
    ensures ShapedAt(2)
  {
    Decimal640();
    Decimal360();
    Decimal800();
  }

  /** The 480p row has the shape its width 854, height 480 and 1500 kbit/s give it. */
  lemma Shaped480p()
    ensures ShapedAt(3)
  {
    Decimal854();
    Decimal480();
    Decimal1500();
  }

  /** The 720p row has the shape its width 1280, height 720 and 3000 kbit/s give it. */
  lemma Shaped720p()
    ensures ShapedAt(4)
  {
    Decimal1280();
    Decimal720();
    Decimal3000();
  }

  /** The 1080p row has the shape its width 1920, height 1080 and 6000 kbit/s give it. */
  lemma Shaped1080p()
    ensures ShapedAt(5)
  {
    Decimal1920();
    Decimal1080();
    Decimal6000();
  }

  /** The 1440p row has the shape its width 2560, height 1440 and 12000 kbit/s give it. */
  lemma Shaped1440p()
    ensures ShapedAt(6)
  {
    Decimal2560();
    Decimal1440();
    Decimal12000();
  }

  /** The 2160p row has the shape its width 3840, height 2160 and 24000 kbit/s give it. */
  lemma Shaped2160p()
    ensures ShapedAt(7)
  {
    Decimal3840();
    Decimal2160();
    Decimal24000();
  }

  // The decimal renderings of the numbers in the table.
  lemma Decimal256() ensures NatToString(256) == "256" {}
  lemma Decimal144() ensures NatToString(144) == "144" {}
  lemma Decimal200() ensures NatToString(200) == "200" {}
  lemma Decimal426() ensures NatToString(426) == "426" {}
  lemma Decimal240() ensures NatToString(240) == "240" {}
  lemma Decimal400() ensures NatToString(400) == "400" {}
  lemma Decimal640() ensures NatToString(640) == "640" {}
  lemma Decimal360() ensures NatToString(360) == "360" {}
  lemma Decimal800() ensures NatToString(800) == "800" {}
  lemma Decimal854() ensures NatToString(854) == "854" {}
  lemma Decimal480() ensures NatToString(480) == "480" {}
  lemma Decimal1500() ensures NatToString(1500) == "1500" {}
  lemma Decimal1280() ensures NatToString(1280) == "1280" {}
  lemma Decimal720() ensures NatToString(720) == "720" {}
  lemma Decimal3000() ensures NatToString(3000) == "3000" {}
  lemma Decimal1920() ensures NatToString(1920) == "1920" {}
  lemma Decimal1080() ensures NatToString(1080) == "1080" {}
  lemma Decimal6000() ensures NatToString(6000) == "6000" {}
  lemma Decimal2560() ensures NatToString(2560) == "2560" {}
  lemma Decimal1440() ensures NatToString(1440) == "1440" {}
  lemma Decimal12000() ensures NatToString(12000) == "12000" {}
  lemma Decimal3840() ensures NatToString(3840) == "3840" {}
  lemma Decimal2160() ensures NatToString(2160) == "2160" {}
  lemma Decimal24000() ensures NatToString(24000) == "24000" {}

  /** Every row of the table has that shape. */
  lemma AllShaped()
    ensures forall i :: 0 <= i < |ConfigPresets| ==> ShapedAt(i)
  {
    Shaped144p();
    Shaped240p();
    Shaped360p();
    Shaped480p();
    Shaped720p();
    Shaped1080p();
    Shaped1440p();
    Shaped2160p();
  }

  /** Row `i` has that shape. */
  lemma EntryShape(i: nat)
    requires i < |ConfigPresets|
    ensures ShapedAt(i)
  {
    AllShaped();
  }

  /** What the upload filter, the encoder arguments and the playlist read off row `i`. */
  lemma EntryFacts(i: nat)
    requires i < |ConfigPresets|
    ensures var p := ConfigPresets[i].preset;
      && BitrateKbps(p) == Some(Kbps[i] as int)
      && p.bandwidth == Kbps[i] * 1000
      && ResolutionWidth(p) == Some(Widths[i] as int)
      && ScaleWidth(p) == Some(Widths[i] as int)
      && ScaleHeight(p) == "-2"
  {
    EntryShape(i);
    WellFormedPreset(ConfigPresets[i].preset, Widths[i], Heights[i], Kbps[i]);
  }

  /** A preset whose bitrate, bandwidth, scale and resolution agree with each other. */
  predicate Consistent(p: Preset) {
    && BitrateKbps(p).Some?
    && p.bandwidth == BitrateKbps(p).value * 1000
    && ResolutionWidth(p).Some?
    && ResolutionWidth(p) == ScaleWidth(p)
    && ScaleHeight(p) == "-2"
  }

  /** The eight labels in table order. */
  lemma PresetNamesInOrder()
    ensures Names(ConfigPresets) == ["144p", "240p", "360p", "480p", "720p", "1080p", "1440p", "2160p"]
  {
  }

  /** Display widths and bitrates strictly increase down the table. */
  lemma WidthsIncrease()
    ensures forall i, j :: 0 <= i < j < |Widths| ==> Widths[i] < Widths[j] && Kbps[i] < Kbps[j]
  {
  }

  /** Parsed widths and bandwidths strictly increase down the table. */
  lemma PresetsIncrease()
    ensures forall i, j :: 0 <= i < j < |ConfigPresets| ==>
      WidthOf(ConfigPresets[i]) < WidthOf(ConfigPresets[j])
      && ConfigPresets[i].preset.bandwidth < ConfigPresets[j].preset.bandwidth
  {
    WidthsIncrease();
    forall i | 0 <= i < |ConfigPresets|
      ensures WidthOf(ConfigPresets[i]) == Widths[i]
      ensures ConfigPresets[i].preset.bandwidth == Kbps[i] * 1000
    {
      EntryFacts(i);
    }
  }

  /**
   * The preset table's shape: eight labels in a fixed order, bandwidth equal
   * to the kilobit bitrate times 1000, the same width in `scale` and
   * `resolution`, a `-2` height in every `scale`, and strictly increasing
   * widths and bandwidths down the table.
   */
  lemma ConfigPresetsShape()
    ensures Names(ConfigPresets) == ["144p", "240p", "360p", "480p", "720p", "1080p", "1440p", "2160p"]
    ensures forall i :: 0 <= i < |ConfigPresets| ==> Consistent(ConfigPresets[i].preset)
    ensures forall i, j :: 0 <= i < j < |ConfigPresets| ==>
      WidthOf(ConfigPresets[i]) < WidthOf(ConfigPresets[j])
      && ConfigPresets[i].preset.bandwidth < ConfigPresets[j].preset.bandwidth
  {
    PresetNamesInOrder();
    PresetsIncrease();
    forall i | 0 <= i < |ConfigPresets| ensures Consistent(ConfigPresets[i].preset) {
      EntryFacts(i);
    }
  }

  /** The two copies of the table are identical entry for entry. */
  lemma TablesAgree()
    ensures ConfigPresets == ServicePresets
    ensures forall name :: Lookup(ConfigPresets, name) == Lookup(ServicePresets, name)
  {
  }

  /** No preset label contains a comma or a newline, and labels are distinct. */
  lemma NamesArePlain()
    ensures forall i :: 0 <= i < |ConfigPresets| ==>
      ',' !in ConfigPresets[i].name && '\n' !in ConfigPresets[i].name && ConfigPresets[i].name != ""
    ensures forall i, j :: 0 <= i < j < |ConfigPresets| ==> ConfigPresets[i].name != ConfigPresets[j].name
  {
  }
}

=== FILE: probe.dfy ===
/**
 * Stream selection of `probeVideo` (backend/src/utils/probe.ts). The ffprobe
 * subprocess and its JSON decoding are abstracted into a `ProbeOutput`
 * value, `None` when either fails.
 */
module Probe {
  import opened Wrappers

  /** One entry of the `streams` array: its `codec_type` (absent -> `None`) and frame size. */
  datatype Stream = Stream(codecType: Option<string>, width: int, height: int)

  /**
   * The decoded ffprobe report: the `streams` array (`None` when the key is
   * missing) and the `format` section's duration (`None` when the section is
   * missing).
   */
  datatype ProbeOutput = ProbeOutput(streams: Option<seq<Stream>>, formatDuration: Option<real>)

  datatype ProbeResult = ProbeResult(width: int, height: int, duration: real)

  /** The one message every probe failure is reported with. */
  const ProbeFailure: string := "Failed to probe video file"

  /** `s.codec_type === 'video'`. */
  predicate IsVideo(s: Stream) {
    s.codecType == Some("video")
  }

  /** `streams.find(s => s.codec_type === 'video')`, as a position. */
  function FirstVideo(streams: seq<Stream>): (r: Option<nat>)
    ensures r.Some? ==> r.value < |streams| && IsVideo(streams[r.value])
    ensures r.Some? ==> forall j :: 0 <= j < r.value ==> !IsVideo(streams[j])
    ensures r.None? ==> forall j :: 0 <= j < |streams| ==> !IsVideo(streams[j])
  {
    if |streams| == 0 then None
    else if IsVideo(streams[0]) then Some(0)
    else
      match FirstVideo(streams[1..])
      case None => None
      case Some(k) => Some(k + 1)
  }

  /**
   * `probeVideo`: the size of the first video stream and the duration of the
   * format section; any failure is collapsed into `ProbeFailure`.
   */
  function ProbeVideo(output: Option<ProbeOutput>): (r: Result<ProbeResult>)
    ensures r.Err? ==> r.message == ProbeFailure
    ensures r.Ok? ==> output.Some? && output.value.formatDuration == Some(r.value.duration)
  {
    if output.None? then Err(ProbeFailure)
    else
      var streams := output.value.streams;
      if streams.None? || |streams.value| == 0 then Err(ProbeFailure)
      else
        match FirstVideo(streams.value)
        case None => Err(ProbeFailure)
        case Some(i) =>
          if output.value.formatDuration.None? then Err(ProbeFailure)
          else
            var s := streams.value[i];
            Ok(ProbeResult(s.width, s.height, output.value.formatDuration.value))
  }

  /**
   * Probing succeeds exactly when ffprobe produced a report that lists at
   * least one video stream and has a format section.
   */
  lemma ProbeSucceedsIff(output: Option<ProbeOutput>)
    ensures ProbeVideo(output).Ok? <==>
      && output.Some?
      && output.value.streams.Some?
      && (exists j :: 0 <= j < |output.value.streams.value| && IsVideo(output.value.streams.value[j]))
      && output.value.formatDuration.Some?
  {
    if output.Some? && output.value.streams.Some? {
      var streams := output.value.streams.value;
      if FirstVideo(streams).Some? {
        var i := FirstVideo(streams).value;
        assert IsVideo(streams[i]);
      }
    }
  }

  /**
   * On success the size is that of the first video stream in list order,
   * whatever streams precede it.
   */
  lemma ProbeUsesFirstVideo(streams: seq<Stream>, duration: real, i: nat)
    requires i < |streams| && IsVideo(streams[i])
    requires forall j :: 0 <= j < i ==> !IsVideo(streams[j])
    ensures ProbeVideo(Some(ProbeOutput(Some(streams), Some(duration))))
      == Ok(ProbeResult(streams[i].width, streams[i].height, duration))
  {
  }

  /** A report whose stream list is missing or empty is a failure. */
  lemma NoStreamsFails(duration: Option<real>)
    ensures ProbeVideo(Some(ProbeOutput(None, duration))) == Err(ProbeFailure)
    ensures ProbeVideo(Some(ProbeOutput(Some([]), duration))) == Err(ProbeFailure)
  {
  }
}

=== FILE: scheduler.dfy ===
/**
 * The scheduling skeleton that `jobQueue.ts` and `jobProcessor.ts` share:
 * an array of waiting jobs, a `processing` flag, and one `processQueue`
 * loop that shifts the next job, awaits it, and clears the flag when the
 * array is empty. JavaScript runs one callback at a time, so the loop's
 * behaviour is two atomic transitions: an enqueue (which starts the loop
 * when it is idle) and the completion of the awaited job (which shifts the
 * next one or stops the loop).
 */
module Scheduler {
  import opened Wrappers
  import opened Types

  /** The module-level `jobQueue` array, the `processing` flag and the job being awaited. */
  datatype Sched = Sched(queue: seq<Job>, processing: bool, running: Option<Job>)

  const Idle: Sched := Sched([], false, None)

  /** The states `processQueue` can leave behind: a job is awaited exactly while the loop runs, and an idle loop has nothing waiting. */
  predicate Valid(s: Sched) {
    && (s.processing <==> s.running.Some?)
    && (!s.processing ==> s.queue == [])
  }

  /** The jobs not yet finished, oldest first: the awaited one, then the waiting ones. */
  function Outstanding(s: Sched): seq<Job> {
    (if s.running.Some? then [s.running.value] else []) + s.queue
  }

  /**
   * `enqueueJob` / `addJob`: push the job, then call `processQueue`, which
   * returns at once when the loop already runs and otherwise sets the flag
   * and shifts the first waiting job, running it up to its first `await`.
   * The second result is the job that starts now, if any.
   */
  function Enqueue(s: Sched, job: Job): (r: (Sched, Option<Job>))
    ensures r.0.processing
    ensures r.1.Some? <==> !s.processing
    ensures r.1.Some? ==> r.0.running == r.1
  {
    var q := s.queue + [job];
    if s.processing then (Sched(q, true, s.running), None)
    else (Sched(q[1..], true, Some(q[0])), Some(q[0]))
  }

  /**
   * The awaited job settles, whether it resolved or threw (the loop catches
   * the error): the loop shifts the next waiting job, or clears the flag and
   * returns when there is none. The second result is the job that starts now.
   */
  function Complete(s: Sched): (r: (Sched, Option<Job>))
    requires s.running.Some?
    ensures r.1.Some? <==> |s.queue| > 0
    ensures r.1.Some? ==> r.0.running == r.1
  {
    if |s.queue| > 0 then (Sched(s.queue[1..], true, Some(s.queue[0])), Some(s.queue[0]))
    else (Sched([], false, None), None)
  }

  /** Enqueueing keeps the loop's invariant, starts the new job exactly when the loop was idle, and adds it last. */
  lemma EnqueueValid(s: Sched, job: Job)
    requires Valid(s)
    ensures Valid(Enqueue(s, job).0)
    ensures Outstanding(Enqueue(s, job).0) == Outstanding(s) + [job]
    ensures Enqueue(s, job).1.Some? ==> Enqueue(s, job).1 == Some(job)
  {
    if s.processing {
      assert Outstanding(s) + [job] == [s.running.value] + (s.queue + [job]);
    }
  }

  /** Completion keeps the invariant, retires the oldest job, and starts the next one in line. */
  lemma CompleteValid(s: Sched)
    requires Valid(s) && s.running.Some?
    ensures Valid(Complete(s).0)
    ensures Outstanding(s) == [s.running.value] + Outstanding(Complete(s).0)
    ensures Complete(s).1.Some? ==> Complete(s).1.value == Outstanding(s)[1]
  {
  }

  /** One thing that can happen to the loop: a job is handed to it, or the awaited job settles. */
  datatype Action = Add(job: Job) | Settle

  /** Whether an action can happen in a state: a job can only settle while one is awaited. */
  predicate Enabled(s: Sched, a: Action) {
    a.Add? || s.running.Some?
  }

  /** A history: the actions in order, each enabled where it happens. */
  predicate Feasible(s: Sched, actions: seq<Action>)
    decreases |actions|
  {
    |actions| == 0 || (Enabled(s, actions[0]) && Feasible(Step(s, actions[0]), actions[1..]))
  }

  /** The state after one enabled action. */
  function Step(s: Sched, a: Action): Sched
    requires Enabled(s, a)
  {
    match a
    case Add(job) => Enqueue(s, job).0
    case Settle => Complete(s).0
  }

  /** The state after a feasible history. */
  function Replay(s: Sched, actions: seq<Action>): Sched
    requires Feasible(s, actions)
    decreases |actions|
  {
    if |actions| == 0 then s else Replay(Step(s, actions[0]), actions[1..])
  }

  /** The job an action settles: the awaited one, for a completion. */
  function SettledBy(s: Sched, a: Action): seq<Job>
    requires Enabled(s, a)
  {
    if a.Settle? then [s.running.value] else []
  }

  /** The job an action hands to the loop. */
  function AddedBy(a: Action): seq<Job> {
    if a.Add? then [a.job] else []
  }

  /** The jobs that settle during a feasible history, in the order they settle. */
  function Settled(s: Sched, actions: seq<Action>): seq<Job>
    requires Feasible(s, actions)
    decreases |actions|
  {
    if |actions| == 0 then [] else SettledBy(s, actions[0]) + Settled(Step(s, actions[0]), actions[1..])
  }

  /** The jobs handed to the loop during a history, in order. */
  function Added(actions: seq<Action>): (r: seq<Job>)
    ensures |r| <= |actions|
  {
    if |actions| == 0 then [] else AddedBy(actions[0]) + Added(actions[1..])
  }

  /** One action keeps the invariant and moves jobs from the front of the line or onto its end. */
  lemma StepConserves(s: Sched, a: Action)
    requires Valid(s) && Enabled(s, a)
    ensures Valid(Step(s, a))
    ensures Outstanding(s) + AddedBy(a) == SettledBy(s, a) + Outstanding(Step(s, a))
  {
    match a {
      case Add(job) =>
        EnqueueValid(s, job);
      case Settle =>
        CompleteValid(s);
    }
  }

  /** Two conservation steps chain into one. */
  lemma Regroup<T>(done: seq<T>, settled: seq<T>, left: seq<T>, before: seq<T>, added: seq<T>, later: seq<T>, middle: seq<T>)
    requires before + added == done + middle
    requires settled + left == middle + later
    ensures (done + settled) + left == before + (added + later)
  {
    calc {
      (done + settled) + left;
      done + (middle + later);
      (before + added) + later;
    }
  }

  /**
   * First in, first out: over any feasible history, the jobs that settle,
   * followed by those still outstanding, are exactly the jobs outstanding
   * at the start followed by the jobs added, in the same order. No job is
   * lost, duplicated or overtaken.
   */
  lemma {:induction false} Fifo(s: Sched, actions: seq<Action>)
    requires Valid(s) && Feasible(s, actions)
    ensures Valid(Replay(s, actions))
    ensures Settled(s, actions) + Outstanding(Replay(s, actions)) == Outstanding(s) + Added(actions)
    decreases |actions|
  {
    if |actions| > 0 {
      var a, rest := actions[0], actions[1..];
      var s' := Step(s, a);
      StepConserves(s, a);
      Fifo(s', rest);
      Regroup(SettledBy(s, a), Settled(s', rest), Outstanding(Replay(s', rest)),
        Outstanding(s), AddedBy(a), Added(rest), Outstanding(s'));
    }
  }

  /** Starting from an idle loop, every history settles its jobs in the order they were added. */
  lemma SettleInOrder(actions: seq<Action>)
    requires Feasible(Idle, actions)
    ensures Settled(Idle, actions) + Outstanding(Replay(Idle, actions)) == Added(actions)
  {
    Fifo(Idle, actions);
  }
}

=== FILE: store.dfy ===
/**
 * The `videos` table behind `DatabaseService` (backend/src/services/database.ts),
 * as an abstract map from id to row with an autoincrement counter. SQL text,
 * statement preparation and the driver are not modelled.
 */
module Store {
  import opened Wrappers
  import opened Types

  /** The table: rows by id, and the id the next insert receives. */
  datatype Db = Db(rows: map<int, VideoRecord>, nextId: int)

  /** Every row is stored under its own id, and ids are below the counter. */
  predicate Valid(db: Db) {
    && 1 <= db.nextId
    && forall id :: id in db.rows ==> db.rows[id].id == id && 1 <= id < db.nextId
  }

  /** A freshly created table. */
  const EmptyDb: Db := Db(map[], 1)

  /** The seven columns `insertVideo` binds. */
  datatype NewVideo = NewVideo(
    storedFile: string, originalName: string, qualities: string, status: Status,
    width: int, height: int, duration: real)

  /**
   * `insertVideo`: a new row under the next autoincrement id; the columns the
   * statement leaves out are null and `createdAt` is the insert time `now`.
   */
  function Insert(db: Db, v: NewVideo, now: int): (r: (Db, int))
    ensures r.1 == db.nextId && r.0.nextId == db.nextId + 1
    ensures r.1 in r.0.rows
    ensures var rec := r.0.rows[r.1];
      && rec.id == r.1 && rec.storedFile == Some(v.storedFile) && rec.originalName == Some(v.originalName)
      && rec.qualities == Some(v.qualities) && rec.status == v.status
      && rec.width == v.width && rec.height == v.height && rec.duration == v.duration
      && rec.outputDir.None? && rec.m3u8Url.None? && rec.thumbnailUrl.None? && rec.blurhash.None?
      && rec.createdAt == now
    ensures forall id :: id in db.rows && id != r.1 ==> id in r.0.rows && r.0.rows[id] == db.rows[id]
    ensures r.0.rows.Keys == db.rows.Keys + {r.1}
  {
    var id := db.nextId;
    var rec := VideoRecord(id, Some(v.storedFile), Some(v.originalName), None, Some(v.qualities),
      None, None, None, v.status, v.width, v.height, v.duration, now);
    (Db(db.rows[id := rec], id + 1), id)
  }

  /** Inserting keeps the table well formed and never overwrites a row. */
  lemma InsertValid(db: Db, v: NewVideo, now: int)
    requires Valid(db)
    ensures Valid(Insert(db, v, now).0)
    ensures Insert(db, v, now).1 !in db.rows
  {
  }

  /**
   * The fields of `Partial<Video>` the callers pass: `Some(x)` sets the
   * column to `x`, `None` leaves the key out of the object.
   */
  datatype Patch = Patch(
    outputDir: Option<string>, qualities: Option<string>, m3u8Url: Option<string>,
    thumbnailUrl: Option<string>, blurhash: Option<string>, status: Option<Status>)

  /** `{}`: no keys at all. */
  const NoFields: Patch := Patch(None, None, None, None, None, None)

  /** A patch with no keys. */
  predicate IsEmpty(p: Patch) {
    p == NoFields
  }

  /** A supplied field wins over the stored column. */
  function Pick<T>(update: Option<T>, current: Option<T>): Option<T> {
    if update.Some? then update else current
  }

  /** One row after `UPDATE videos SET <fields of p> WHERE id = ?`. */
  function Apply(rec: VideoRecord, p: Patch): (r: VideoRecord)
    ensures r.id == rec.id && r.storedFile == rec.storedFile && r.originalName == rec.originalName
    ensures r.width == rec.width && r.height == rec.height && r.duration == rec.duration
    ensures r.createdAt == rec.createdAt
    ensures p.outputDir.Some? ==> r.outputDir == p.outputDir
    ensures p.outputDir.None? ==> r.outputDir == rec.outputDir
    ensures p.qualities.Some? ==> r.qualities == p.qualities
    ensures p.qualities.None? ==> r.qualities == rec.qualities
    ensures p.m3u8Url.Some? ==> r.m3u8Url == p.m3u8Url
    ensures p.m3u8Url.None? ==> r.m3u8Url == rec.m3u8Url
    ensures p.thumbnailUrl.Some? ==> r.thumbnailUrl == p.thumbnailUrl
    ensures p.thumbnailUrl.None? ==> r.thumbnailUrl == rec.thumbnailUrl
    ensures p.blurhash.Some? ==> r.blurhash == p.blurhash
    ensures p.blurhash.None? ==> r.blurhash == rec.blurhash
    ensures p.status.Some? ==> r.status == p.status.value
    ensures p.status.None? ==> r.status == rec.status
  {
    rec.(outputDir := Pick(p.outputDir, rec.outputDir),
         qualities := Pick(p.qualities, rec.qualities),
         m3u8Url := Pick(p.m3u8Url, rec.m3u8Url),
         thumbnailUrl := Pick(p.thumbnailUrl, rec.thumbnailUrl),
         blurhash := Pick(p.blurhash, rec.blurhash),
         status := if p.status.Some? then p.status.value else rec.status)
  }

  /**
   * `updateVideo`: nothing happens for an empty patch; otherwise row `id`,
   * when present, takes exactly the supplied fields. No other row and no
   * other column changes, and no row is created.
   */
  function Update(db: Db, id: int, p: Patch): (r: Db)
    ensures IsEmpty(p) || id !in db.rows ==> r == db
    ensures r.nextId == db.nextId && r.rows.Keys == db.rows.Keys
    ensures forall k :: k in db.rows && k != id ==> r.rows[k] == db.rows[k]
    ensures id in db.rows ==> r.rows[id] == Apply(db.rows[id], p)
  {
    if IsEmpty(p) then db
    else if id !in db.rows then db
    else Db(db.rows[id := Apply(db.rows[id], p)], db.nextId)
  }

  /** An empty patch changes nothing at all, even the addressed row. */
  lemma ApplyNoFields(rec: VideoRecord)
    ensures Apply(rec, NoFields) == rec
  {
  }

  /** Updating keeps the table well formed. */
  lemma UpdateValid(db: Db, id: int, p: Patch)
    requires Valid(db)
    ensures Valid(Update(db, id, p))
  {
  }

  /** `getVideoById`: the row, or `undefined` for an absent id. */
  function GetById(db: Db, id: int): (r: Option<VideoRecord>)
    ensures r.Some? <==> id in db.rows
    ensures r.Some? ==> r.value == db.rows[id]
  {
    if id in db.rows then Some(db.rows[id]) else None
  }

  /** Reading a row back after an update shows the patched fields. */
  lemma GetAfterUpdate(db: Db, id: int, p: Patch, other: int)
    ensures GetById(Update(db, id, p), id) ==
      (if id in db.rows then Some(Apply(db.rows[id], p)) else None)
    ensures other != id ==> GetById(Update(db, id, p), other) == GetById(db, other)
  {
  }

  /** Reading back an inserted row finds it under the returned id. */
  lemma GetAfterInsert(db: Db, v: NewVideo, now: int)
    ensures var (db', id) := Insert(db, v, now);
      GetById(db', id).Some? && GetById(db', id).value.status == v.status
  {
  }

  /** `status IN ('queued', 'processing')`. */
  predicate IsPending(rec: VideoRecord) {
    rec.status == Queued || rec.status == Processing
  }

  /**
   * Ids `lo .. nextId - 1`, ascending, of the rows `keep` selects: the order
   * in which SQLite walks an autoincrement table without `ORDER BY`.
   */
  function IdsFrom(db: Db, lo: int, keep: VideoRecord -> bool): (r: seq<int>)
    ensures forall i :: 0 <= i < |r| ==> r[i] in db.rows && keep(db.rows[r[i]]) && lo <= r[i] < db.nextId
    ensures forall i, j :: 0 <= i < j < |r| ==> r[i] < r[j]
    ensures forall k :: lo <= k < db.nextId && k in db.rows && keep(db.rows[k]) ==> k in r
    decreases db.nextId - lo
  {
    if lo >= db.nextId then []
    else
      var rest := IdsFrom(db, lo + 1, keep);
      if lo in db.rows && keep(db.rows[lo]) then [lo] + rest else rest
  }

  /** The rows under `ids`, in that order. */
  function RowsOf(db: Db, ids: seq<int>): (r: seq<VideoRecord>)
    requires forall i :: 0 <= i < |ids| ==> ids[i] in db.rows
    ensures |r| == |ids|
    ensures forall i :: 0 <= i < |ids| ==> r[i] == db.rows[ids[i]]
  {
    seq(|ids|, i requires 0 <= i < |ids| => db.rows[ids[i]])
  }

  /** `getPendingJobs`: the queued and processing rows in table order. */
  function Pending(db: Db): seq<VideoRecord> {
    RowsOf(db, IdsFrom(db, 1, IsPending))
  }

  /**
   * In a well-formed table, `getPendingJobs` returns exactly the rows whose
   * status is queued or processing, each once, in ascending id order.
   */
  lemma PendingExactly(db: Db)
    requires Valid(db)
    ensures forall rec :: rec in Pending(db) <==> rec in db.rows.Values && IsPending(rec)
    ensures forall i, j :: 0 <= i < j < |Pending(db)| ==> Pending(db)[i].id < Pending(db)[j].id
  {
    var ids := IdsFrom(db, 1, IsPending);
    var r := Pending(db);
    forall rec | rec in db.rows.Values && IsPending(rec) ensures rec in r {
      var k :| k in db.rows && db.rows[k] == rec;
      var i :| 0 <= i < |ids| && ids[i] == k;
      assert r[i] == rec;
    }
  }

  /** `createdAt` is non-increasing along `s`. */
  predicate NewestFirst(s: seq<VideoRecord>) {
    forall i, j :: 0 <= i < j < |s| ==> s[i].createdAt >= s[j].createdAt
  }

  /** Places `rec` after every row at least as new, before the first older one. */
  function InsertByDate(rec: VideoRecord, s: seq<VideoRecord>): (r: seq<VideoRecord>)
    requires NewestFirst(s)
    ensures NewestFirst(r)
    ensures multiset(r) == multiset(s) + multiset{rec}
    ensures forall k :: 0 <= k < |r| ==> r[k] == rec || r[k] in s
  {
    if |s| == 0 then [rec]
    else if s[0].createdAt < rec.createdAt then [rec] + s
    else
      var t := InsertByDate(rec, s[1..]);
      assert s == [s[0]] + s[1..];
      OlderTail(rec, s, t);
      [s[0]] + t
  }

  /** A head at least as new as everything after it keeps the order. */
  lemma OlderTail(rec: VideoRecord, s: seq<VideoRecord>, t: seq<VideoRecord>)
    requires |s| > 0 && NewestFirst(s) && NewestFirst(t)
    requires rec.createdAt <= s[0].createdAt
    requires forall k :: 0 <= k < |t| ==> t[k] == rec || t[k] in s[1..]
    ensures NewestFirst([s[0]] + t)
  {
    forall k | 0 <= k < |t| ensures t[k].createdAt <= s[0].createdAt {
      if t[k] != rec {
        var m :| 0 <= m < |s[1..]| && s[1..][m] == t[k];
        assert s[m + 1] == t[k];
      }
    }
    var r := [s[0]] + t;
    forall i, j | 0 <= i < j < |r| ensures r[i].createdAt >= r[j].createdAt {
      if i == 0 {
        assert r[j] == t[j - 1];
      } else {
        assert r[i] == t[i - 1] && r[j] == t[j - 1];
      }
    }
  }

  /** `ORDER BY createdAt DESC`: insertion sort, newest first. */
  function SortByDate(s: seq<VideoRecord>): (r: seq<VideoRecord>)
    ensures NewestFirst(r)
    ensures multiset(r) == multiset(s)
  {
    if |s| == 0 then []
    else
      assert s == [s[0]] + s[1..];
      InsertByDate(s[0], SortByDate(s[1..]))
  }

  /** The filter of a query without `WHERE`. */
  function Everything(rec: VideoRecord): bool {
    true
  }

  /** `getAllVideos`: every row, newest first. */
  function AllVideos(db: Db): seq<VideoRecord> {
    SortByDate(RowsOf(db, IdsFrom(db, 1, Everything)))
  }

  /**
   * `getAllVideos` returns every row of a well-formed table exactly once,
   * ordered by `createdAt`, newest first.
   */
  lemma AllVideosSorted(db: Db)
    requires Valid(db)
    ensures NewestFirst(AllVideos(db))
    ensures forall rec :: rec in AllVideos(db) <==> rec in db.rows.Values
    ensures |AllVideos(db)| == |db.rows|
  {
    var rows := RowsOf(db, IdsFrom(db, 1, Everything));
    SameElements(AllVideos(db), rows);
    EveryRow(db);
  }

  /** Walking every id visits each row of a well-formed table once. */
  lemma EveryRow(db: Db)
    requires Valid(db)
    ensures var rows := RowsOf(db, IdsFrom(db, 1, Everything));
      && (forall rec :: rec in rows <==> rec in db.rows.Values)
      && |rows| == |db.rows|
  {
    var ids := IdsFrom(db, 1, Everything);
    var rows := RowsOf(db, ids);
    forall rec | rec in db.rows.Values ensures rec in rows {
      var k :| k in db.rows && db.rows[k] == rec;
      var i :| 0 <= i < |ids| && ids[i] == k;
      assert rows[i] == rec;
    }
    IdsCoverKeys(db, ids);
  }

  /** Sequences with the same multiset hold the same elements and have the same length. */
  lemma SameElements<T>(a: seq<T>, b: seq<T>)
    requires multiset(a) == multiset(b)
    ensures forall x :: x in a <==> x in b
    ensures |a| == |b|
  {
    forall x ensures x in a <==> x in b {
      assert x in a <==> x in multiset(a);
      assert x in b <==> x in multiset(b);
    }
    assert |multiset(a)| == |multiset(b)|;
  }

  /** Walking every id finds as many ids as the table has rows. */
  lemma IdsCoverKeys(db: Db, ids: seq<int>)
    requires Valid(db)
    requires ids == IdsFrom(db, 1, Everything)
    ensures |ids| == |db.rows|
  {
    var keys := set x | x in ids;
    assert keys == db.rows.Keys;
    DistinctCount(ids);
  }

  /** A strictly increasing sequence holds as many distinct values as it has elements. */
  lemma {:induction false} DistinctCount(ids: seq<int>)
    requires forall i, j :: 0 <= i < j < |ids| ==> ids[i] < ids[j]
    ensures |set x | x in ids| == |ids|
  {
    if |ids| > 0 {
      var rest := ids[1..];
      DistinctCount(rest);
      assert ids == [ids[0]] + rest;
      assert (set x | x in ids) == {ids[0]} + (set x | x in rest);
      assert ids[0] !in rest by {
        forall k | 0 <= k < |rest| ensures rest[k] != ids[0] {
          assert rest[k] == ids[k + 1];
        }
      }
    }
  }
}

=== FILE: storyboard.dfy ===
/**
 * The storyboard cue file `thumbnails.vtt` (a WebVTT file, W3C WebVTT
 * section 4.1): one cue per two seconds of video, each pointing at one tile
 * of `storyboard.jpg` through an `xywh` spatial fragment (W3C Media
 * Fragments URI 1.0, section 4.2.2). Tiles are 180 x 101 pixels, eight per row.
 */
module Storyboard {
  import opened Wrappers
  import opened Text

  const ThumbWidth: nat := 180
  const ThumbHeight: nat := 101
  const Interval: nat := 2
  const Cols: nat := 8
  const MsPerDay: nat := 86400000
  const Arrow: string := " --> "
  const FragmentPrefix: string := "storyboard.jpg#xywh="

  /** `Math.floor(duration / interval)`; negative for a negative duration. */
  function NumThumbs(duration: real): int {
    (duration / Interval as real).Floor
  }

  /** How often the cue loop `for (i = 0; i < numThumbs; i++)` runs. */
  function CueCount(duration: real): nat {
    if NumThumbs(duration) < 0 then 0 else NumThumbs(duration)
  }

  /** `Math.ceil(numThumbs / cols)`: the row count passed to the tiling filter. */
  function Rows(n: int): int {
    (n + Cols - 1) / Cols
  }

  /**
   * `new Date(ms).toISOString().substr(11, 12)`: the `HH:MM:SS.mmm` part of
   * the UTC timestamp `ms` milliseconds after the epoch.
   */
  function FormatTime(ms: nat): (r: string)
    ensures |r| == 12
  {
    Clock(ms / 3600000 % 24, ms / 60000 % 60, ms / 1000 % 60, ms % 1000)
  }

  /** Hours, minutes, seconds and milliseconds as `HH:MM:SS.mmm`. */
  function Clock(h: nat, m: nat, s: nat, f: nat): (r: string)
    requires h < 100 && m < 100 && s < 100 && f < 1000
    ensures |r| == 12
  {
    Pad2(h) + ":" + Pad2(m) + ":" + Pad2(s) + "." + Pad3(f)
  }

  /** Reads `HH:MM:SS.mmm` back as milliseconds since midnight. */
  function ParseTime(s: string): Option<nat> {
    if |s| != 12 || s[2] != ':' || s[5] != ':' || s[8] != '.' then None
    else if !AllDigits(s[0..2]) || !AllDigits(s[3..5]) || !AllDigits(s[6..8]) || !AllDigits(s[9..12]) then None
    else
      Some(DigitsValue(s[0..2]) * 3600000 + DigitsValue(s[3..5]) * 60000
        + DigitsValue(s[6..8]) * 1000 + DigitsValue(s[9..12]))
  }

  /** Division is unique: `q * n + r` with `r < n` divides into `q` and leaves `r`. */
  lemma DivOfSum(q: nat, r: nat, n: nat)
    requires 0 < n && r < n
    ensures (q * n + r) / n == q && (q * n + r) % n == r
  {
    var x := q * n + r;
    var d := x / n;
    if d > q {
      MulMono(q + 1, d, n);
      assert false;
    } else if d < q {
      MulMono(d + 1, q, n);
      assert false;
    }
  }

  /** Multiplication by a natural number keeps order. */
  lemma MulMono(a: nat, b: nat, n: nat)
    requires a <= b
    ensures a * n <= b * n
  {
  }

  /** The clock fields of a timestamp add up to its time of day. */
  lemma TimeDecomposes(ms: nat)
    ensures (ms / 3600000 % 24) * 3600000 + (ms / 60000 % 60) * 60000
      + (ms / 1000 % 60) * 1000 + ms % 1000 == ms % MsPerDay
  {
    var f, s1 := ms % 1000, ms / 1000;
    var sec, m1 := s1 % 60, s1 / 60;
    var mi, h1 := m1 % 60, m1 / 60;
    var hr, d := h1 % 24, h1 / 24;
    assert ms == m1 * 60000 + (sec * 1000 + f);
    DivOfSum(m1, sec * 1000 + f, 60000);
    assert ms == h1 * 3600000 + (mi * 60000 + sec * 1000 + f);
    DivOfSum(h1, mi * 60000 + sec * 1000 + f, 3600000);
    assert ms == d * MsPerDay + (hr * 3600000 + mi * 60000 + sec * 1000 + f);
    DivOfSum(d, hr * 3600000 + mi * 60000 + sec * 1000 + f, MsPerDay);
  }

  /** A clock reading reads back as the milliseconds it stands for. */
  lemma ParseClock(h: nat, m: nat, sec: nat, f: nat)
    requires h < 100 && m < 100 && sec < 100 && f < 1000
    ensures ParseTime(Clock(h, m, sec, f)) == Some(h * 3600000 + m * 60000 + sec * 1000 + f)
  {
    var s := Clock(h, m, sec, f);
    Pad2Value(h);
    Pad2Value(m);
    Pad2Value(sec);
    Pad3Value(f);
    assert s[0..2] == Pad2(h);
    assert s[3..5] == Pad2(m);
    assert s[6..8] == Pad2(sec);
    assert s[9..12] == Pad3(f);
  }

  /** A timestamp reads back as its time of day: hours wrap modulo 24. */
  lemma ParseFormatTime(ms: nat)
    ensures ParseTime(FormatTime(ms)) == Some(ms % MsPerDay)
  {
    ParseClock(ms / 3600000 % 24, ms / 60000 % 60, ms / 1000 % 60, ms % 1000);
    TimeDecomposes(ms);
  }

  // Adding a day moves every clock field by whole cycles.
  lemma HoursShift(ms: nat)
    ensures (ms + MsPerDay) / 3600000 % 24 == ms / 3600000 % 24
  {
    assert (ms + MsPerDay) / 3600000 == ms / 3600000 + 24;
  }

  lemma MinutesShift(ms: nat)
    ensures (ms + MsPerDay) / 60000 % 60 == ms / 60000 % 60
  {
    assert (ms + MsPerDay) / 60000 == ms / 60000 + 1440;
  }

  lemma SecondsShift(ms: nat)
    ensures (ms + MsPerDay) / 1000 % 60 == ms / 1000 % 60
  {
    assert (ms + MsPerDay) / 1000 == ms / 1000 + 86400;
  }

  lemma MillisShift(ms: nat)
    ensures (ms + MsPerDay) % 1000 == ms % 1000
  {
  }

  /** Timestamps a whole day apart print identically. */
  lemma FormatTimeWraps(ms: nat)
    ensures FormatTime(ms + MsPerDay) == FormatTime(ms)
  {
    var later := ms + MsPerDay;
    HoursShift(ms);
    MinutesShift(ms);
    SecondsShift(ms);
    MillisShift(ms);
    assert FormatTime(later) == Clock(later / 3600000 % 24, later / 60000 % 60, later / 1000 % 60, later % 1000);
  }

  /** Start of cue `i` in milliseconds: `i * interval` seconds. */
  function StartMs(i: nat): nat {
    i * Interval * 1000
  }

  /** The timing line of cue `i`. */
  function TimingLine(i: nat): string {
    FormatTime(StartMs(i)) + Arrow + FormatTime(StartMs(i + 1))
  }

  /** The tile of cue `i`: column `i mod 8`, row `i div 8`. */
  function FragmentLine(i: nat): string {
    FragmentPrefix + NatToString((i % Cols) * ThumbWidth) + "," + NatToString((i / Cols) * ThumbHeight)
      + "," + NatToString(ThumbWidth) + "," + NatToString(ThumbHeight)
  }

  /** The lines pushed for cues `0 .. n - 1`: timing, fragment, empty line each. */
  function CueLines(n: nat): (r: seq<string>)
    ensures |r| == 3 * n
  {
    if n == 0 then [] else CueLines(n - 1) + [TimingLine(n - 1), FragmentLine(n - 1), ""]
  }

  /** `vttLines` once the loop has finished. */
  function VttLines(duration: real): seq<string> {
    ["WEBVTT", ""] + CueLines(CueCount(duration))
  }

  /** `vttLines.join('\n')`: the text written to `thumbnails.vtt`. */
  function VttText(duration: real): string {
    Join(VttLines(duration), "\n")
  }

  /** A cue as a player sees it: a time range and a rectangle of the storyboard. */
  datatype Cue = Cue(startMs: nat, endMs: nat, x: nat, y: nat, w: nat, h: nat)

  /** The cue the grid layout assigns to sample `i`. */
  function CueAt(i: nat): Cue {
    Cue(StartMs(i), StartMs(i + 1), (i % Cols) * ThumbWidth, (i / Cols) * ThumbHeight, ThumbWidth, ThumbHeight)
  }

  /** A cue with its times reduced to the time of day, as the text shows them. */
  function OnClock(c: Cue): Cue {
    c.(startMs := c.startMs % MsPerDay, endMs := c.endMs % MsPerDay)
  }

  /** The cues the file should hold for `n` samples. */
  function ExpectedCues(n: nat): (r: seq<Cue>)
    ensures |r| == n
  {
    seq(n, i requires 0 <= i => OnClock(CueAt(i)))
  }

  /** Cues are two seconds long and each starts where the previous one ends. */
  lemma CuesContiguous(i: nat)
    ensures CueAt(i).endMs == CueAt(i + 1).startMs
    ensures CueAt(i).endMs - CueAt(i).startMs == Interval * 1000
    ensures CueAt(i).startMs < CueAt(i + 1).startMs
  {
  }

  /** Every tile of `n` samples lies inside the 8-column grid of `ceil(n / 8)` rows. */
  lemma CueInGrid(i: nat, n: nat)
    requires i < n
    ensures CueAt(i).x + CueAt(i).w <= Cols * ThumbWidth
    ensures CueAt(i).y + CueAt(i).h <= Rows(n) * ThumbHeight
  {
    assert i / Cols + 1 <= Rows(n);
  }

  /** Distinct samples get non-overlapping tiles. */
  lemma CuesDisjoint(i: nat, j: nat)
    requires i != j
    ensures var a, b := CueAt(i), CueAt(j);
      a.x + a.w <= b.x || b.x + b.w <= a.x || a.y + a.h <= b.y || b.y + b.h <= a.y
  {
    if i % Cols == j % Cols {
      assert i / Cols != j / Cols;
    }
  }

  /** The number of cues is `floor(duration / 2)` for a non-negative duration. */
  lemma CueCountIsFloor(duration: real)
    requires duration >= 0.0
    ensures CueCount(duration) as real <= duration / 2.0 < CueCount(duration) as real + 1.0
    ensures |VttLines(duration)| == 2 + 3 * CueCount(duration)
  {
  }

  /** A video shorter than two seconds gets an empty cue file. */
  lemma ShortVideoCueFile(duration: real)
    requires duration < 2.0
    ensures CueCount(duration) == 0
    ensures VttText(duration) == "WEBVTT\n"
  {
    assert VttLines(duration) == ["WEBVTT", ""];
    assert ["WEBVTT", ""][1..] == [""];
  }

  // ---- Reading a cue file back ----

  /** Reads a `start --> end` timing line. */
  function ParseTiming(line: string): Option<(nat, nat)> {
    if |line| != 29 || line[12..17] != Arrow then None
    else
      var a := ParseTime(line[..12]);
      var b := ParseTime(line[17..]);
      if a.None? || b.None? then None else Some((a.value, b.value))
  }

  /** Reads a non-empty run of digits. */
  function ParseNat(s: string): Option<nat> {
    if |s| == 0 || !AllDigits(s) then None else Some(DigitsValue(s))
  }

  /** Reads a `storyboard.jpg#xywh=x,y,w,h` reference. */
  function ParseFragment(line: string): Option<(nat, nat, nat, nat)> {
    if !StartsWith(line, FragmentPrefix) then None else ParseXywh(line[|FragmentPrefix|..])
  }

  /** Reads the `x,y,w,h` values of a spatial fragment. */
  function ParseXywh(s: string): Option<(nat, nat, nat, nat)> {
    var parts := Split(s, ',');
    if |parts| != 4 then None
    else
      var x, y, w, h := ParseNat(parts[0]), ParseNat(parts[1]), ParseNat(parts[2]), ParseNat(parts[3]);
      if x.None? || y.None? || w.None? || h.None? then None
      else Some((x.value, y.value, w.value, h.value))
  }

  /** Reads one cue from its timing line and its fragment line. */
  function ParseCue(timing: string, fragment: string): Option<Cue> {
    var t := ParseTiming(timing);
    var f := ParseFragment(fragment);
    if t.None? || f.None? then None
    else Some(Cue(t.value.0, t.value.1, f.value.0, f.value.1, f.value.2, f.value.3))
  }

  /**
   * Reads cue blocks (a timing line, a fragment line and an empty line
   * each) with `read` turning each block's two lines into its cue. The block
   * structure does not depend on how a cue is read.
   */
  function Blocks(read: (string, string) -> Option<Cue>, lines: seq<string>): Option<seq<Cue>>
    decreases |lines|
  {
    if |lines| == 0 then Some([])
    else if |lines| < 3 || lines[2] != "" then None
    else
      var c := read(lines[0], lines[1]);
      var rest := Blocks(read, lines[3..]);
      if c.None? || rest.None? then None else Some([c.value] + rest.value)
  }

  /** Reads the cue blocks that follow the header. */
  function ParseBlocks(lines: seq<string>): Option<seq<Cue>> {
    Blocks(ParseCue, lines)
  }

  /** Reads a whole cue file. */
  function ParseVtt(text: string): Option<seq<Cue>> {
    var lines := Split(text, '\n');
    if |lines| < 2 || lines[..2] != ["WEBVTT", ""] then None
    else ParseBlocks(lines[2..])
  }

  /** The timing line of cue `i` reads back as its start and end on the 24-hour clock. */
  lemma ParseTimingLine(i: nat)
    ensures ParseTiming(TimingLine(i)) == Some((StartMs(i) % MsPerDay, StartMs(i + 1) % MsPerDay))
  {
    var line := TimingLine(i);
    assert line[..12] == FormatTime(StartMs(i));
    assert line[12..17] == Arrow;
    assert line[17..] == FormatTime(StartMs(i + 1));
    ParseFormatTime(StartMs(i));
    ParseFormatTime(StartMs(i + 1));
  }

  /** A decimal rendering reads back as its number. */
  lemma ParseNatToString(n: nat)
    ensures ParseNat(NatToString(n)) == Some(n)
  {
    DigitsValueOfNatToString(n);
  }

  /** Digits hold no separator character. */
  lemma DigitsHaveNo(d: string, c: char)
    requires AllDigits(d) && !IsDigit(c)
    ensures c !in d
  {
  }

  /** Text that splits into four numbers reads as those numbers. */
  lemma ParseXywhOf(s: string, a: string, b: string, c: string, d: string, x: nat, y: nat, w: nat, h: nat)
    requires Split(s, ',') == [a, b, c, d]
    requires ParseNat(a) == Some(x) && ParseNat(b) == Some(y) && ParseNat(c) == Some(w) && ParseNat(d) == Some(h)
    ensures ParseXywh(s) == Some((x, y, w, h))
  {
  }

  /** Four pieces joined by a separator none of them holds split back into the four. */
  lemma SplitFour(a: string, b: string, c: string, d: string, sep: char)
    requires sep !in a && sep !in b && sep !in c && sep !in d
    ensures Split(a + [sep] + (b + [sep] + (c + [sep] + d)), sep) == [a, b, c, d]
  {
    SplitFree(d, sep);
    SplitFirst(c, sep, d);
    SplitFirst(b, sep, c + [sep] + d);
    SplitFirst(a, sep, b + [sep] + (c + [sep] + d));
  }

  /** A line that starts with the prefix hands what follows it to `ParseXywh`. */
  lemma ParseFragmentOf(xywh: string)
    ensures ParseFragment(FragmentPrefix + xywh) == ParseXywh(xywh)
  {
    DropPrefix(FragmentPrefix, xywh);
  }

  /** Text after a prefix starts with the prefix and drops back to what follows it. */
  lemma DropPrefix(p: string, x: string)
    ensures StartsWith(p + x, p) && (p + x)[|p|..] == x
  {
    assert (p + x)[..|p|] == p;
  }

  /** The fragment line of cue `i` reads back as its tile. */
  lemma ParseFragmentLine(i: nat)
    ensures ParseFragment(FragmentLine(i)) == Some(((i % Cols) * ThumbWidth, (i / Cols) * ThumbHeight, ThumbWidth, ThumbHeight))
  {
    var x, y, w, h := (i % Cols) * ThumbWidth, (i / Cols) * ThumbHeight, ThumbWidth, ThumbHeight;
    var a, b, c, d := NatToString(x), NatToString(y), NatToString(w), NatToString(h);
    var xywh := a + "," + (b + "," + (c + "," + d));
    assert FragmentLine(i) == FragmentPrefix + xywh;
    ParseFragmentOf(xywh);
    DigitsHaveNo(a, ','); DigitsHaveNo(b, ','); DigitsHaveNo(c, ','); DigitsHaveNo(d, ',');
    SplitFour(a, b, c, d, ',');
    ParseNatToString(x); ParseNatToString(y); ParseNatToString(w); ParseNatToString(h);
    ParseXywhOf(xywh, a, b, c, d, x, y, w, h);
  }

  /** The two lines of cue `i` read back as that cue, on the 24-hour clock. */
  lemma ParseCueAt(i: nat)
    ensures ParseCue(TimingLine(i), FragmentLine(i)) == Some(OnClock(CueAt(i)))
  {
    ParseTimingLine(i);
    ParseFragmentLine(i);
  }

  /** A timestamp holds no line break. */
  lemma TimePlain(ms: nat)
    ensures '\n' !in FormatTime(ms)
  {
    var t := FormatTime(ms);
    forall k | 0 <= k < 12 ensures t[k] != '\n' {
      if k == 2 || k == 5 || k == 8 {
      } else {
        assert IsDigit(t[k]);
      }
    }
  }

  /** A timing line holds no line break. */
  lemma TimingLinePlain(i: nat)
    ensures '\n' !in TimingLine(i)
  {
    var s1, s2 := FormatTime(StartMs(i)), FormatTime(StartMs(i + 1));
    TimePlain(StartMs(i));
    TimePlain(StartMs(i + 1));
    ConcatFree(s1, Arrow, '\n');
    ConcatFree(s1 + Arrow, s2, '\n');
  }

  /** A fragment line holds no line break. */
  lemma FragmentLinePlain(i: nat)
    ensures '\n' !in FragmentLine(i)
  {
    var a, b, c, d := NatToString((i % Cols) * ThumbWidth), NatToString((i / Cols) * ThumbHeight),
      NatToString(ThumbWidth), NatToString(ThumbHeight);
    DigitsHaveNo(a, '\n'); DigitsHaveNo(b, '\n'); DigitsHaveNo(c, '\n'); DigitsHaveNo(d, '\n');
    ConcatFree(FragmentPrefix, a, '\n');
    ConcatFree(FragmentPrefix + a, ",", '\n');
    ConcatFree(FragmentPrefix + a + ",", b, '\n');
    ConcatFree(FragmentPrefix + a + "," + b, ",", '\n');
    ConcatFree(FragmentPrefix + a + "," + b + ",", c, '\n');
    ConcatFree(FragmentPrefix + a + "," + b + "," + c, ",", '\n');
    ConcatFree(FragmentPrefix + a + "," + b + "," + c + ",", d, '\n');
  }

  /** A block that reads, followed by blocks that read. */
  lemma BlocksFront(read: (string, string) -> Option<Cue>, lines: seq<string>)
    requires |lines| >= 3 && lines[2] == ""
    requires read(lines[0], lines[1]).Some? && Blocks(read, lines[3..]).Some?
    ensures Blocks(read, lines) == Some([read(lines[0], lines[1]).value] + Blocks(read, lines[3..]).value)
  {
  }

  /** Blocks read one after the other: the cues of a concatenation are the concatenated cues. */
  lemma {:induction false} BlocksConcat(read: (string, string) -> Option<Cue>, a: seq<string>, b: seq<string>)
    requires |a| % 3 == 0
    requires Blocks(read, a).Some? && Blocks(read, b).Some?
    ensures Blocks(read, a + b) == Some(Blocks(read, a).value + Blocks(read, b).value)
    decreases |a|
  {
    if |a| == 0 {
      assert a + b == b;
      assert Blocks(read, a).value == [];
      assert [] + Blocks(read, b).value == Blocks(read, b).value;
    } else {
      var whole := a + b;
      var ra, rb := Blocks(read, a[3..]).value, Blocks(read, b).value;
      assert whole[3..] == a[3..] + b;
      BlocksConcat(read, a[3..], b);
      assert whole[0] == a[0] && whole[1] == a[1] && whole[2] == a[2];
      BlocksFront(read, a);
      BlocksFront(read, whole);
      var c := read(a[0], a[1]).value;
      assert [c] + (ra + rb) == ([c] + ra) + rb;
    }
  }

  /** Timing lines followed by fragment lines and an empty line, block by block. */
  function Interleave(timings: seq<string>, fragments: seq<string>): (r: seq<string>)
    requires |timings| == |fragments|
    ensures |r| == 3 * |timings|
  {
    if |timings| == 0 then []
    else
      var k := |timings| - 1;
      Interleave(timings[..k], fragments[..k]) + [timings[k], fragments[k], ""]
  }

  /** One block reads as its one cue. */
  lemma SingleBlock(read: (string, string) -> Option<Cue>, timing: string, fragment: string)
    requires read(timing, fragment).Some?
    ensures Blocks(read, [timing, fragment, ""]) == Some([read(timing, fragment).value])
  {
    var lines := [timing, fragment, ""];
    assert lines[3..] == [];
    assert Blocks(read, lines[3..]) == Some([]);
    var c := read(timing, fragment).value;
    assert [c] + [] == [c];
    assert Blocks(read, lines) == Some([c] + []);
  }

  /** The last block of an interleaving, split off. */
  lemma InterleaveSnoc(timings: seq<string>, fragments: seq<string>)
    requires |timings| == |fragments| > 0
    ensures var k := |timings| - 1;
      && Interleave(timings, fragments) == Interleave(timings[..k], fragments[..k]) + [timings[k], fragments[k], ""]
      && |Interleave(timings[..k], fragments[..k])| % 3 == 0
  {
    MultipleOfThree(|timings| - 1);
  }

  /** Blocks read back as the cues their lines read as. */
  lemma {:induction false} BlocksInterleave(read: (string, string) -> Option<Cue>, timings: seq<string>, fragments: seq<string>, cues: seq<Cue>)
    requires |timings| == |fragments| == |cues|
    requires forall i :: 0 <= i < |cues| ==> read(timings[i], fragments[i]) == Some(cues[i])
    ensures Blocks(read, Interleave(timings, fragments)) == Some(cues)
  {
    var n := |cues|;
    if n > 0 {
      var ts, fs, cs := timings[..n - 1], fragments[..n - 1], cues[..n - 1];
      assert forall i :: 0 <= i < n - 1 ==> read(ts[i], fs[i]) == Some(cs[i]);
      BlocksInterleave(read, ts, fs, cs);
      InterleaveSnoc(timings, fragments);
      SingleBlock(read, timings[n - 1], fragments[n - 1]);
      BlocksConcat(read, Interleave(ts, fs), [timings[n - 1], fragments[n - 1], ""]);
      assert cs + [cues[n - 1]] == cues;
    }
  }

  /** Three blocks of lines per cue keep the count a multiple of three. */
  lemma MultipleOfThree(k: nat)
    ensures (3 * k) % 3 == 0
  {
  }

  /** The timing lines of cues `0 .. n - 1`. */
  function Timings(n: nat): (r: seq<string>)
    ensures |r| == n
  {
    seq(n, i requires 0 <= i => TimingLine(i))
  }

  /** The fragment lines of cues `0 .. n - 1`. */
  function Fragments(n: nat): (r: seq<string>)
    ensures |r| == n
  {
    seq(n, i requires 0 <= i => FragmentLine(i))
  }

  /** The loop's lines are the timing and fragment lines interleaved block by block. */
  lemma {:induction false} CueLinesInterleave(n: nat)
    ensures CueLines(n) == Interleave(Timings(n), Fragments(n))
  {
    if n > 0 {
      CueLinesInterleave(n - 1);
      assert Timings(n)[..n - 1] == Timings(n - 1);
      assert Fragments(n)[..n - 1] == Fragments(n - 1);
    }
  }

  /** Interleaving lines free of a character gives lines free of it. */
  lemma {:induction false} InterleaveFree(timings: seq<string>, fragments: seq<string>, c: char)
    requires |timings| == |fragments|
    requires forall k :: 0 <= k < |timings| ==> c !in timings[k]
    requires forall k :: 0 <= k < |fragments| ==> c !in fragments[k]
    ensures forall k :: 0 <= k < |Interleave(timings, fragments)| ==> c !in Interleave(timings, fragments)[k]
  {
    if |timings| > 0 {
      var j := |timings| - 1;
      assert forall k :: 0 <= k < j ==> timings[..j][k] == timings[k] && fragments[..j][k] == fragments[k];
      InterleaveFree(timings[..j], fragments[..j], c);
      var block := [timings[j], fragments[j], ""];
      LinesFree(Interleave(timings[..j], fragments[..j]), block, c);
    }
  }

  /** Cue lines hold no line break. */
  lemma CueLinesPlain(n: nat)
    ensures forall k :: 0 <= k < |CueLines(n)| ==> '\n' !in CueLines(n)[k]
  {
    CueLinesInterleave(n);
    forall i | 0 <= i < n ensures '\n' !in Timings(n)[i] && '\n' !in Fragments(n)[i] {
      TimingLinePlain(i);
      FragmentLinePlain(i);
    }
    InterleaveFree(Timings(n), Fragments(n), '\n');
  }

  /** Each cue's two lines read back as the expected cue. */
  lemma CuesParse(n: nat)
    ensures forall i :: 0 <= i < n ==> ParseCue(Timings(n)[i], Fragments(n)[i]) == Some(ExpectedCues(n)[i])
  {
    forall i | 0 <= i < n
      ensures ParseCue(Timings(n)[i], Fragments(n)[i]) == Some(ExpectedCues(n)[i])
    {
      ParseCueAt(i);
    }
  }

  /** The loop's lines read back as the expected cues. */
  lemma ParseCueLines(n: nat)
    ensures ParseBlocks(CueLines(n)) == Some(ExpectedCues(n))
  {
    CueLinesInterleave(n);
    CuesParse(n);
    BlocksInterleave(ParseCue, Timings(n), Fragments(n), ExpectedCues(n));
  }

  /**
   * The cue file reads back as `floor(duration / 2)` cues, the i-th one the
   * two-second range starting at 2i seconds (on the 24-hour clock) and the
   * tile at column `i mod 8`, row `i div 8` of the grid.
   */
  lemma VttRoundTrip(duration: real)
    ensures ParseVtt(VttText(duration)) == Some(ExpectedCues(CueCount(duration)))
  {
    var n := CueCount(duration);
    var lines := VttLines(duration);
    CueLinesPlain(n);
    assert '\n' !in "WEBVTT" && '\n' !in "";
    LinesFree(["WEBVTT", ""], CueLines(n), '\n');
    SplitJoin(lines, '\n');
    assert lines[..2] == ["WEBVTT", ""];
    assert lines[2..] == CueLines(n);
    ParseCueLines(n);
  }
}

=== FILE: text.dfy ===
/**
 * The handful of JavaScript string operations the transcoder relies on:
 * `Array.prototype.join`, `String.prototype.split` with a one-character
 * separator, `startsWith`, decimal rendering of integers and `parseInt(s, 10)`.
 */
module Text {
  import opened Wrappers

  /** `parts.join(sep)`: the parts with `sep` between neighbours. */
  function Join(parts: seq<string>, sep: string): (r: string)
    ensures |parts| == 1 ==> r == parts[0]
  {
    if |parts| == 0 then ""
    else if |parts| == 1 then parts[0]
    else parts[0] + sep + Join(parts[1..], sep)
  }

  /** `s.split(c)` for a one-character separator: never empty, `""` splits to `[""]`. */
  function Split(s: string, c: char): (r: seq<string>)
    ensures |r| >= 1
  {
    if |s| == 0 then [""]
    else
      var t := Split(s[1..], c);
      if s[0] == c then [""] + t else [[s[0]] + t[0]] + t[1..]
  }

  /** No element produced by `Split` contains the separator. */
  lemma {:induction false} SplitPartsFree(s: string, c: char)
    ensures forall k :: 0 <= k < |Split(s, c)| ==> c !in Split(s, c)[k]
  {
    if |s| > 0 {
      SplitPartsFree(s[1..], c);
    }
  }

  /** Text free of the separator splits into itself alone. */
  lemma {:induction false} SplitFree(s: string, c: char)
    requires c !in s
    ensures Split(s, c) == [s]
  {
    if |s| > 0 {
      SplitFree(s[1..], c);
      assert s == [s[0]] + s[1..];
    }
  }

  /** The pieces of `sa` followed by those of `sb`, the last of `sa` fused with the first of `sb`. */
  function Fuse(sa: seq<string>, sb: seq<string>): seq<string>
    requires |sa| >= 1 && |sb| >= 1
  {
    sa[..|sa| - 1] + [sa[|sa| - 1] + sb[0]] + sb[1..]
  }

  lemma FuseSeparator(t: seq<string>, sb: seq<string>)
    requires |t| >= 1 && |sb| >= 1
    ensures Fuse([""] + t, sb) == [""] + Fuse(t, sb)
  {
    var u := [""] + t;
    assert u[..|u| - 1] == [""] + t[..|t| - 1];
  }

  lemma FuseChar(ch: char, t: seq<string>, sb: seq<string>)
    requires |t| >= 1 && |sb| >= 1
    ensures var f := Fuse(t, sb);
      Fuse([[ch] + t[0]] + t[1..], sb) == [[ch] + f[0]] + f[1..]
  {
    var u := [[ch] + t[0]] + t[1..];
    var f := Fuse(t, sb);
    var last := t[|t| - 1] + sb[0];
    if |t| > 1 {
      assert u[..|u| - 1] == [[ch] + t[0]] + t[1..|t| - 1];
      assert f == [t[0]] + t[1..|t| - 1] + [last] + sb[1..];
      assert f[1..] == t[1..|t| - 1] + [last] + sb[1..];
    } else {
      assert ([ch] + t[0]) + sb[0] == [ch] + (t[0] + sb[0]);
      assert f == [t[0] + sb[0]] + sb[1..];
    }
  }

  /** Splitting a concatenation fuses the last piece of `a` with the first piece of `b`. */
  lemma {:induction false} SplitConcat(a: string, b: string, c: char)
    ensures Split(a + b, c) == Fuse(Split(a, c), Split(b, c))
  {
    var sb := Split(b, c);
    if |a| == 0 {
      assert a + b == b;
      assert "" + sb[0] == sb[0];
      assert [sb[0]] + sb[1..] == sb;
    } else {
      var a' := a[1..];
      assert (a + b)[1..] == a' + b;
      assert (a + b)[0] == a[0];
      SplitConcat(a', b, c);
      var t := Split(a', c);
      if a[0] == c {
        FuseSeparator(t, sb);
      } else {
        FuseChar(a[0], t, sb);
      }
    }
  }

  /** Splitting `a + [c] + b` when `a` is free of `c`. */
  lemma SplitFirst(a: string, c: char, b: string)
    requires c !in a
    ensures Split(a + [c] + b, c) == [a] + Split(b, c)
  {
    SplitConcat(a, [c] + b, c);
    SplitFree(a, c);
    assert ([c] + b)[1..] == b;
    assert Split([c] + b, c) == [""] + Split(b, c);
    assert a + "" == a;
    assert a + [c] + b == a + ([c] + b);
  }

  /** Splitting a joined list gives the list back when no part contains the separator. */
  lemma {:induction false} SplitJoin(parts: seq<string>, c: char)
    requires |parts| >= 1
    requires forall k :: 0 <= k < |parts| ==> c !in parts[k]
    ensures Split(Join(parts, [c]), c) == parts
  {
    if |parts| > 1 {
      SplitJoin(parts[1..], c);
      SplitFirst(parts[0], c, Join(parts[1..], [c]));
      assert parts == [parts[0]] + parts[1..];
    } else {
      SplitFree(parts[0], c);
    }
  }

  /** Joining the pieces of a split restores the original text. */
  lemma {:induction false} JoinSplit(s: string, c: char)
    ensures Join(Split(s, c), [c]) == s
  {
    if |s| > 0 {
      var t := Split(s[1..], c);
      JoinSplit(s[1..], c);
      if s[0] == c {
        assert ([""] + t)[1..] == t;
      } else if |t| > 1 {
        var r := [[s[0]] + t[0]] + t[1..];
        assert r[1..] == t[1..];
        assert Join(r, [c]) == [s[0]] + t[0] + [c] + Join(t[1..], [c]);
      }
      assert s == [s[0]] + s[1..];
    }
  }

  /** Text free of `c` stays free of it when extended by more such text. */
  lemma ConcatFree(a: string, b: string, c: char)
    requires c !in a && c !in b
    ensures c !in a + b
  {
  }

  /** Lines free of a character, followed by more such lines. */
  lemma LinesFree(xs: seq<string>, ys: seq<string>, c: char)
    requires forall k :: 0 <= k < |xs| ==> c !in xs[k]
    requires forall k :: 0 <= k < |ys| ==> c !in ys[k]
    ensures forall k :: 0 <= k < |xs + ys| ==> c !in (xs + ys)[k]
  {
    forall k | 0 <= k < |xs + ys| ensures c !in (xs + ys)[k] {
      if k < |xs| {
        assert (xs + ys)[k] == xs[k];
      } else {
        assert (xs + ys)[k] == ys[k - |xs|];
      }
    }
  }

  /** Every line followed by the terminator `c`, as text built with `+= line + '\n'`. */
  function Terminated(lines: seq<string>, c: char): string {
    if |lines| == 0 then "" else lines[0] + [c] + Terminated(lines[1..], c)
  }

  lemma {:induction false} TerminatedAppend(xs: seq<string>, ys: seq<string>, c: char)
    ensures Terminated(xs + ys, c) == Terminated(xs, c) + Terminated(ys, c)
  {
    if |xs| > 0 {
      TerminatedAppend(xs[1..], ys, c);
      assert (xs + ys)[1..] == xs[1..] + ys;
    } else {
      assert xs + ys == ys;
    }
  }

  /** Terminated lines are the lines joined by `c` with a final empty line. */
  lemma {:induction false} TerminatedIsJoin(lines: seq<string>, c: char)
    ensures Terminated(lines, c) == Join(lines + [""], [c])
  {
    if |lines| > 0 {
      TerminatedIsJoin(lines[1..], c);
      assert (lines + [""])[1..] == lines[1..] + [""];
    }
  }

  /** Splitting terminated lines on the terminator gives the lines and a final empty piece. */
  lemma SplitTerminated(lines: seq<string>, c: char)
    requires forall k :: 0 <= k < |lines| ==> c !in lines[k]
    ensures Split(Terminated(lines, c), c) == lines + [""]
  {
    TerminatedIsJoin(lines, c);
    SplitJoin(lines + [""], c);
  }

  /** `s.startsWith(prefix)`. */
  predicate StartsWith(s: string, prefix: string) {
    |prefix| <= |s| && s[..|prefix|] == prefix
  }

  predicate IsDigit(ch: char) {
    '0' <= ch <= '9'
  }

  predicate AllDigits(s: string) {
    forall k :: 0 <= k < |s| ==> IsDigit(s[k])
  }

  function DigitChar(d: nat): (ch: char)
    requires d < 10
    ensures IsDigit(ch)
  {
    ('0' as int + d) as char
  }

  function DigitValue(ch: char): (d: nat)
    requires IsDigit(ch)
    ensures d < 10
  {
    ch as int - '0' as int
  }

  /** Decimal rendering of a non-negative integer, as `${n}` gives it. */
  function NatToString(n: nat): (r: string)
    ensures |r| >= 1 && AllDigits(r)
  {
    if n < 10 then [DigitChar(n)] else NatToString(n / 10) + [DigitChar(n % 10)]
  }

  /** Ten times a positive number renders as that number followed by `0`. */
  lemma TimesTenDigits(n: nat)
    requires n >= 1
    ensures NatToString(n * 10) == NatToString(n) + "0"
  {
    assert (n * 10) / 10 == n && (n * 10) % 10 == 0;
  }

  /** Decimal rendering of an integer, with a leading `-` for negatives. */
  function IntToString(i: int): (r: string)
    ensures |r| >= 1
  {
    if i < 0 then "-" + NatToString(-i) else NatToString(i)
  }

  /** The value of a string of decimal digits (most significant first). */
  function DigitsValue(s: string): nat
    requires AllDigits(s)
  {
    if |s| == 0 then 0 else DigitsValue(s[..|s| - 1]) * 10 + DigitValue(s[|s| - 1])
  }

  lemma {:induction false} DigitsValueOfNatToString(n: nat)
    ensures DigitsValue(NatToString(n)) == n
  {
    if n >= 10 {
      DigitsValueOfNatToString(n / 10);
      var s := NatToString(n);
      assert s[..|s| - 1] == NatToString(n / 10);
    }
  }

  /** Length of the longest prefix of `s` made of decimal digits. */
  function DigitPrefixLength(s: string): (k: nat)
    ensures k <= |s| && AllDigits(s[..k])
    ensures k < |s| ==> !IsDigit(s[k])
  {
    if |s| == 0 || !IsDigit(s[0]) then 0
    else
      var k := 1 + DigitPrefixLength(s[1..]);
      assert s[..k] == [s[0]] + s[1..][..k - 1];
      k
  }

  /** The characters `parseInt` skips before a number (the common ECMAScript white space). */
  predicate IsWhiteSpace(ch: char) {
    ch == ' ' || ch == '\t' || ch == '\n' || ch == '\r' || ch == '\U{B}' || ch == '\U{C}'
    || ch == '\U{A0}' || ch == '\U{FEFF}' || ch == '\U{2028}' || ch == '\U{2029}'
  }

  function TrimStart(s: string): (r: string)
    ensures |r| <= |s| && r == s[|s| - |r|..]
    ensures |r| > 0 ==> !IsWhiteSpace(r[0])
  {
    if |s| > 0 && IsWhiteSpace(s[0]) then TrimStart(s[1..]) else s
  }

  /**
   * `parseInt(s, 10)`: leading white space, an optional sign, then the longest
   * run of digits; `None` stands for `NaN` (no digit at all).
   */
  function ParseInt(s: string): (r: Option<int>)
  {
    var t := TrimStart(s);
    var neg := |t| > 0 && t[0] == '-';
    var body := if |t| > 0 && (t[0] == '-' || t[0] == '+') then t[1..] else t;
    var k := DigitPrefixLength(body);
    if k == 0 then None
    else
      var v: int := DigitsValue(body[..k]);
      Some(if neg then -v else v)
  }

  /** `parseInt` reads back what `NatToString` writes, whatever non-digit text follows. */
  lemma ParseIntOfNatToString(n: nat, rest: string)
    requires |rest| > 0 ==> !IsDigit(rest[0])
    ensures ParseInt(NatToString(n) + rest) == Some(n)
  {
    var s := NatToString(n) + rest;
    assert TrimStart(s) == s;
    DigitPrefixExact(NatToString(n), rest);
    assert s[..|NatToString(n)|] == NatToString(n);
    DigitsValueOfNatToString(n);
  }

  lemma {:induction false} DigitPrefixExact(d: string, rest: string)
    requires AllDigits(d)
    requires |rest| > 0 ==> !IsDigit(rest[0])
    ensures DigitPrefixLength(d + rest) == |d|
  {
    if |d| > 0 {
      DigitPrefixExact(d[1..], rest);
      assert (d + rest)[1..] == d[1..] + rest;
    }
  }

  /** Zero-padded two-digit rendering. */
  function Pad2(n: nat): (r: string)
    requires n < 100
    ensures |r| == 2 && AllDigits(r)
  {
    [DigitChar(n / 10), DigitChar(n % 10)]
  }

  /** Zero-padded three-digit rendering. */
  function Pad3(n: nat): (r: string)
    requires n < 1000
    ensures |r| == 3 && AllDigits(r)
  {
    [DigitChar(n / 100), DigitChar(n / 10 % 10), DigitChar(n % 10)]
  }

  lemma DigitValueOfDigitChar(d: nat)
    requires d < 10
    ensures DigitValue(DigitChar(d)) == d
  {
  }

  lemma Pad2Value(n: nat)
    requires n < 100
    ensures DigitsValue(Pad2(n)) == n
  {
    var s := Pad2(n);
    DigitValueOfDigitChar(n / 10);
    DigitValueOfDigitChar(n % 10);
    assert s[..1][..0] == [];
    assert DigitsValue(s[..1]) == n / 10;
  }

  lemma Pad3Value(n: nat)
    requires n < 1000
    ensures DigitsValue(Pad3(n)) == n
  {
    var s := Pad3(n);
    DigitValueOfDigitChar(n / 100);
    DigitValueOfDigitChar(n / 10 % 10);
    DigitValueOfDigitChar(n % 10);
    assert s[..2][..1] == s[..1];
    assert s[..1][..0] == [];
    assert DigitsValue(s[..1]) == n / 100;
    assert DigitsValue(s[..2]) == n / 10;
  }
}

=== FILE: types.dfy ===
/**
 * The records shared by the transcoder's components (backend/src/types.ts):
 * the persisted video record, its five-value status, the transient job and
 * the events pushed to observers.
 */
module Types {
  import opened Wrappers

  /** Video lifecycle: pending -> queued -> processing -> completed | failed. */
  datatype Status = Pending | Queued | Processing | Completed | Failed

  /**
   * One row of the `videos` table. The text columns that the row insert does
   * not always fill are nullable, hence `Option`. `createdAt` is the insert
   * time in seconds; its text form `YYYY-MM-DD HH:MM:SS` orders like the number.
   */
  datatype VideoRecord = VideoRecord(
    id: int,
    storedFile: Option<string>,
    originalName: Option<string>,
    outputDir: Option<string>,
    qualities: Option<string>,
    m3u8Url: Option<string>,
    thumbnailUrl: Option<string>,
    blurhash: Option<string>,
    status: Status,
    width: int,
    height: int,
    duration: real,
    createdAt: int)

  /** A transcode job: which video, which qualities, where from and where to. */
  datatype Job = Job(
    id: int,
    storedFile: Option<string>,
    qualities: seq<string>,
    inputFilePath: string,
    outputDir: string,
    duration: real)

  /** A value as JavaScript computes it: a real number, an infinity or NaN. */
  datatype Num = Finite(r: real) | PosInf | NegInf | NaN

  /** The `progress` field of a `job-progress` event: a computed percentage or the literal `'100'`. */
  datatype Progress = Reported(percent: Num) | Done

  /** Events emitted to connected observers. */
  datatype Event =
    | JobProgress(jobId: int, quality: string, progress: Progress)
    | VideoUpdated(record: Option<VideoRecord>)
    | JobComplete(completedId: int, m3u8Url: string, thumbnailUrl: string)
    | JobFailed(failedId: int, error: string)
    | VideoAdded(added: Option<VideoRecord>)
    | VideoList(videos: seq<VideoRecord>)

  /** `path.join(dir, name)` for a directory and a plain file name. */
  function PathJoin(dir: string, name: string): string {
    dir + "/" + name
  }
}

=== FILE: workerqueue.dfy ===
/**
 * The queue of the worker path (backend/src/services/jobProcessor.ts):
 * `addJob`, the `processQueue` loop running `processJob` with the table of
 * backend/src/services/videoService.ts, and `resumePendingJobs`. Unlike the
 * live queue, this loop keeps the video record's status in step with the
 * job and announces every change to connected observers.
 */
module JobProcessor {
  import opened Wrappers
  import opened Text
  import opened Types
  import opened Presets
  import opened Store
  import opened Scheduler
  import opened Pipeline
  import Controllers
  import JobQueue

  /**
   * The loop, the table, and whether the socket server has been registered
   * with `broadcastVideoUpdate` (without it the broadcast only logs).
   */
  datatype Worker = Worker(sched: Sched, db: Db, socketSet: bool)

  /** `broadcastVideoUpdate`: the whole list, newest first, when a socket server is registered. */
  function Broadcast(db: Db, socketSet: bool): (r: seq<Event>)
    ensures socketSet <==> r == [VideoList(AllVideos(db))]
    ensures !socketSet <==> r == []
    ensures socketSet && Store.Valid(db) ==>
      && NewestFirst(r[0].videos)
      && |r[0].videos| == |db.rows|
      && forall rec :: rec in r[0].videos <==> rec in db.rows.Values
  {
    if !socketSet then []
    else if Store.Valid(db) then
      AllVideosSorted(db);
      [VideoList(AllVideos(db))]
    else [VideoList(AllVideos(db))]
  }

  /** What starting a job does before its first `await`: mark it `processing` and announce the row. */
  function Begin(db: Db, started: Option<Job>): (r: (Db, seq<Event>))
    ensures started.None? ==> r == (db, [])
    ensures started.Some? ==> |r.1| == 1 && r.1[0] == VideoUpdated(GetById(r.0, started.value.id))
    ensures started.Some? && started.value.id in db.rows ==>
      started.value.id in r.0.rows && r.0.rows[started.value.id].status == Processing
    ensures forall k :: k in db.rows && (started.None? || k != started.value.id) ==> k in r.0.rows && r.0.rows[k] == db.rows[k]
    ensures r.0.rows.Keys == db.rows.Keys && r.0.nextId == db.nextId
  {
    if started.None? then (db, [])
    else
      var id := started.value.id;
      var db' := Update(db, id, Patch(None, None, None, None, None, Some(Processing)));
      (db', [VideoUpdated(GetById(db', id))])
  }

  /** `addJob`: enqueue, and start the job at once when the loop was idle. */
  function AddJob(w: Worker, job: Job): (r: (Worker, seq<Event>))
    ensures r.0.socketSet == w.socketSet
    ensures r.0.sched == Enqueue(w.sched, job).0
  {
    var (s', started) := Enqueue(w.sched, job);
    var (db', events) := Begin(w.db, started);
    (Worker(s', db', w.socketSet), events)
  }

  /** Where a finished job's playlist and cover are served from. */
  function MasterUrl(id: int): string {
    "/outputs/" + IntToString(id) + "/master.m3u8"
  }

  /** Where a finished job's cover thumbnail is served from. */
  function ThumbnailUrl(id: int): string {
    "/outputs/" + IntToString(id) + "/thumbnail.jpg"
  }

  /** The columns a successful job fills in. */
  function CompletedPatch(job: Job, blurhash: string): Patch {
    Patch(Some(job.outputDir), None, Some(MasterUrl(job.id)), Some(ThumbnailUrl(job.id)), Some(blurhash), Some(Completed))
  }

  /** The column a failed job changes. */
  const FailedPatch: Patch := Patch(None, None, None, None, None, Some(Failed))

  /**
   * The record and the announcements once `processJob` settles: on success
   * the output columns and `completed`, then `job-complete`; on failure only
   * `failed`, then `job-failed` with the error's message. The list broadcast
   * follows either way.
   */
  function Conclude(db: Db, job: Job, outcome: Result<string>, socketSet: bool): (r: (Db, seq<Event>))
    ensures outcome.Ok? ==>
      && r.0 == Update(db, job.id, CompletedPatch(job, outcome.value))
      && r.1 == [JobComplete(job.id, MasterUrl(job.id), ThumbnailUrl(job.id))] + Broadcast(r.0, socketSet)
    ensures outcome.Err? ==>
      && r.0 == Update(db, job.id, FailedPatch)
      && r.1 == [JobFailed(job.id, outcome.message)] + Broadcast(r.0, socketSet)
  {
    match outcome
    case Ok(blurhash) =>
      var db' := Update(db, job.id, CompletedPatch(job, blurhash));
      (db', [JobComplete(job.id, MasterUrl(job.id), ThumbnailUrl(job.id))] + Broadcast(db', socketSet))
    case Err(m) =>
      var db' := Update(db, job.id, FailedPatch);
      (db', [JobFailed(job.id, m)] + Broadcast(db', socketSet))
  }

  /** Everything one completion produces: the job's trace, the worker afterwards, the events in order. */
  datatype Completion = Completion(trace: Trace, worker: Worker, events: seq<Event>)

  /**
   * The awaited job settles with `trace`: its progress events, the record
   * update and announcements of `Conclude`, then the loop moves on and
   * starts the next job, if any.
   */
  function Settled(w: Worker, trace: Trace): (r: Completion)
    requires w.sched.running.Some?
    ensures r.worker.sched == Complete(w.sched).0 && r.worker.socketSet == w.socketSet
    ensures r.trace == trace
  {
    var job := w.sched.running.value;
    var (db1, concluded) := Conclude(w.db, job, trace.outcome, w.socketSet);
    var (s', next) := Complete(w.sched);
    var (db2, begun) := Begin(db1, next);
    Completion(trace, Worker(s', db2, w.socketSet), trace.events + concluded + begun)
  }

  /** The awaited job runs to its end in environment `env`. */
  function Finished(w: Worker, env: Env): (r: Completion)
    requires w.sched.running.Some?
    ensures r.trace == RunJob(w.sched.running.value, ServicePresets, env)
  {
    Settled(w, RunJob(w.sched.running.value, ServicePresets, env))
  }

  /**
   * A job's record ends `completed` exactly when every rendition, the
   * thumbnail and the storyboard succeed, and `failed` otherwise. On
   * success it carries the output directory, both served paths and the
   * blurhash; on failure every other column is as it was. No other row
   * changes.
   */
  lemma ConcludeRecord(db: Db, job: Job, env: Env, socketSet: bool)
    requires job.id in db.rows
    ensures var db' := Conclude(db, job, RunJob(job, ServicePresets, env).outcome, socketSet).0;
      var rec := db.rows[job.id];
      && job.id in db'.rows
      && (db'.rows[job.id].status == Completed <==> AllSucceed(job, ServicePresets, env))
      && (db'.rows[job.id].status == Failed <==> !AllSucceed(job, ServicePresets, env))
      && (AllSucceed(job, ServicePresets, env) ==> db'.rows[job.id] == rec.(
            outputDir := Some(job.outputDir), m3u8Url := Some(MasterUrl(job.id)),
            thumbnailUrl := Some(ThumbnailUrl(job.id)), blurhash := Some(env.blurhash), status := Completed))
      && (!AllSucceed(job, ServicePresets, env) ==> db'.rows[job.id] == rec.(status := Failed))
      && db'.rows.Keys == db.rows.Keys
      && forall k :: k in db.rows && k != job.id ==> db'.rows[k] == db.rows[k]
  {
    RunJobSucceeds(job, ServicePresets, env);
    ConcludeRow(db, job, RunJob(job, ServicePresets, env).outcome, socketSet);
  }

  /** The row a settled job leaves behind, for either outcome. */
  lemma ConcludeRow(db: Db, job: Job, outcome: Result<string>, socketSet: bool)
    requires job.id in db.rows
    ensures var db' := Conclude(db, job, outcome, socketSet).0;
      var rec := db.rows[job.id];
      && job.id in db'.rows
      && (db'.rows[job.id].status == Completed <==> outcome.Ok?)
      && (db'.rows[job.id].status == Failed <==> outcome.Err?)
      && (outcome.Ok? ==> db'.rows[job.id] == rec.(
            outputDir := Some(job.outputDir), m3u8Url := Some(MasterUrl(job.id)),
            thumbnailUrl := Some(ThumbnailUrl(job.id)), blurhash := Some(outcome.value), status := Completed))
      && (outcome.Err? ==> db'.rows[job.id] == rec.(status := Failed))
      && db'.rows.Keys == db.rows.Keys
      && forall k :: k in db.rows && k != job.id ==> db'.rows[k] == db.rows[k]
  {
  }

  /**
   * The announcements of one completion, in order: the job's progress, then
   * `job-complete` when it resolved or `job-failed` with its error, then the
   * list broadcast when a socket server is set, then `video-updated` for the
   * next job when there is one.
   */
  lemma SettledEvents(w: Worker, trace: Trace)
    requires w.sched.running.Some?
    ensures var job := w.sched.running.value;
      var r := Settled(w, trace);
      var n := |trace.events|;
      var next := |w.sched.queue| > 0;
      && |r.events| == n + 1 + (if w.socketSet then 1 else 0) + (if next then 1 else 0)
      && r.events[..n] == trace.events
      && (trace.outcome.Ok? ==> r.events[n] == JobComplete(job.id, MasterUrl(job.id), ThumbnailUrl(job.id)))
      && (trace.outcome.Err? ==> r.events[n] == JobFailed(job.id, trace.outcome.message))
      && (w.socketSet ==> r.events[n + 1].VideoList?)
      && (next ==> r.events[|r.events| - 1] == VideoUpdated(GetById(r.worker.db, w.sched.queue[0].id)))
  {
    var job := w.sched.running.value;
    var c := Conclude(w.db, job, trace.outcome, w.socketSet);
    var b := Begin(c.0, Complete(w.sched).1);
    var r := Settled(w, trace);
    assert r.events == trace.events + c.1 + b.1;
    assert r.worker.db == b.0;
  }

  /**
   * A whole completion in terms of the job: right after the job's progress
   * comes `job-complete` exactly when every step of the job succeeds, and
   * `job-failed` otherwise.
   */
  lemma FinishedEvents(w: Worker, env: Env)
    requires w.sched.running.Some?
    ensures var r := Finished(w, env);
      var n := |r.trace.events|;
      && n < |r.events|
      && (r.events[n].JobComplete? <==> AllSucceed(w.sched.running.value, ServicePresets, env))
      && (r.events[n].JobFailed? <==> !AllSucceed(w.sched.running.value, ServicePresets, env))
  {
    var trace := RunJob(w.sched.running.value, ServicePresets, env);
    SettledEvents(w, trace);
    RunJobSucceeds(w.sched.running.value, ServicePresets, env);
  }

  /** While the loop runs, the awaited job's row, if it exists, is marked `processing`. */
  predicate MarksRunning(w: Worker) {
    w.sched.running.Some? && w.sched.running.value.id in w.db.rows ==>
      w.db.rows[w.sched.running.value.id].status == Processing
  }

  /** Adding a job keeps the running job's row marked `processing`. */
  lemma AddJobMarksRunning(w: Worker, job: Job)
    requires Scheduler.Valid(w.sched) && MarksRunning(w)
    ensures Scheduler.Valid(AddJob(w, job).0.sched) && MarksRunning(AddJob(w, job).0)
  {
    EnqueueValid(w.sched, job);
  }

  /**
   * The mark is not a property of the whole server: a transcode request for
   * the video whose job is running writes `queued` over its `processing` row
   * before `addJob`, and `addJob` leaves that row as it finds it.
   */
  lemma RetranscodeUnmarksRunning(w: Worker, req: Controllers.Request, uploadDir: string, outputDir: string)
    requires Scheduler.Valid(w.sched) && MarksRunning(w)
    requires w.sched.running.Some? && req.fileId == Some(w.sched.running.value.id)
    requires Controllers.Transcode(w.db, req, uploadDir, outputDir).reply.Accepted?
    ensures var t := Controllers.Transcode(w.db, req, uploadDir, outputDir);
      t.job.Some? && !MarksRunning(AddJob(w.(db := t.db), t.job.value).0)
  {
  }

  /** Moving to the next job marks it `processing` in turn. */
  lemma FinishedMarksRunning(w: Worker, env: Env)
    requires Scheduler.Valid(w.sched) && w.sched.running.Some?
    ensures Scheduler.Valid(Finished(w, env).worker.sched) && MarksRunning(Finished(w, env).worker)
  {
    CompleteValid(w.sched);
  }

  /**
   * The job rebuilt from a `queued` or `processing` row: a null qualities
   * column throws at `split`; a null or empty stored file gives an empty
   * input path instead of throwing.
   */
  function ResumedJob(rec: VideoRecord, uploadDir: string, outputDir: string): (r: Result<Job>)
    ensures r.Ok? <==> rec.qualities.Some?
    ensures r.Err? ==> r.message == Controllers.NullQualities
    ensures r.Ok? ==>
      && r.value.id == rec.id && r.value.duration == rec.duration
      && r.value.storedFile == rec.storedFile
      && r.value.qualities == Split(rec.qualities.value, ',')
      && (r.value.inputFilePath == "" <==> rec.storedFile.None? || rec.storedFile.value == "")
      && (rec.storedFile.Some? && rec.storedFile.value != "" ==>
            r.value.inputFilePath == PathJoin(uploadDir, rec.storedFile.value))
      && r.value.outputDir == PathJoin(outputDir, IntToString(rec.id))
  {
    if rec.qualities.None? then Err(Controllers.NullQualities)
    else
      var input := if rec.storedFile.None? || rec.storedFile.value == "" then "" else PathJoin(uploadDir, rec.storedFile.value);
      Ok(Job(rec.id, rec.storedFile, Split(rec.qualities.value, ','), input,
        PathJoin(outputDir, IntToString(rec.id)), rec.duration))
  }

  /** The result of `resumePendingJobs`: the worker, the announcements, the jobs added in order, the error thrown. */
  datatype Resumed = Resumed(worker: Worker, events: seq<Event>, added: seq<Job>, error: Option<string>)

  /**
   * The `forEach` of `resumePendingJobs` from row `i` on, given what each row
   * rebuilds into: each job is added at once; the first row that throws
   * aborts the loop and the error leaves the function.
   */
  function ResumeFrom(w: Worker, jobs: seq<Result<Job>>, i: nat): (r: Resumed)
    requires i <= |jobs|
    ensures |r.added| <= |jobs| - i
    ensures r.error.None? ==> |r.added| == |jobs| - i
    ensures r.worker.socketSet == w.socketSet
    decreases |jobs| - i
  {
    if i == |jobs| then Resumed(w, [], [], None)
    else
      match jobs[i]
      case Err(m) => Resumed(w, [], [], Some(m))
      case Ok(job) =>
        var (w', events) := AddJob(w, job);
        var rest := ResumeFrom(w', jobs, i + 1);
        Resumed(rest.worker, events + rest.events, [job] + rest.added, rest.error)
  }

  /** `resumePendingJobs` over the queued and processing rows read up front, in table order. */
  function Resume(w: Worker, uploadDir: string, outputDir: string): Resumed {
    var rows := Store.Pending(w.db);
    ResumeFrom(w, seq(|rows|, k requires 0 <= k < |rows| => ResumedJob(rows[k], uploadDir, outputDir)), 0)
  }

  /**
   * Resuming from row `i` adds the jobs of the rows before the first one
   * that throws, in order, and then reports that row's error.
   */
  lemma {:induction false} ResumeFromStopsAtFirstBad(w: Worker, jobs: seq<Result<Job>>, i: nat, j: nat)
    requires i <= j <= |jobs|
    requires forall k :: i <= k < j ==> jobs[k].Ok?
    requires j < |jobs| ==> jobs[j].Err?
    ensures var r := ResumeFrom(w, jobs, i);
      && |r.added| == j - i
      && (forall k :: i <= k < j ==> jobs[k] == Ok(r.added[k - i]))
      && (r.error.Some? <==> j < |jobs|)
      && (j < |jobs| ==> jobs[j] == Err(r.error.value))
    decreases j - i
  {
    if i < j {
      ResumeFromStopsAtFirstBad(AddJob(w, jobs[i].value).0, jobs, i + 1, j);
    }
  }

  /**
   * Resuming the table adds the jobs of its queued and processing rows in id
   * order, each rebuilt from its row, up to the first row whose qualities
   * column is null; that row's `TypeError` then leaves the function.
   */
  lemma ResumeStopsAtNullQualities(w: Worker, uploadDir: string, outputDir: string, j: nat)
    requires j <= |Store.Pending(w.db)|
    requires forall k :: 0 <= k < j ==> Store.Pending(w.db)[k].qualities.Some?
    requires j < |Store.Pending(w.db)| ==> Store.Pending(w.db)[j].qualities.None?
    ensures var r := Resume(w, uploadDir, outputDir);
      var rows := Store.Pending(w.db);
      && |r.added| == j
      && (forall k :: 0 <= k < j ==> ResumedJob(rows[k], uploadDir, outputDir) == Ok(r.added[k]))
      && (r.error.Some? <==> j < |rows|)
      && (j < |rows| ==> r.error == Some(Controllers.NullQualities))
  {
    var rows := Store.Pending(w.db);
    var jobs := seq(|rows|, k requires 0 <= k < |rows| => ResumedJob(rows[k], uploadDir, outputDir));
    assert Resume(w, uploadDir, outputDir) == ResumeFrom(w, jobs, 0);
    ResumeFromStopsAtFirstBad(w, jobs, 0, j);
    var r := ResumeFrom(w, jobs, 0);
    forall k | 0 <= k < j ensures ResumedJob(rows[k], uploadDir, outputDir) == Ok(r.added[k]) {
      assert jobs[k] == Ok(r.added[k - 0]);
    }
  }

  /** Resuming keeps the loop's invariant and leaves the added jobs outstanding after the old ones, in order. */
  lemma {:induction false} ResumeFromEnqueues(w: Worker, jobs: seq<Result<Job>>, i: nat)
    requires Scheduler.Valid(w.sched) && MarksRunning(w) && i <= |jobs|
    ensures var r := ResumeFrom(w, jobs, i);
      && Scheduler.Valid(r.worker.sched) && MarksRunning(r.worker)
      && Outstanding(r.worker.sched) == Outstanding(w.sched) + r.added
    decreases |jobs| - i
  {
    if i < |jobs| && jobs[i].Ok? {
      var job := jobs[i].value;
      var w' := AddJob(w, job).0;
      EnqueueValid(w.sched, job);
      AddJobMarksRunning(w, job);
      ResumeFromEnqueues(w', jobs, i + 1);
      var rest := ResumeFrom(w', jobs, i + 1);
      assert Outstanding(w'.sched) + rest.added == Outstanding(w.sched) + ([job] + rest.added);
    }
  }

  /**
   * On an idle worker the first resumed job starts at once: its row is
   * marked `processing` and announced before any other row is touched.
   */
  lemma ResumeStartsFirst(w: Worker, jobs: seq<Result<Job>>)
    requires w.sched == Idle && |jobs| > 0 && jobs[0].Ok?
    ensures var r := ResumeFrom(w, jobs, 0);
      && |r.events| >= 1
      && r.events[0] == VideoUpdated(GetById(AddJob(w, jobs[0].value).0.db, jobs[0].value.id))
      && r.worker.sched.running == Some(jobs[0].value)
  {
    var job := jobs[0].value;
    var w' := AddJob(w, job).0;
    ResumeFromKeepsRunning(w', jobs, 1);
  }

  /** Once the loop runs, adding more jobs never changes which job is awaited. */
  lemma {:induction false} ResumeFromKeepsRunning(w: Worker, jobs: seq<Result<Job>>, i: nat)
    requires w.sched.processing && i <= |jobs|
    ensures ResumeFrom(w, jobs, i).worker.sched.running == w.sched.running
    ensures ResumeFrom(w, jobs, i).worker.sched.processing
    decreases |jobs| - i
  {
    if i < |jobs| && jobs[i].Ok? {
      ResumeFromKeepsRunning(AddJob(w, jobs[i].value).0, jobs, i + 1);
    }
  }

  /** Both queues rebuild a complete row into the same job. */
  lemma ResumedJobsAgree(rec: VideoRecord, uploadDir: string, outputDir: string)
    requires rec.qualities.Some? && rec.storedFile.Some? && rec.storedFile.value != ""
    ensures ResumedJob(rec, uploadDir, outputDir) == JobQueue.ResumedJob(rec, uploadDir, outputDir)
  {
  }
}

=== FILE: wrappers.dfy ===
/** Option and Result, used wherever the modelled code returns `undefined` or throws. */
module Wrappers {

  /** A value that may be absent: `undefined`/`null` in the modelled code. */
  datatype Option<+T> = None | Some(value: T) {
    function GetOr(default: T): T {
      match this
      case Some(v) => v
      case None => default
    }
  }

  /** The outcome of an operation that either returns a value or throws an error message. */
  datatype Result<+R> = Ok(value: R) | Err(message: string) {
    predicate IsFailure() {
      Err?
    }
  }
}
